=== FILE: README.md ===
# SCIP branching core and list-scheduling propagation, in Dafny

This project models two parts of the SCIP constraint integer programming solver.

The first part is the branching machinery of `src/scip/branch.c`:

- **The LP candidate cache.** The fractional binary and integer columns of the current LP solution. It is rebuilt once per LP and arranged so that the candidates of maximal branching priority come first, with binaries in front.
- **The pseudo candidate store.** Every unfixed discrete variable, kept in four tiers: maximal-priority binaries, integers and implicit integers, then the rest. Each member has a back-pointer to its slot. Insertion and removal work by cascades of moves into a free slot. A full resort happens only when the maximal-priority tier empties.
- **Branching rules.** The activation filter, result-code validation, statistics, initialisation, priority changes, and the priority comparator used to sort the rules.
- **The dispatcher.** `SCIPbranchExecLP` and `SCIPbranchExecPseudo` try the sorted rules until one acts. LP branching hands over to pseudo branching when an unfixed variable outranks every fractional one. When no rule acts, the fallback branches on the first candidate of maximal (priority, branching factor).
- **Branching scores.** The sum and product scores of two gains, and the multi-child score built from the two smallest gains.

The second part is the precedence propagation and forward scheduling loop of the list-scheduling heuristic in `examples/Scheduler/src/heur_listscheduling.c`. Resource profiles are an oracle passed in as a function.

Files, one module each:

- `wrappers.dfy`: `Option` and `Result`.
- `vars.dfy`: the variable record, the C `int` range and its wrap-around, and the slot swap that every array move is built from.
- `lpcands.dfy`: the LP candidate cache.
- `pseudocands.dfy`: the pseudo store, insertion and resort.
- `pseudoupdate.dfy`: removal, `SCIPbranchcandRemoveVar` and `SCIPbranchcandUpdateVar`.
- `rules.dfy`: the rules.
- `score.dfy`: the scores.
- `dispatch.dfy`: the dispatcher.
- `listscheduling.dfy`: the scheduler.

Modelling choices:

- The C code writes the inserted or removed variable into its final slot last. In the model, the free slot always holds that variable, so every move is a swap. The resulting arrays are the same.
- A variable's back-pointer is an entry of a map from variable id to slot. An id missing from the map stands for the back-pointer -1.
- The content of the pseudo store is the map from member id to variable (`PseudoCands.Contents`). The soundness lemmas state what each operation does to it.
- The solver's floating-point tolerance tests become exact comparisons on `real`. The fractional part becomes `x - floor(x)`.
- A rule's callback is represented by what it does at the current node. It either gives a response (the result code and the changes observed across the call) or returns an error code, which the solver passes on. A missing callback is `None`.
- The rule sort of `SCIPsetSortBranchrules` lives in `set.c`, which is not part of this model. It is modelled as a stable insertion sort with the intended comparator `Rules.Comp` (see Findings and Left out). Rules are sorted on every call.
- Some descriptions of the sum score weigh the down gain by `scorefac`. The code at branch.c:1326-1332 weighs the larger gain, and the model follows the code.

## Model

| member | source | states |
|---|---|---|
| `LPCands.FracCandsMembers` | src/scip/branch.c:211-225 | A column yields an LP candidate exactly when its variable is binary or integer, its local domain spans more than half a unit, and its LP value is fractional. |
| `LPCands.Frac` | src/scip/branch.c:223-224 | The fractional part of an LP value lies in [0, 1). |
| `LPCands.LPInsertTiers` | src/scip/branch.c:229-277 | One insertion of the scan keeps the tier layout: maximal-priority binaries, then the other maximal-priority candidates, then strictly lower priorities. A higher priority makes the candidate the single best one at the front; an equal one grows the maximal tier by one; a lower one appends it behind the tiers. |
| `LPCands.LPInsertPermutes` | src/scip/branch.c:229-277 | One insertion adds exactly the new candidate to the cache's multiset; the moves lose and duplicate nothing. |
| `LPCands.BuildLPSound` | src/scip/branch.c:188-286 | A rebuild leaves exactly the candidates of the columns, as a multiset, arranged in tiers. |
| `LPCands.CalcLPCandsSound` | src/scip/branch.c:169-286 | The cache is rebuilt exactly when it was built for an older LP, and afterwards it is valid for the current LP count. |
| `LPCands.CalcLPCandsIdempotent` | src/scip/branch.c:169 | A second request within the same LP returns the cache unchanged, whatever the columns. |
| `LPCands.NPrioLPReportedMeaning` | src/scip/branch.c:319-320 | The reported count of the LP candidates is exactly the prefix of maximal-priority candidates, or of maximal-priority binaries under `preferbinary` when there are some. |
| `PseudoCands.MoveHolePointers` | src/scip/branch.c:469-474 | Moving an entry into the free slot and updating its back-pointer keeps every other back-pointer correct. |
| `PseudoCands.MoveHoleStored` | src/scip/branch.c:469-474 | Such a move leaves the store's content unchanged apart from the variable in the free slot. |
| `PseudoCands.InsertPseudoCandSound` | src/scip/branch.c:441-525 | After an insertion, the slots up to the free slot are in tiers, later slots are untouched, every back-pointer is correct, and the content gains exactly the variable. A higher priority resets the tier to that variable alone; an equal one grows the tier by one; a lower one leaves array and tiers alone. |
| `PseudoCands.SortStep` | src/scip/branch.c:547-552 | Re-inserting a slot of priority at least the running maximum extends the sorted prefix by one and keeps the content. |
| `PseudoCands.SortFromSound` | src/scip/branch.c:545-552 | The resort loop, run from a sorted prefix, leaves a valid store with the same content. |
| `PseudoCands.SortPseudoCandsSound` | src/scip/branch.c:531-559 | Resorting a store whose maximal-priority tier is empty rebuilds valid tiers around the new maximal priority and keeps the content. |
| `PseudoCands.NPrioReportedMeaning` | src/scip/branch.c:381-382 | The reported count of the pseudo candidates is exactly the prefix of maximal-priority candidates, or of maximal-priority binaries under `preferbinary` when there are some; no member has a higher priority. |
| `PseudoCands.NPrioPseudoImplsMeaning` | src/scip/branch.c:428-435 | The implicit-integer count is non-negative and is exactly the slots of maximal-priority implicit integers, right behind the binaries and integers. |
| `PseudoUpdate.PassTiers` | src/scip/branch.c:592-628 | After one pass of the removal cascade, every slot except the free slot's new place (the last slot of the tier it lay in) is laid out in tiers again, and the array stays discrete. |
| `PseudoUpdate.PassPointers` | src/scip/branch.c:592-628 | One pass keeps every back-pointer correct and the content unchanged; the removed variable travels with the free slot. |
| `PseudoUpdate.ShiftSound` | src/scip/branch.c:588-637 | The whole cascade leaves tiers, correct back-pointers, one entry fewer, and the content minus exactly the removed variable. |
| `PseudoUpdate.RemovePseudoCandSound` | src/scip/branch.c:564-648 | Removal, including the resort of an emptied tier, keeps the store valid and removes exactly the one variable. |
| `PseudoUpdate.RemoveVarSound` | src/scip/branch.c:651-665 | Removing a variable keeps the store valid and drops it from the content; for a non-member the store is unchanged. |
| `PseudoUpdate.UpdateInsertSound` | src/scip/branch.c:683-689 | A new candidate is appended and inserted; the store stays valid and its content gains exactly that variable. |
| `PseudoUpdate.UpdateVarSound` | src/scip/branch.c:668-706 | After the hook, the variable is a member exactly when it is loose or a column, not continuous and unfixed. The store stays valid. A new member is added as given, an existing one is left as it was, and a non-candidate is removed. |
| `PseudoUpdate.UpdateVarIdempotent` | src/scip/branch.c:668-706 | Running the hook twice for the same variable has the effect of running it once. |
| `PseudoUpdate.UpdateVarMembers` | src/scip/branch.c:668-706 | The hook changes the membership of that variable alone. |
| `PseudoUpdate.UpdateVarTracks` | src/scip/branch.c:337-373 | When the hook runs after each change of a problem variable, the members stay exactly the problem variables that should be pseudo candidates. |
| `Rules.CreateLifecycle` | src/scip/branch.c:737-890 | A newly created rule can be initialised, after which its counters are zero. Exiting it then gives back the created rule. It cannot be exited before initialisation. In a mode it has no callback for, a call leaves it untouched and reports DIDNOTRUN. |
| `Rules.ExecSolInactive` | src/scip/branch.c:947-956 | A rule is skipped exactly when its callback is missing, its depth limit excludes the node, or the node's bound is too far from the global one. A skipped rule reports DIDNOTRUN and is left untouched. |
| `Rules.ExecSolCallbackError` | src/scip/branch.c:972 | When an active rule's callback returns an error, the call returns that error and the rule's statistics stay as they were. The pseudo-mode twin is branch.c:1056. |
| `Rules.ExecSolValidation` | src/scip/branch.c:977-994 | When the callback answers, an active call fails with INVALIDRESULT exactly on a code outside the mode's allowed set (SEPARATED only in LP mode) or on CONSADDED without permission. Otherwise it reports the callback's result. The pseudo-mode twin at branch.c:1061-1077 is the same function in `PseudoMode`. |
| `Rules.ExecSolStats` | src/scip/branch.c:996-1009 | The mode's call counter grows exactly on a result other than DIDNOTRUN, and the cutoff counter exactly on CUTOFF. BRANCHED adds the children created; any other result adds the domain changes, the cuts (LP mode only) and the constraints. Nothing else of the rule changes. |
| `Rules.InitSound` | src/scip/branch.c:835-866 | Initialisation fails with INVALIDCALL exactly on an initialised rule; otherwise it zeroes all counters and sets the flag, and changes nothing else. |
| `Rules.InitExit` | src/scip/branch.c:835-890 | Exit undoes initialisation except for the zeroed counters, and a second initialisation without an exit fails. |
| `Rules.SetPrioritySound` | src/scip/branch.c:1150-1161 | A priority change reaches exactly the named rule and marks the rules unsorted. |
| `Rules.CompOrdersByPriority` | src/scip/branch.c:716-719 | The intended comparator is negative exactly when the first rule has the higher priority, zero exactly on equal priorities, and antisymmetric. |
| `Rules.CompAsWrittenReverses` | src/scip/branch.c:716-719 | The comparator as written, in 32-bit arithmetic, orders a rule of priority INT_MIN before one of priority 1. |
| `Rules.SortAsWrittenMisorders` | src/scip/branch.c:716-719 | Sorting with the as-written comparator yields the order INT_MIN, 1, which is not descending. |
| `Rules.SortAsWrittenAgrees` | src/scip/branch.c:716-719 | When no two priorities lie more than INT_MAX apart, the subtraction does not wrap, and sorting with the as-written comparator gives exactly the intended order. |
| `Rules.SortRulesSound` | src/scip/branch.c:1431 | Sorting the rules yields a permutation of them in descending priority. |
| `Rules.SortRulesExample` | src/scip/branch.c:1431 | Rules of priorities 5, 10 and 1 are tried in the order 10, 5, 1. Rules of equal priority keep their order, which is a property of the model's stable sort. |
| `Score.ScoreFloorsGains` | src/scip/branch.c:1320-1322 | Gains below epsilon count as epsilon. |
| `Score.CombineRange` | src/scip/branch.c:1326-1332 | With a weight in [0, 1], the sum score lies between the two gains. |
| `Score.ScoreSymmetric` | src/scip/branch.c:1307-1349 | The score does not depend on which gain is the down gain. |
| `Score.ScoreRange` | src/scip/branch.c:1320-1332 | Without a variable, the sum score lies between the two gains raised to epsilon. |
| `Score.ScoreMonotone` | src/scip/branch.c:1307-1349 | With a non-negative epsilon, a weight in [0, 1] and a non-negative branching factor, a larger gain never lowers the score. |
| `Score.TwoSmallestNewFirst` | src/scip/branch.c:1370-1374 | A gain below the smallest becomes the smallest, and the old smallest becomes the second smallest. |
| `Score.TwoSmallestNewSecond` | src/scip/branch.c:1375-1376 | A gain between the two becomes the second smallest. |
| `Score.TwoSmallestKeep` | src/scip/branch.c:1368-1377 | A gain no smaller than the second smallest changes neither. |
| `Score.SmallestGains` | src/scip/branch.c:1366-1377 | The loop returns the smallest and second smallest gains, capped at infinity, and both are infinity when there are no children. |
| `Score.TwoSmallestUnique` | src/scip/branch.c:1366-1377 | The smallest and second smallest gains are determined by the gains alone. |
| `Score.GetScoreMultiple` | src/scip/branch.c:1352-1380 | The multi-child score is the two-gain score of the smallest and second smallest gains, and of infinity twice for no children. |
| `Dispatch.RunRulesSound` | src/scip/branch.c:1434-1438 | The rule loop stops at the first rule whose call fails or reports anything but DIDNOTRUN. Every rule before it has been called, passed, and keeps the statistics of its call, also when the loop ends in an error. The stopping rule shows its call if it succeeded and is untouched if it failed. Rules after it are untouched. The result is that rule's result or error, or DIDNOTRUN if all rules passed. |
| `Dispatch.RunRulesError` | src/scip/branch.c:1434-1438 | An error ends the loop with the error of the first failing call. The rules before it keep the statistics of their calls, since the solver updates them in place. That rule and all later ones are untouched. |
| `Dispatch.RunResult` | src/scip/branch.c:1434-1440 | The loop ends with DIDNOTRUN exactly when every rule passed. |
| `Dispatch.RunKeepsOrder` | src/scip/branch.c:1434-1438 | The loop keeps every rule's priority, so the rules stay sorted, also when it ends in an error. |
| `Dispatch.BestCandSound` | src/scip/branch.c:1452-1464 | The fallback scan returns -1 exactly when no candidate beats (INT_MIN, -DBL_MAX). Otherwise it returns a candidate that no candidate beats in (priority, factor) and that beats every earlier one: the first lexicographic maximum. |
| `Dispatch.BestCandExample` | src/scip/branch.c:1452-1464 | Of priorities 0, 2, 2 with factors 1, 3, 5, the fallback takes the third candidate. |
| `Dispatch.ExecPseudoSound` | src/scip/branch.c:1481-1554 | With no pseudo candidates, nothing happens and the result is DIDNOTRUN. Otherwise the result is never DIDNOTRUN and the rules end up sorted, even after an error. The fallback branches exactly when every rule passed, on the first candidate of maximal priority and factor, and the result is then BRANCHED. |
| `Dispatch.ExecLPEmpty` | src/scip/branch.c:1408-1417 | LP branching recomputes the candidate cache, and without fractional candidates does nothing else and reports DIDNOTRUN. |
| `Dispatch.ExecLPDelegates` | src/scip/branch.c:1422-1428 | When an unfixed variable has a higher priority than every fractional one, the outcome is that of pseudo branching and is not DIDNOTRUN. |
| `Dispatch.ExecLPRuns` | src/scip/branch.c:1431-1475 | Otherwise the rules are tried in priority order and end up sorted, even after an error, and the result is never DIDNOTRUN. The fallback branches exactly when every rule passed, on the first LP candidate of maximal priority and factor. |
| `ListScheduling.FirstViolationSound` | examples/Scheduler/src/heur_listscheduling.c:410-419 | The first successor whose latest start lies before the completion of the predecessor is found, and every successor before it fits. |
| `ListScheduling.PropagateEst` | examples/Scheduler/src/heur_listscheduling.c:389-420 | Infeasibility is reported exactly when some successor's latest start lies before the completion. Each successor before the first such one is raised to the completion time. That successor and every other job keep their earliest start. |
| `ListScheduling.PropagateEstRaises` | examples/Scheduler/src/heur_listscheduling.c:404-419 | Propagation never lowers an earliest start, and each successor it reached starts no earlier than the predecessor's completion. |
| `ListScheduling.PropagateLst` | examples/Scheduler/src/heur_listscheduling.c:424-444 | Only the predecessor's latest start is written, and it never increases. It is then at most every other successor's latest start minus the duration. Without a self-loop it equals the old value or one of those bounds. |
| `ListScheduling.Pass` | examples/Scheduler/src/heur_listscheduling.c:288-307 | One pass over the profiles never moves the start backwards. A change noted before the pass stays noted. A change the pass itself reports means some profile after the first answered a later start than the one it was given. Without a change, every profile after the first accepts the resulting start as it is. A profile that cannot take the job ends the pass with None. |
| `ListScheduling.Earliest` | examples/Scheduler/src/heur_listscheduling.c:268-313 | The earliest-start search returns a start no earlier than the earliest start, and no later than the latest start when there is at least one profile. Every profile after the first accepts it as it is. It returns None only when some profile cannot take the job. |
| `ListScheduling.EarliestFixpoint` | examples/Scheduler/src/heur_listscheduling.c:284-310 | A start that every profile accepts as it is, is returned unchanged. |
| `ListScheduling.PlaceJob` | examples/Scheduler/src/heur_listscheduling.c:495-511 | A job of positive duration gets the earliest start every profile accepts (`ListScheduling.Accepted`). When there is none, its start time becomes -1, nothing is placed and infeasibility is reported. Otherwise it is appended to the placed jobs at that start and the makespan rises to its completion. Every other start time is then given by `ListScheduling.EstsAfter`: the successors before the first violated one are raised to that completion. Infeasibility is reported exactly when such a violated successor exists. |
| `ListScheduling.TakeJob` | examples/Scheduler/src/heur_listscheduling.c:481-513 | A job of duration zero leaves the start times, placed jobs and makespan unchanged and is never infeasible. A job of positive duration is placed as `ListScheduling.PlaceJob` states. The result is one step of the fold `ListScheduling.ScheduleFrom`. |
| `ListScheduling.MakespanStep` | examples/Scheduler/src/heur_listscheduling.c:504 | Raising the makespan to a new completion keeps it the latest completion of the placed jobs. |
| `ListScheduling.PlaceWithKeepsStarts` | examples/Scheduler/src/heur_listscheduling.c:410-419 | Placing a job that is not its own successor, was not placed before, and has no placed job among its successors leaves every placed job's start time as it was placed. |
| `ListScheduling.ScheduleKeepsStarts` | examples/Scheduler/src/heur_listscheduling.c:481-513 | Along a topological order that takes each job once, propagation never reaches a placed job, so in the final state every placed job's start time is the start it was placed at. |
| `ListScheduling.ForwardFrom` | examples/Scheduler/src/heur_listscheduling.c:481-513 | The loop continued from the `j`-th job ends in the state `ListScheduling.ScheduleFrom` computes from that job on. It stops after the first infeasible job, and the placed jobs are the positive-duration jobs taken, minus that last one when it did not fit. |
| `ListScheduling.ForwardSchedule` | examples/Scheduler/src/heur_listscheduling.c:450-525 | The jobs are taken in the given order and those of duration zero are skipped. The loop stops after the first infeasible job. The placed jobs are the positive-duration jobs taken, minus that last one when it did not fit. The makespan is at least every placed job's completion from the start it was placed at, and equals one of them, or 0 if none was placed. When the order is topological and takes each job once, as the heuristic's initial order is, every placed job's returned start time is the start it was placed at, so the makespan bounds the returned start times too. The final start times, placed jobs, makespan and flag are those of the fold `ListScheduling.ScheduleFrom` over the whole order, which applies `ListScheduling.PlaceJob`'s step to each job. |

## Left out

- Memory growth of the candidate arrays (branch.c:53-97): sequences grow as needed.
- Clocks, parameter registration and the priority-change parameter callback (branch.c:723-734, 789-804): no effect on the modelled state.
- Creation and freeing of the candidate storage and rules (branch.c:106-147, 810-832): allocation only. The created states are the constants `LPCands.EmptyLP` and `PseudoCands.Empty`.
- The rules' own init and exit callbacks (branch.c:859-862, 883-886), initsol and exitsol callbacks (branch.c:893-926) and free callback: user code. `SCIPbranchruleInitsol` and `SCIPbranchruleExitsol` do nothing else and are not modelled.
- The getters and setters of rule fields (branch.c:1099-1297), apart from the priority setter.
- Tree operations: `SCIPtreeBranchVar` is represented by the variable the fallback branches on (`Dispatch.Outcome.branched`). The number of children a callback creates is part of its response. Errors that branching on a variable or recomputing the LP candidates could return (memory and LP errors) are not modelled, so these steps always succeed.
- Floating-point tolerances: all comparisons are exact, and the feasibility tolerance of the fractional part is zero.
- `SCIPsetSortBranchrules` (in `set.c`, which is not part of this model) is modelled as a stable insertion sort run on every call, without the cached sorted flag.
- Dispatch.ExecLPDelegates, Dispatch.ExecLPRuns, Dispatch.ExecPseudoSound: they assume that every candidate beats the fallback's start pair (INT_MIN, -DBL_MAX), i.e. branching factors are non-negative as `var.c` ensures. `var.c` is not part of this model.
- PseudoUpdate.UpdateVar, Dispatch.ExecPseudo, Dispatch.ExecLP: a stored candidate is a copy of the variable's priority, type and branching factor taken when it was inserted. The code keeps pointers and reads the live priority and factor in the fallback (branch.c:1457-1458, 1533-1534). It also relies on a member's priority and type not changing while stored (the asserts at branch.c:596, 610, 623). A branching factor changed after insertion is therefore not seen by the model's fallback.
- Dispatch.ExecPseudoSound, Dispatch.ExecLPRuns: the rules are sorted with the intended comparator `Rules.Comp`, not the subtracting one at branch.c:716-719. The two orders agree while no two priorities lie more than INT_MAX apart (`Rules.SortAsWrittenAgrees`). Beyond that the code's order differs, as the Findings row shows.
- ListScheduling.ForwardSchedule: the returned start times are tied to the placements only for a topological order that takes each job once. For other orders, the code's propagation can raise a job already placed (heur_listscheduling.c:418), and the makespan then bounds only the placement starts. The order of the second forward pass (heur_listscheduling.c:716-718, sorted by start time) is not shown to be topological.
- `Dispatch.ExecLPDelegates` also assumes a valid pseudo store. The code asserts its result is not DIDNOTRUN rather than proving it.
- ListScheduling.Earliest: only profiles after the first are shown to accept the result as it is. As in the code, the first profile answered for the previous start of the last pass.
- The stair-map resource profiles, the precedence digraph and the permutation sorts of the scheduler: profiles are an oracle (`ListScheduling.Fit`) assumed to answer within the earliest and latest start. Successor lists are sequences.
- The scheduler's backward scheduling, `profilesFindLatestFeasibleStart`, the initial permutation and solution construction are not modelled.
- C `int` overflow in the scheduler's start-time arithmetic is not modelled; integers are unbounded.
- `performForwardScheduling` requires its infeasibility flag to be false on entry; the model starts from false.

## Findings

| source | as written | input that shows it | evidently intended | confidence | as-written member | corrected member |
|---|---|---|---|---|---|---|
| src/scip/branch.c:716-719 | The comparator returns `elem2->priority - elem1->priority` in C `int`, while priorities range over INT_MIN..INT_MAX (branch.c:793). | Priorities 1 and INT_MIN: 1 - INT_MIN overflows. With wrap-around it becomes INT_MIN + 1 < 0, so INT_MIN is sorted before 1. | Order by descending priority, e.g. by comparing the priorities instead of subtracting them. | not executed | `Rules.CompAsWrittenReverses`, `Rules.SortAsWrittenMisorders` | `Rules.SortRulesSound`, `Rules.CompOrdersByPriority` |

=== FILE: dispatch.dfy ===
/** The branching dispatcher: tries the rules in priority order until one acts,
    and otherwise branches on the best candidate by priority and branching
    factor. */
module Dispatch {
  import opened Wrappers
  import opened Vars
  import opened Rules
  import opened LPCands
  import opened PseudoCands

  // ---------------------------------------------------------------------------
  // Trying the rules

  /** A rule that lets the dispatcher go on: its call succeeds with DIDNOTRUN. */
  ghost predicate Passes(r: Rule, mode: Mode, nd: Node, allowaddcons: bool) {
    ExecSol(r, mode, nd, allowaddcons).Success? && ExecSol(r, mode, nd, allowaddcons).value.1 == DidNotRun
  }

  /** What the loop over the rules leaves behind: the rules, with the
      statistics of every call that got through, and the result or the error
      that ended the loop. The solver updates the rules in place, so an error
      does not undo the calls before it. */
  datatype Run = Run(rules: seq<Rule>, status: Result<ResultCode, RetCode>)

  /** The loop of SCIPbranchExecLP and SCIPbranchExecPseudo over the rules: call
      them in order until one reports anything but DIDNOTRUN; an error ends the
      loop. */
  function RunRules(rules: seq<Rule>, mode: Mode, nd: Node, allowaddcons: bool): (out: Run)
    ensures |out.rules| == |rules|
  {
    if |rules| == 0 then Run(rules, Success(DidNotRun))
    else
      match ExecSol(rules[0], mode, nd, allowaddcons)
      case Failure(e) => Run(rules, Failure(e))
      case Success(first) =>
        if first.1 != DidNotRun then Run([first.0] + rules[1..], Success(first.1))
        else
          var rest := RunRules(rules[1..], mode, nd, allowaddcons);
          Run([first.0] + rest.rules, rest.status)
  }

  /** `k` is the first rule that does not pass (or the number of rules). */
  ghost predicate FirstStop(rules: seq<Rule>, mode: Mode, nd: Node, allowaddcons: bool, k: nat) {
    && k <= |rules|
    && (forall j :: 0 <= j < k ==> Passes(rules[j], mode, nd, allowaddcons))
    && (k < |rules| ==> !Passes(rules[k], mode, nd, allowaddcons))
  }

  /** What the loop returns when rule `k` is the first not to pass: every rule
      before `k` has been called and keeps that call's statistics; rule `k`
      shows its call if that call succeeded and is untouched if it failed; the
      rules after it are untouched. The status is DIDNOTRUN if all passed, the
      first other result if that call succeeded, and that call's error
      otherwise. */
  ghost predicate StopsAt(rules: seq<Rule>, mode: Mode, nd: Node, allowaddcons: bool, k: nat, out: Run)
    requires FirstStop(rules, mode, nd, allowaddcons, k)
  {
    && |out.rules| == |rules|
    && (forall j :: 0 <= j < k ==> ExecSol(rules[j], mode, nd, allowaddcons) == Success((out.rules[j], DidNotRun)))
    && (k == |rules| ==> out.status == Success(DidNotRun))
    && (k < |rules| ==> StopsWith(rules[k], mode, nd, allowaddcons, out.rules[k], out.status)
                        && out.rules[k + 1..] == rules[k + 1..])
  }

  /** How the rule that ends the loop shows in its outcome. */
  ghost predicate StopsWith(r: Rule, mode: Mode, nd: Node, allowaddcons: bool, r': Rule,
                            status: Result<ResultCode, RetCode>) {
    match ExecSol(r, mode, nd, allowaddcons)
    case Failure(e) => status == Failure(e) && r' == r
    case Success(p) => status == Success(p.1) && r' == p.0
  }

  /** The loop stops at the first rule that does not pass. */
  lemma {:induction false} RunRulesSound(rules: seq<Rule>, mode: Mode, nd: Node, allowaddcons: bool)
    ensures exists k: nat :: FirstStop(rules, mode, nd, allowaddcons, k)
                          && StopsAt(rules, mode, nd, allowaddcons, k, RunRules(rules, mode, nd, allowaddcons))
  {
    if |rules| == 0 {
      assert FirstStop(rules, mode, nd, allowaddcons, 0);
    } else if !Passes(rules[0], mode, nd, allowaddcons) {
      assert FirstStop(rules, mode, nd, allowaddcons, 0);
      assert rules[1..] == rules[0 + 1..];
      assert StopsAt(rules, mode, nd, allowaddcons, 0, RunRules(rules, mode, nd, allowaddcons));
    } else {
      var tail := rules[1..];
      RunRulesSound(tail, mode, nd, allowaddcons);
      var k: nat :| FirstStop(tail, mode, nd, allowaddcons, k)
                 && StopsAt(tail, mode, nd, allowaddcons, k, RunRules(tail, mode, nd, allowaddcons));
      RunRulesStep(rules, mode, nd, allowaddcons, k);
    }
  }

  /** When a rule's call fails, the loop returns that call's error; every rule
      before it passed and keeps the statistics of its call, and it and every
      rule after it are untouched. */
  lemma RunRulesError(rules: seq<Rule>, mode: Mode, nd: Node, allowaddcons: bool)
    requires RunRules(rules, mode, nd, allowaddcons).status.Failure?
    ensures var out := RunRules(rules, mode, nd, allowaddcons);
      exists k :: 0 <= k < |rules|
        && ExecSol(rules[k], mode, nd, allowaddcons) == Failure(out.status.error)
        && (forall j :: 0 <= j < k ==> ExecSol(rules[j], mode, nd, allowaddcons) == Success((out.rules[j], DidNotRun)))
        && out.rules[k..] == rules[k..]
  {
    var out := RunRules(rules, mode, nd, allowaddcons);
    RunRulesSound(rules, mode, nd, allowaddcons);
    var k: nat :| FirstStop(rules, mode, nd, allowaddcons, k) && StopsAt(rules, mode, nd, allowaddcons, k, out);
    StopFails(rules, mode, nd, allowaddcons, k, out);
  }

  /** The rule the loop stopped at failed when the loop reports an error. */
  lemma StopFails(rules: seq<Rule>, mode: Mode, nd: Node, allowaddcons: bool, k: nat, out: Run)
    requires FirstStop(rules, mode, nd, allowaddcons, k) && StopsAt(rules, mode, nd, allowaddcons, k, out)
    requires out.status.Failure?
    ensures k < |rules| && ExecSol(rules[k], mode, nd, allowaddcons) == Failure(out.status.error)
    ensures out.rules[k..] == rules[k..]
  {
    assert k < |rules|;
    assert StopsWith(rules[k], mode, nd, allowaddcons, out.rules[k], out.status);
    assert out.rules[k] == rules[k] && out.rules[k + 1..] == rules[k + 1..];
    assert out.rules[k..] == [out.rules[k]] + out.rules[k + 1..];
    assert rules[k..] == [rules[k]] + rules[k + 1..];
  }

  lemma RunRulesStep(rules: seq<Rule>, mode: Mode, nd: Node, allowaddcons: bool, k: nat)
    requires |rules| > 0 && Passes(rules[0], mode, nd, allowaddcons)
    requires FirstStop(rules[1..], mode, nd, allowaddcons, k)
    requires StopsAt(rules[1..], mode, nd, allowaddcons, k, RunRules(rules[1..], mode, nd, allowaddcons))
    ensures FirstStop(rules, mode, nd, allowaddcons, k + 1)
    ensures StopsAt(rules, mode, nd, allowaddcons, k + 1, RunRules(rules, mode, nd, allowaddcons))
  {
    var tail := rules[1..];
    FirstStopStep(rules, mode, nd, allowaddcons, k);
    RunRulesUnfold(rules, mode, nd, allowaddcons);
    var rest := RunRules(tail, mode, nd, allowaddcons);
    var rs := [ExecSol(rules[0], mode, nd, allowaddcons).value.0] + rest.rules;
    if k < |tail| {
      StepStop(rules, mode, nd, allowaddcons, k, rs, rest);
    } else {
      StepDone(rules, mode, nd, allowaddcons, k, rs, rest);
    }
  }

  lemma StepDone(rules: seq<Rule>, mode: Mode, nd: Node, allowaddcons: bool, k: nat, rs: seq<Rule>, rest: Run)
    requires |rules| > 0 && Passes(rules[0], mode, nd, allowaddcons)
    requires FirstStop(rules, mode, nd, allowaddcons, k + 1) && k + 1 == |rules|
    requires rs == [ExecSol(rules[0], mode, nd, allowaddcons).value.0] + rest.rules
    requires StopsAt(rules[1..], mode, nd, allowaddcons, k, rest)
    ensures StopsAt(rules, mode, nd, allowaddcons, k + 1, Run(rs, rest.status))
  {
    forall j | 1 <= j < |rules|
      ensures ExecSol(rules[j], mode, nd, allowaddcons) == Success((rs[j], DidNotRun))
    {
      assert rules[1..][j - 1] == rules[j] && rs[j] == rest.rules[j - 1];
    }
  }

  lemma StepStop(rules: seq<Rule>, mode: Mode, nd: Node, allowaddcons: bool, k: nat, rs: seq<Rule>, rest: Run)
    requires |rules| > 0 && Passes(rules[0], mode, nd, allowaddcons)
    requires FirstStop(rules, mode, nd, allowaddcons, k + 1) && k + 1 < |rules|
    requires rs == [ExecSol(rules[0], mode, nd, allowaddcons).value.0] + rest.rules
    requires StopsAt(rules[1..], mode, nd, allowaddcons, k, rest)
    ensures StopsAt(rules, mode, nd, allowaddcons, k + 1, Run(rs, rest.status))
  {
    forall j | 1 <= j < k + 1
      ensures ExecSol(rules[j], mode, nd, allowaddcons) == Success((rs[j], DidNotRun))
    {
      assert rules[1..][j - 1] == rules[j] && rs[j] == rest.rules[j - 1];
    }
    assert rules[1..][k] == rules[k + 1] && rs[k + 1] == rest.rules[k];
    assert rs[k + 2..] == rest.rules[k + 1..];
    assert rules[1..][k + 1..] == rules[k + 2..];
  }

  lemma FirstStopStep(rules: seq<Rule>, mode: Mode, nd: Node, allowaddcons: bool, k: nat)
    requires |rules| > 0 && Passes(rules[0], mode, nd, allowaddcons)
    requires FirstStop(rules[1..], mode, nd, allowaddcons, k)
    ensures FirstStop(rules, mode, nd, allowaddcons, k + 1)
  {
    var tail := rules[1..];
    assert forall j :: 0 <= j < |tail| ==> tail[j] == rules[j + 1];
  }

  /** One step of the loop past a rule that passes. */
  lemma RunRulesUnfold(rules: seq<Rule>, mode: Mode, nd: Node, allowaddcons: bool)
    requires |rules| > 0 && Passes(rules[0], mode, nd, allowaddcons)
    ensures var rest := RunRules(rules[1..], mode, nd, allowaddcons);
      RunRules(rules, mode, nd, allowaddcons)
        == Run([ExecSol(rules[0], mode, nd, allowaddcons).value.0] + rest.rules, rest.status)
  {
  }

  // ---------------------------------------------------------------------------
  // The fallback

  /** Whether variable `v` beats the pair (priority, factor) in the fallback's
      lexicographic order. */
  predicate Beats(v: Var, priority: int, factor: real) {
    v.priority > priority || (v.priority == priority && v.factor > factor)
  }

  /** The fallback scan from position `i` on, with the best candidate so far. */
  function Scan(c: seq<Var>, i: nat, best: int, bp: int, bf: real): (r: int)
    requires i <= |c| && -1 <= best < |c|
    ensures -1 <= r < |c|
    decreases |c| - i
  {
    if i == |c| then best
    else if Beats(c[i], bp, bf) then Scan(c, i + 1, i, c[i].priority, c[i].factor)
    else Scan(c, i + 1, best, bp, bf)
  }

  /** The fallback choice: the first candidate that is maximal in priority,
      then branching factor, starting from (INT_MIN, -DBL_MAX); -1 if no
      candidate beats that start. */
  function BestCand(c: seq<Var>): (r: int)
    ensures -1 <= r < |c|
  {
    Scan(c, 0, -1, IntMin, RealMin)
  }

  /** The state of the scan after position `i`. */
  ghost predicate ScanState(c: seq<Var>, i: nat, best: int, bp: int, bf: real) {
    && i <= |c| && -1 <= best < i
    && (best == -1 ==> bp == IntMin && bf == RealMin)
    && (best >= 0 ==> bp == c[best].priority && bf == c[best].factor && Beats(c[best], IntMin, RealMin)
                      && (forall j :: 0 <= j < best ==> Beats(c[best], c[j].priority, c[j].factor)))
    && (forall j :: 0 <= j < i ==> !Beats(c[j], bp, bf))
  }

  lemma {:induction false} ScanSound(c: seq<Var>, i: nat, best: int, bp: int, bf: real)
    requires ScanState(c, i, best, bp, bf)
    ensures var r := Scan(c, i, best, bp, bf);
      && (r == -1 ==> best == -1 && forall j :: i <= j < |c| ==> !Beats(c[j], IntMin, RealMin))
      && (r >= 0 ==> ScanState(c, |c|, r, c[r].priority, c[r].factor))
      && (r == -1 || r >= 0)
    decreases |c| - i
  {
    if i < |c| {
      if Beats(c[i], bp, bf) {
        forall j | 0 <= j < i ensures Beats(c[i], c[j].priority, c[j].factor) && !Beats(c[j], c[i].priority, c[i].factor) {
          assert !Beats(c[j], bp, bf);
        }
        ScanSound(c, i + 1, i, c[i].priority, c[i].factor);
      } else {
        ScanSound(c, i + 1, best, bp, bf);
      }
    }
  }

  /** The fallback picks -1 exactly when no candidate beats the start pair, and
      otherwise a candidate that no candidate beats and that beats every
      earlier candidate: the first lexicographic maximum. */
  lemma BestCandSound(c: seq<Var>)
    ensures var b := BestCand(c);
      && (b == -1 <==> forall j :: 0 <= j < |c| ==> !Beats(c[j], IntMin, RealMin))
      && (b >= 0 ==> && (forall j :: 0 <= j < |c| ==> !Beats(c[j], c[b].priority, c[b].factor))
                     && (forall j :: 0 <= j < b ==> Beats(c[b], c[j].priority, c[j].factor)))
  {
    ScanSound(c, 0, -1, IntMin, RealMin);
  }

  /** Candidates with priorities 0, 2, 2 and factors 1, 3, 5: the fallback takes
      the last one. */
  lemma BestCandExample()
    ensures BestCand([IntVar(0, 0, 1.0), IntVar(1, 2, 3.0), IntVar(2, 2, 5.0)]) == 2
  {
  }

  /** An integer column variable in [0, 1] with the given priority and factor. */
  function IntVar(id: nat, p: Int32, f: real): Var {
    Var(id, Integer, VarStatus.Column, 0.0, 1.0, p, f)
  }

  /** Every candidate of the sequence beats the fallback's start pair, as the
      nonnegative branching factors of the solver ensure. */
  ghost predicate AboveStart(vs: seq<Var>) {
    forall i :: 0 <= i < |vs| ==> Beats(vs[i], IntMin, RealMin)
  }

  // ---------------------------------------------------------------------------
  // The two entry points

  /** What a branching call leaves behind: the rules (sorted, with the
      statistics of the calls made), the result or the error, and the variable
      the fallback branched on. */
  datatype Outcome = Outcome(rules: seq<Rule>, status: Result<ResultCode, RetCode>, branched: Option<Var>)

  /** SCIPbranchExecPseudo. */
  function ExecPseudo(ps: PseudoStore, rules: seq<Rule>, nd: Node, allowaddcons: bool): (out: Outcome)
    requires AboveStart(ps.cands)
  {
    if |ps.cands| == 0 then Outcome(rules, Success(DidNotRun), None)
    else
      var run := RunRules(SortRules(rules), PseudoMode, nd, allowaddcons);
      if run.status != Success(DidNotRun) then Outcome(run.rules, run.status, None)
      else
        BestCandSound(ps.cands);
        Outcome(run.rules, Success(Branched), Some(ps.cands[BestCand(ps.cands)]))
  }

  function CandVars(cands: seq<LPCand>): (vs: seq<Var>)
    ensures |vs| == |cands| && forall i :: 0 <= i < |cands| ==> vs[i] == cands[i].v
  {
    seq(|cands|, i requires 0 <= i < |cands| => cands[i].v)
  }

  /** SCIPbranchExecLP: computes the LP candidates, delegates to pseudo
      branching when an unfixed variable has a higher priority than every
      fractional one, and otherwise tries the rules and then the fallback on
      the LP candidates. Returns the updated candidate cache too. */
  function ExecLP(lp: LPStore, lpcount: int, cols: seq<Column>, ps: PseudoStore, rules: seq<Rule>,
                  nd: Node, allowaddcons: bool): (out: (LPStore, Outcome))
    requires lp.validlp <= lpcount
    requires AboveStart(CandVars(lp.cands)) && AboveStart(ColumnVars(cols)) && AboveStart(ps.cands)
  {
    var lp' := CalcLPCands(lp, lpcount, cols);
    CalcAboveStart(lp, lpcount, cols);
    if |lp'.cands| == 0 then (lp', Outcome(rules, Success(DidNotRun), None))
    else if ps.maxprio > lp'.maxprio then (lp', ExecPseudo(ps, rules, nd, allowaddcons))
    else
      var run := RunRules(SortRules(rules), LPMode, nd, allowaddcons);
      if run.status != Success(DidNotRun) then (lp', Outcome(run.rules, run.status, None))
      else
        var vs := CandVars(lp'.cands);
        BestCandSound(vs);
        (lp', Outcome(run.rules, Success(Branched), Some(vs[BestCand(vs)])))
  }

  function ColumnVars(cols: seq<Column>): (vs: seq<Var>)
    ensures |vs| == |cols| && forall i :: 0 <= i < |cols| ==> vs[i] == cols[i].v
  {
    seq(|cols|, i requires 0 <= i < |cols| => cols[i].v)
  }

  /** The recomputed candidates still beat the fallback's start pair. */
  lemma CalcAboveStart(lp: LPStore, lpcount: int, cols: seq<Column>)
    requires lp.validlp <= lpcount
    requires AboveStart(CandVars(lp.cands)) && AboveStart(ColumnVars(cols))
    ensures AboveStart(CandVars(CalcLPCands(lp, lpcount, cols).cands))
  {
    if lp.validlp < lpcount {
      var c := CalcLPCands(lp, lpcount, cols).cands;
      CalcLPCandsSound(lp, lpcount, cols);
      forall i | 0 <= i < |c| ensures Beats(c[i].v, IntMin, RealMin) {
        assert c[i] in multiset(FracCands(cols));
        FracCandsMembers(cols, c[i]);
        var k :| 0 <= k < |cols| && IsLPCand(cols[k]) && ToCand(cols[k]) == c[i];
        assert ColumnVars(cols)[k] == c[i].v;
      }
    }
  }

  // ---------------------------------------------------------------------------
  // Properties of the entry points

  /** Pseudo branching: nothing happens without candidates; otherwise the rules
      end up sorted by descending priority, even after an error, the result is
      never DIDNOTRUN, and the fallback branches exactly when every rule
      passed, on the first candidate of maximal priority and factor. */
  lemma ExecPseudoSound(ps: PseudoStore, rules: seq<Rule>, nd: Node, allowaddcons: bool)
    requires AboveStart(ps.cands)
    ensures var out := ExecPseudo(ps, rules, nd, allowaddcons);
      && (|ps.cands| == 0 ==> out == Outcome(rules, Success(DidNotRun), None))
      && (|ps.cands| > 0 ==>
            && out.status != Success(DidNotRun)
            && SortedDesc(out.rules) && |out.rules| == |rules|
            && (out.branched.Some? <==> (forall j :: 0 <= j < |rules| ==>
                  Passes(SortRules(rules)[j], PseudoMode, nd, allowaddcons)))
            && (out.branched.Some? ==>
                  && out.status == Success(Branched)
                  && FirstBest(ps.cands, out.branched.value)))
  {
    if |ps.cands| > 0 {
      RunSorted(rules, PseudoMode, nd, allowaddcons);
      BestCandFirstBest(ps.cands);
    }
  }

  /** `v` is the candidate the fallback must choose from `c`: the first one
      that no candidate beats. */
  ghost predicate FirstBest(c: seq<Var>, v: Var) {
    exists b :: 0 <= b < |c| && v == c[b]
      && (forall j :: 0 <= j < |c| ==> !Beats(c[j], c[b].priority, c[b].factor))
      && (forall j :: 0 <= j < b ==> Beats(c[b], c[j].priority, c[j].factor))
  }

  lemma BestCandFirstBest(c: seq<Var>)
    requires AboveStart(c) && |c| > 0
    ensures BestCand(c) >= 0 && FirstBest(c, c[BestCand(c)])
  {
    BestCandSound(c);
  }

  /** Running the sorted rules leaves them sorted, and ends with DIDNOTRUN
      exactly when every rule passed. */
  lemma RunSorted(rules: seq<Rule>, mode: Mode, nd: Node, allowaddcons: bool)
    ensures var run := RunRules(SortRules(rules), mode, nd, allowaddcons);
      && SortedDesc(run.rules) && |run.rules| == |rules|
      && (run.status == Success(DidNotRun) <==>
            forall j :: 0 <= j < |rules| ==> Passes(SortRules(rules)[j], mode, nd, allowaddcons))
  {
    var sorted := SortRules(rules);
    SortRulesSound(rules);
    RunKeepsOrder(sorted, mode, nd, allowaddcons);
    RunResult(sorted, mode, nd, allowaddcons);
  }

  /** The loop ends with DIDNOTRUN exactly when every rule passed. */
  lemma RunResult(rules: seq<Rule>, mode: Mode, nd: Node, allowaddcons: bool)
    ensures (RunRules(rules, mode, nd, allowaddcons).status == Success(DidNotRun))
        <==> (forall j :: 0 <= j < |rules| ==> Passes(rules[j], mode, nd, allowaddcons))
  {
    RunRulesSound(rules, mode, nd, allowaddcons);
    var k: nat :| FirstStop(rules, mode, nd, allowaddcons, k)
                && StopsAt(rules, mode, nd, allowaddcons, k, RunRules(rules, mode, nd, allowaddcons));
  }

  /** A call changes nothing of a rule but its statistics. */
  lemma ExecSolKeepsPriority(r: Rule, mode: Mode, nd: Node, allowaddcons: bool)
    requires ExecSol(r, mode, nd, allowaddcons).Success?
    ensures ExecSol(r, mode, nd, allowaddcons).value.0.priority == r.priority
  {
  }

  /** Running the rules keeps their priorities, hence their order, whether the
      loop ends with a result or with an error. */
  lemma {:induction false} RunKeepsOrder(rules: seq<Rule>, mode: Mode, nd: Node, allowaddcons: bool)
    ensures var rs := RunRules(rules, mode, nd, allowaddcons).rules;
      forall j :: 0 <= j < |rules| ==> rs[j].priority == rules[j].priority
  {
    if |rules| > 0 && ExecSol(rules[0], mode, nd, allowaddcons).Success? {
      ExecSolKeepsPriority(rules[0], mode, nd, allowaddcons);
      var first := ExecSol(rules[0], mode, nd, allowaddcons).value;
      if first.1 == DidNotRun {
        RunKeepsOrder(rules[1..], mode, nd, allowaddcons);
      }
    }
  }

  /** LP branching always returns the recomputed candidate cache, and without
      fractional candidates it does nothing else. */
  lemma ExecLPEmpty(lp: LPStore, lpcount: int, cols: seq<Column>, ps: PseudoStore, rules: seq<Rule>,
                    nd: Node, allowaddcons: bool)
    requires lp.validlp <= lpcount
    requires AboveStart(CandVars(lp.cands)) && AboveStart(ColumnVars(cols)) && AboveStart(ps.cands)
    ensures var out := ExecLP(lp, lpcount, cols, ps, rules, nd, allowaddcons);
      var lp' := CalcLPCands(lp, lpcount, cols);
      && out.0 == lp'
      && (|lp'.cands| == 0 ==> out.1 == Outcome(rules, Success(DidNotRun), None))
  {
  }

  /** An unfixed variable of higher priority than every fractional one hands
      the call to pseudo branching, whose outcome is returned unchanged and is
      not DIDNOTRUN. */
  lemma ExecLPDelegates(lp: LPStore, lpcount: int, cols: seq<Column>, ps: PseudoStore, rules: seq<Rule>,
                        nd: Node, allowaddcons: bool)
    requires lp.validlp <= lpcount
    requires AboveStart(CandVars(lp.cands)) && AboveStart(ColumnVars(cols)) && AboveStart(ps.cands)
    requires ValidPseudo(ps)
    requires |CalcLPCands(lp, lpcount, cols).cands| > 0 && ps.maxprio > CalcLPCands(lp, lpcount, cols).maxprio
    ensures var out := ExecLP(lp, lpcount, cols, ps, rules, nd, allowaddcons);
      && |ps.cands| > 0
      && out.1 == ExecPseudo(ps, rules, nd, allowaddcons)
      && out.1.status != Success(DidNotRun)
  {
    ExecPseudoSound(ps, rules, nd, allowaddcons);
  }

  /** Otherwise the rules are tried in order of priority and end up sorted,
      even after an error; the result is never DIDNOTRUN, and the fallback
      branches exactly when every rule passed, on the first LP candidate of
      maximal priority and factor. */
  lemma ExecLPRuns(lp: LPStore, lpcount: int, cols: seq<Column>, ps: PseudoStore, rules: seq<Rule>,
                   nd: Node, allowaddcons: bool)
    requires lp.validlp <= lpcount
    requires AboveStart(CandVars(lp.cands)) && AboveStart(ColumnVars(cols)) && AboveStart(ps.cands)
    requires |CalcLPCands(lp, lpcount, cols).cands| > 0 && ps.maxprio <= CalcLPCands(lp, lpcount, cols).maxprio
    ensures var out := ExecLP(lp, lpcount, cols, ps, rules, nd, allowaddcons);
      var lp' := CalcLPCands(lp, lpcount, cols);
      && out.1.status != Success(DidNotRun)
      && SortedDesc(out.1.rules) && |out.1.rules| == |rules|
      && (out.1.branched.Some? <==> (forall j :: 0 <= j < |rules| ==>
            Passes(SortRules(rules)[j], LPMode, nd, allowaddcons)))
      && (out.1.branched.Some? ==>
            && out.1.status == Success(Branched)
            && FirstBest(CandVars(lp'.cands), out.1.branched.value))
  {
    var lp' := CalcLPCands(lp, lpcount, cols);
    CalcAboveStart(lp, lpcount, cols);
    RunSorted(rules, LPMode, nd, allowaddcons);
    BestCandFirstBest(CandVars(lp'.cands));
  }
}

=== FILE: listscheduling.dfy ===
/** The list-scheduling heuristic of the scheduler example: precedence
    propagation of earliest and latest start times, the search for an
    earliest start that every resource profile accepts, and the forward
    scheduling loop. The resource profiles are an oracle. */
module ListScheduling {
  import opened Wrappers

  function Max(a: int, b: int): int { if a >= b then a else b }
  function Min(a: int, b: int): int { if a <= b then a else b }

  /** Every successor index names a job. */
  predicate SuccsIn(succs: seq<nat>, n: nat) {
    forall s :: 0 <= s < |succs| ==> succs[s] < n
  }

  // ---------------------------------------------------------------------------
  // Earliest start times

  /** The position of the first successor whose latest start lies before the
      completion time `ect`, or the number of successors if none does. */
  function FirstViolation(succs: seq<nat>, lsts: seq<int>, ect: int): (f: nat)
    requires SuccsIn(succs, |lsts|)
    ensures f <= |succs|
  {
    if |succs| == 0 then 0
    else if ect > lsts[succs[0]] then 0
    else 1 + FirstViolation(succs[1..], lsts, ect)
  }

  /** The first violation is one, and every successor before it fits. */
  lemma {:induction false} FirstViolationSound(succs: seq<nat>, lsts: seq<int>, ect: int)
    requires SuccsIn(succs, |lsts|)
    ensures var f := FirstViolation(succs, lsts, ect);
      && (forall s :: 0 <= s < f ==> ect <= lsts[succs[s]])
      && (f < |succs| ==> ect > lsts[succs[f]])
  {
    if |succs| > 0 && ect <= lsts[succs[0]] {
      FirstViolationSound(succs[1..], lsts, ect);
      var f := FirstViolation(succs, lsts, ect);
      forall s | 0 <= s < f ensures ect <= lsts[succs[s]] {
        if s > 0 {
          assert succs[s] == succs[1..][s - 1];
        }
      }
    }
  }

  /** propagateEst: raises the earliest start of each successor of `pred` to
      the completion time of `pred`, until a successor whose latest start is
      before that completion time; that successor is left as it is and the
      call reports infeasibility. Latest start times are only read. */
  method PropagateEst(succs: seq<nat>, ests: seq<int>, lsts: seq<int>, pred: nat, duration: int)
    returns (ests': seq<int>, infeasible: bool)
    requires pred < |ests| && |lsts| == |ests| && SuccsIn(succs, |ests|)
    ensures |ests'| == |ests|
    ensures var ect := ests[pred] + duration;
      var f := FirstViolation(succs, lsts, ect);
      && (infeasible <==> f < |succs|)
      && (forall i :: 0 <= i < |ests| ==>
            ests'[i] == if i in succs[..f] then Max(ests[i], ect) else ests[i])
  {
    var ect := ests[pred] + duration;
    ests' := ests;
    infeasible := false;
    var s := 0;
    while s < |succs| && !infeasible
      invariant 0 <= s <= |succs| && |ests'| == |ests|
      invariant !infeasible ==> forall k :: 0 <= k < s ==> ect <= lsts[succs[k]]
      invariant infeasible ==> 0 < s && ect > lsts[succs[s - 1]] && forall k :: 0 <= k < s - 1 ==> ect <= lsts[succs[k]]
      invariant var done := if infeasible then s - 1 else s;
        forall i :: 0 <= i < |ests| ==> ests'[i] == if i in succs[..done] then Max(ests[i], ect) else ests[i]
    {
      var succ := succs[s];
      if ect > lsts[succ] {
        infeasible := true;
      } else {
        assert succs[..s + 1] == succs[..s] + [succ];
        ests' := ests'[succ := Max(ests'[succ], ect)];
      }
      s := s + 1;
    }
    FirstViolationSound(succs, lsts, ect);
    FirstViolationIs(succs, lsts, ect, if infeasible then s - 1 else s);
  }

  /** A position before which every successor fits and at which one does not
      (or the end) is the first violation. */
  lemma FirstViolationIs(succs: seq<nat>, lsts: seq<int>, ect: int, f: nat)
    requires SuccsIn(succs, |lsts|) && f <= |succs|
    requires forall s :: 0 <= s < f ==> ect <= lsts[succs[s]]
    requires f < |succs| ==> ect > lsts[succs[f]]
    ensures FirstViolation(succs, lsts, ect) == f
  {
    FirstViolationSound(succs, lsts, ect);
  }

  /** Propagation never lowers an earliest start, and every successor it
      reached now starts no earlier than the completion of `pred`. */
  lemma PropagateEstRaises(succs: seq<nat>, ests: seq<int>, ests': seq<int>, lsts: seq<int>, pred: nat, duration: int)
    requires pred < |ests| && |lsts| == |ests| && SuccsIn(succs, |ests|) && |ests'| == |ests|
    requires var ect := ests[pred] + duration;
      var f := FirstViolation(succs, lsts, ect);
      forall i :: 0 <= i < |ests| ==> ests'[i] == if i in succs[..f] then Max(ests[i], ect) else ests[i]
    ensures forall i :: 0 <= i < |ests| ==> ests'[i] >= ests[i]
    ensures var f := FirstViolation(succs, lsts, ests[pred] + duration);
      forall s :: 0 <= s < f ==> ests'[succs[s]] >= ests[pred] + duration
  {
    var f := FirstViolation(succs, lsts, ests[pred] + duration);
    forall s | 0 <= s < f ensures ests'[succs[s]] >= ests[pred] + duration {
      assert succs[s] in succs[..f];
    }
  }

  // ---------------------------------------------------------------------------
  // Latest start times

  /** propagateLst: lowers the latest start of `pred` so that it completes
      before each successor's latest start; only that entry is written. */
  method PropagateLst(succs: seq<nat>, lsts: seq<int>, pred: nat, duration: int) returns (lsts': seq<int>)
    requires pred < |lsts| && SuccsIn(succs, |lsts|)
    ensures |lsts'| == |lsts| && forall i :: 0 <= i < |lsts| && i != pred ==> lsts'[i] == lsts[i]
    ensures lsts'[pred] <= lsts[pred]
    ensures forall s :: 0 <= s < |succs| && succs[s] != pred ==> lsts'[pred] <= lsts[succs[s]] - duration
    ensures pred !in succs ==>
      lsts'[pred] == lsts[pred] || exists s :: 0 <= s < |succs| && lsts'[pred] == lsts[succs[s]] - duration
  {
    lsts' := lsts;
    var s := 0;
    while s < |succs|
      invariant 0 <= s <= |succs| && |lsts'| == |lsts|
      invariant forall i :: 0 <= i < |lsts| && i != pred ==> lsts'[i] == lsts[i]
      invariant lsts'[pred] <= lsts[pred]
      invariant forall k :: 0 <= k < s && succs[k] != pred ==> lsts'[pred] <= lsts[succs[k]] - duration
      invariant pred !in succs ==>
        lsts'[pred] == lsts[pred] || exists k :: 0 <= k < s && lsts'[pred] == lsts[succs[k]] - duration
    {
      var succ := succs[s];
      lsts' := lsts'[pred := Min(lsts'[pred], lsts'[succ] - duration)];
      s := s + 1;
    }
  }

  // ---------------------------------------------------------------------------
  // Earliest start accepted by every profile

  /** A profile oracle answers, for profile `r` and an earliest start `e`, the
      earliest start from `e` on at which the job fits that profile, or None
      when it fits nowhere up to `lst`. */
  ghost predicate InRange(o: (nat, int) -> Option<int>, nprofiles: nat, lst: int) {
    forall r: nat, e: int :: r < nprofiles && o(r, e).Some? ==> e <= o(r, e).value <= lst
  }

  /** One pass of the do-while loop over the profiles from `r` on, with the
      current start `est` and whether a later profile moved it. */
  function Pass(o: (nat, int) -> Option<int>, nprofiles: nat, lst: int, r: nat, est: int, changed: bool)
    : (out: Option<(int, bool)>)
    requires InRange(o, nprofiles, lst) && r <= nprofiles
    ensures out.Some? ==> var (e, ch) := out.value;
      && est <= e && (r < nprofiles ==> e <= lst)
      && (changed ==> ch) && (ch ==> changed || e > est)
      && (!ch ==> (r > 0 ==> e == est) && forall p :: r <= p < nprofiles && p > 0 ==> o(p, e) == Some(e))
    ensures out.Some? && out.value.1 && !changed ==>
      exists p: nat, e: int :: r <= p < nprofiles && 0 < p && est <= e && o(p, e).Some? && o(p, e).value > e
    ensures out.None? ==> exists p: nat, e: int :: r <= p < nprofiles && est <= e && o(p, e).None?
    decreases nprofiles - r
  {
    if r == nprofiles then Some((est, changed))
    else match o(r, est)
      case None => None
      case Some(start) => Pass(o, nprofiles, lst, r + 1, start, changed || (r > 0 && start > est))
  }

  /** profilesFindEarliestFeasibleStart: repeats passes over the profiles
      until a pass leaves the start unchanged after the first profile; None
      when some profile reports that the job does not fit. */
  function Earliest(o: (nat, int) -> Option<int>, nprofiles: nat, est: int, lst: int): (out: Option<int>)
    requires InRange(o, nprofiles, lst)
    ensures out.Some? ==> est <= out.value && (nprofiles > 0 ==> out.value <= lst)
    ensures out.Some? ==> forall p :: 0 < p < nprofiles ==> o(p, out.value) == Some(out.value)
    ensures out.None? ==> exists p: nat, e: int :: p < nprofiles && est <= e && o(p, e).None?
    decreases lst - est
  {
    match Pass(o, nprofiles, lst, 0, est, false)
    case None => None
    case Some((e, ch)) => if ch then Earliest(o, nprofiles, e, lst) else Some(e)
  }

  /** A start that every profile accepts as it is stays unchanged. */
  lemma {:induction false} PassFixpoint(o: (nat, int) -> Option<int>, nprofiles: nat, lst: int, r: nat, est: int)
    requires InRange(o, nprofiles, lst) && r <= nprofiles
    requires forall p :: r <= p < nprofiles ==> o(p, est) == Some(est)
    ensures Pass(o, nprofiles, lst, r, est, false) == Some((est, false))
    decreases nprofiles - r
  {
    if r < nprofiles {
      PassFixpoint(o, nprofiles, lst, r + 1, est);
    }
  }

  lemma EarliestFixpoint(o: (nat, int) -> Option<int>, nprofiles: nat, est: int, lst: int)
    requires InRange(o, nprofiles, lst)
    requires forall p :: 0 <= p < nprofiles ==> o(p, est) == Some(est)
    ensures Earliest(o, nprofiles, est, lst) == Some(est)
  {
    PassFixpoint(o, nprofiles, lst, 0, est);
  }

  // ---------------------------------------------------------------------------
  // Forward scheduling

  /** A job inserted into the profiles at a start time. */
  datatype Placement = Placement(job: nat, start: int)

  /** The profile oracle of the whole schedule: for the jobs already in the
      profiles, a job, a profile, an earliest and a latest start. */
  type Fit = (seq<Placement>, nat, nat, int, int) -> Option<int>

  ghost predicate FitInRange(fit: Fit, nprofiles: nat) {
    forall placed: seq<Placement>, job: nat, r: nat, e: int, l: int ::
      r < nprofiles && fit(placed, job, r, e, l).Some? ==> e <= fit(placed, job, r, e, l).value <= l
  }

  /** The jobs of `perm` with positive duration, in order: the jobs the loop
      places. */
  function Positive(perm: seq<nat>, durations: seq<int>): (jobs: seq<nat>)
    requires forall j :: 0 <= j < |perm| ==> perm[j] < |durations|
    ensures forall k :: 0 <= k < |jobs| ==> jobs[k] in perm && durations[jobs[k]] > 0
  {
    if |perm| == 0 then []
    else
      var last := perm[|perm| - 1];
      Positive(perm[..|perm| - 1], durations) + (if durations[last] > 0 then [last] else [])
  }

  function JobsOf(placed: seq<Placement>): (jobs: seq<nat>)
    ensures |jobs| == |placed| && forall k :: 0 <= k < |placed| ==> jobs[k] == placed[k].job
  {
    seq(|placed|, k requires 0 <= k < |placed| => placed[k].job)
  }

  /** The state of forward scheduling: the start times, the jobs inserted into
      the profiles, the makespan, and whether infeasibility was detected. */
  datatype Sched = Sched(starts: seq<int>, placed: seq<Placement>, makespan: int, infeasible: bool)

  /** The earliest start times after the completion of `pred` has been
      propagated: every successor before the first violation starts no
      earlier than that completion, and nothing else changes. */
  function EstsAfter(succs: seq<nat>, ests: seq<int>, lsts: seq<int>, pred: nat, duration: int): (r: seq<int>)
    requires pred < |ests| && |lsts| == |ests| && SuccsIn(succs, |ests|)
    ensures |r| == |ests|
  {
    var ect := ests[pred] + duration;
    var f := FirstViolation(succs, lsts, ect);
    seq(|ests|, i requires 0 <= i < |ests| => if i in succs[..f] then Max(ests[i], ect) else ests[i])
  }

  /** The earliest start of job `idx` from `est` on that every profile
      accepts, given the jobs already inserted, or None when it does not fit
      before its latest start `lst`. */
  function Accepted(fit: Fit, nprofiles: nat, placed: seq<Placement>, idx: nat, est: int, lst: int): (out: Option<int>)
    requires FitInRange(fit, nprofiles)
    ensures out.Some? ==> est <= out.value && (nprofiles > 0 ==> out.value <= lst)
  {
    var o := (r: nat, e: int) => fit(placed, idx, r, e, lst);
    assert InRange(o, nprofiles, lst);
    Earliest(o, nprofiles, est, lst)
  }

  /** Start times that follow the propagation formula are `EstsAfter`. */
  lemma EstsAfterIs(succs: seq<nat>, ests: seq<int>, lsts: seq<int>, pred: nat, duration: int, ests': seq<int>)
    requires pred < |ests| && |lsts| == |ests| && SuccsIn(succs, |ests|) && |ests'| == |ests|
    requires var ect := ests[pred] + duration;
      var f := FirstViolation(succs, lsts, ect);
      forall i :: 0 <= i < |ests| ==> ests'[i] == if i in succs[..f] then Max(ests[i], ect) else ests[i]
    ensures ests' == EstsAfter(succs, ests, lsts, pred, duration)
  {
  }

  /** What placing job `idx` does to the state when the search over the
      profiles answered `st`: with no start, the job's start becomes -1 and
      infeasibility is reported; otherwise the job is inserted at the start,
      the makespan raised to its completion, and the completion propagated to
      its successors, which reports infeasibility on a violation. */
  function PlaceWith(durations: seq<int>, succs: seq<seq<nat>>, lsts: seq<int>, s: Sched, idx: nat,
                     st: Option<int>): (r: Sched)
    requires |succs| == |durations| && |s.starts| == |durations| && |lsts| == |durations|
    requires idx < |durations| && SuccsIn(succs[idx], |durations|)
    ensures |r.starts| == |durations|
  {
    if st.None? then Sched(s.starts[idx := -1], s.placed, s.makespan, true)
    else
      var ect := st.value + durations[idx];
      Sched(EstsAfter(succs[idx], s.starts[idx := st.value], lsts, idx, durations[idx]),
            s.placed + [Placement(idx, st.value)], Max(s.makespan, ect),
            FirstViolation(succs[idx], lsts, ect) < |succs[idx]|)
  }

  /** Placing job `idx` at the start the profiles accept. */
  ghost function PlaceResult(fit: Fit, nprofiles: nat, durations: seq<int>, succs: seq<seq<nat>>,
                             lsts: seq<int>, s: Sched, idx: nat): (r: Sched)
    requires FitInRange(fit, nprofiles)
    requires |succs| == |durations| && |s.starts| == |durations| && |lsts| == |durations|
    requires idx < |durations| && SuccsIn(succs[idx], |durations|)
    ensures |r.starts| == |durations|
  {
    PlaceWith(durations, succs, lsts, s, idx, Accepted(fit, nprofiles, s.placed, idx, s.starts[idx], lsts[idx]))
  }

  /** One job of `perm`: placed when its duration is positive, skipped with
      nothing changed otherwise. */
  ghost function TakeResult(fit: Fit, nprofiles: nat, durations: seq<int>, succs: seq<seq<nat>>,
                            lsts: seq<int>, s: Sched, idx: nat): (r: Sched)
    requires FitInRange(fit, nprofiles)
    requires |succs| == |durations| && |s.starts| == |durations| && |lsts| == |durations|
    requires idx < |durations| && SuccsIn(succs[idx], |durations|)
    ensures |r.starts| == |durations|
  {
    if durations[idx] > 0 then PlaceResult(fit, nprofiles, durations, succs, lsts, s, idx) else s
  }

  /** The forward schedule from the `j`-th job of `perm` on, from the state
      `s`: the jobs are taken in order, and once infeasibility is detected the
      remaining jobs are not taken. */
  ghost function ScheduleFrom(fit: Fit, nprofiles: nat, durations: seq<int>, succs: seq<seq<nat>>,
                              lsts: seq<int>, perm: seq<nat>, j: nat, s: Sched): (r: Sched)
    requires FitInRange(fit, nprofiles)
    requires |succs| == |durations| && |s.starts| == |durations| && |lsts| == |durations|
    requires j <= |perm| && forall k :: 0 <= k < |perm| ==> perm[k] < |durations|
    requires forall i :: 0 <= i < |succs| ==> SuccsIn(succs[i], |durations|)
    ensures |r.starts| == |durations|
    decreases |perm| - j
  {
    if j == |perm| || s.infeasible then s
    else ScheduleFrom(fit, nprofiles, durations, succs, lsts, perm, j + 1,
                      TakeResult(fit, nprofiles, durations, succs, lsts, s, perm[j]))
  }

  /** performForwardScheduling: takes the jobs in the order `perm`, skips
      those of duration zero, starts each at the earliest time every profile
      accepts, inserts it, and propagates its completion to its successors;
      the first job that does not fit or whose propagation fails ends the
      loop. `done` counts the jobs taken; the makespan is the latest
      completion of a placed job, and 0 if there is none. The final state is
      `ScheduleFrom` over all of `perm`. */
  method ForwardSchedule(fit: Fit, nprofiles: nat, durations: seq<int>, succs: seq<seq<nat>>,
                         starts: seq<int>, lsts: seq<int>, perm: seq<nat>)
    returns (starts': seq<int>, placed: seq<Placement>, makespan: int, done: nat, infeasible: bool)
    requires FitInRange(fit, nprofiles)
    requires |succs| == |durations| && |starts| == |durations| && |lsts| == |durations|
    requires forall j :: 0 <= j < |perm| ==> perm[j] < |durations|
    requires forall i :: 0 <= i < |succs| ==> SuccsIn(succs[i], |durations|)
    ensures |starts'| == |durations|
    ensures done <= |perm| && (!infeasible ==> done == |perm|)
    ensures infeasible ==> done > 0 && durations[perm[done - 1]] > 0
    ensures Taken(placed, perm, durations, done, infeasible)
    ensures IsMakespan(placed, durations, makespan)
    ensures Leads(fit, nprofiles, durations, succs, lsts, perm, 0, Sched(starts, [], 0, false),
                  Sched(starts', placed, makespan, infeasible))
    ensures TopoOrder(perm, succs) ==>
      && (forall k :: 0 <= k < |placed| ==>
            && placed[k].job < |starts'| && starts'[placed[k].job] == placed[k].start
            && starts'[placed[k].job] + durations[placed[k].job] <= makespan)
      && (makespan == 0 ||
          exists k :: 0 <= k < |placed| && makespan == starts'[placed[k].job] + durations[placed[k].job])
  {
    starts', placed, makespan, done, infeasible := ForwardFrom(fit, nprofiles, durations, succs, starts, lsts, perm, 0, [], 0);
    if TopoOrder(perm, succs) {
      ScheduleKeepsStarts(fit, nprofiles, durations, succs, lsts, perm, 0, Sched(starts, [], 0, false));
      assert StartsKept(Sched(starts', placed, makespan, infeasible), perm);
      if makespan != 0 {
        var p :| p in placed && makespan == p.start + durations[p.job];
        var k :| 0 <= k < |placed| && placed[k] == p;
      }
    }
  }

  /** The loop of performForwardScheduling from the `j`-th job of `perm` on,
      all jobs before it taken without infeasibility. */
  method ForwardFrom(fit: Fit, nprofiles: nat, durations: seq<int>, succs: seq<seq<nat>>,
                     starts: seq<int>, lsts: seq<int>, perm: seq<nat>, j: nat, placed: seq<Placement>, makespan: int)
    returns (starts': seq<int>, placed': seq<Placement>, makespan': int, done: nat, infeasible: bool)
    requires FitInRange(fit, nprofiles)
    requires |succs| == |durations| && |starts| == |durations| && |lsts| == |durations|
    requires j <= |perm| && forall k :: 0 <= k < |perm| ==> perm[k] < |durations|
    requires forall i :: 0 <= i < |succs| ==> SuccsIn(succs[i], |durations|)
    requires JobsOf(placed) == Positive(perm[..j], durations)
    requires IsMakespan(placed, durations, makespan)
    ensures |starts'| == |durations|
    ensures j <= done <= |perm| && (!infeasible ==> done == |perm|)
    ensures StopsOnPositive(perm, durations, done, infeasible)
    ensures Taken(placed', perm, durations, done, infeasible)
    ensures IsMakespan(placed', durations, makespan')
    ensures Leads(fit, nprofiles, durations, succs, lsts, perm, j, Sched(starts, placed, makespan, false),
                  Sched(starts', placed', makespan', infeasible))
    decreases |perm| - j
  {
    if j == |perm| {
      starts', placed', makespan', done, infeasible := starts, placed, makespan, j, false;
      ScheduleFromDone(fit, nprofiles, durations, succs, lsts, perm, j, Sched(starts, placed, makespan, false));
    } else {
      var s1, p1, m1, inf1 := TakeJob(fit, nprofiles, durations, succs, starts, lsts, perm, j, placed, makespan);
      if inf1 {
        starts', placed', makespan', done, infeasible := s1, p1, m1, j + 1, true;
        ScheduleFromDone(fit, nprofiles, durations, succs, lsts, perm, j + 1, Sched(s1, p1, m1, true));
      } else {
        starts', placed', makespan', done, infeasible := ForwardFrom(fit, nprofiles, durations, succs, s1, lsts, perm, j + 1, p1, m1);
      }
    }
  }

  /** When the loop stopped infeasible, the last job taken has positive duration. */
  predicate StopsOnPositive(perm: seq<nat>, durations: seq<int>, done: nat, infeasible: bool)
    requires done <= |perm| && forall k :: 0 <= k < |perm| ==> perm[k] < |durations|
  {
    infeasible ==> done > 0 && durations[perm[done - 1]] > 0
  }

  /** The schedule from the `j`-th job on, from state `s`, ends in `final`. */
  ghost predicate Leads(fit: Fit, nprofiles: nat, durations: seq<int>, succs: seq<seq<nat>>,
                        lsts: seq<int>, perm: seq<nat>, j: nat, s: Sched, final: Sched)
    requires FitInRange(fit, nprofiles)
    requires |succs| == |durations| && |s.starts| == |durations| && |lsts| == |durations|
    requires j <= |perm| && forall k :: 0 <= k < |perm| ==> perm[k] < |durations|
    requires forall i :: 0 <= i < |succs| ==> SuccsIn(succs[i], |durations|)
  {
    ScheduleFrom(fit, nprofiles, durations, succs, lsts, perm, j, s) == final
  }

  /** One step of the schedule from a feasible state. */
  lemma ScheduleFromStep(fit: Fit, nprofiles: nat, durations: seq<int>, succs: seq<seq<nat>>,
                         lsts: seq<int>, perm: seq<nat>, j: nat, s: Sched)
    requires FitInRange(fit, nprofiles)
    requires |succs| == |durations| && |s.starts| == |durations| && |lsts| == |durations|
    requires j < |perm| && forall k :: 0 <= k < |perm| ==> perm[k] < |durations|
    requires forall i :: 0 <= i < |succs| ==> SuccsIn(succs[i], |durations|)
    requires !s.infeasible
    ensures ScheduleFrom(fit, nprofiles, durations, succs, lsts, perm, j, s)
         == ScheduleFrom(fit, nprofiles, durations, succs, lsts, perm, j + 1,
                         TakeResult(fit, nprofiles, durations, succs, lsts, s, perm[j]))
  {
  }

  /** The schedule ends at the last job or at infeasibility. */
  lemma ScheduleFromDone(fit: Fit, nprofiles: nat, durations: seq<int>, succs: seq<seq<nat>>,
                         lsts: seq<int>, perm: seq<nat>, j: nat, s: Sched)
    requires FitInRange(fit, nprofiles)
    requires |succs| == |durations| && |s.starts| == |durations| && |lsts| == |durations|
    requires j <= |perm| && forall k :: 0 <= k < |perm| ==> perm[k] < |durations|
    requires forall i :: 0 <= i < |succs| ==> SuccsIn(succs[i], |durations|)
    requires j == |perm| || s.infeasible
    ensures Leads(fit, nprofiles, durations, succs, lsts, perm, j, s, s)
  {
  }

  // ---------------------------------------------------------------------------
  // Start times of the placed jobs

  /** `perm` takes each job at most once, and no job in it is a successor of
      itself or of a job after it: the topological order of the precedence
      graph that the heuristic starts from. */
  predicate TopoOrder(perm: seq<nat>, succs: seq<seq<nat>>)
    requires forall k :: 0 <= k < |perm| ==> perm[k] < |succs|
  {
    && (forall a, b :: 0 <= a < b < |perm| ==> perm[a] != perm[b])
    && (forall a, b :: 0 <= a <= b < |perm| ==> perm[a] !in succs[perm[b]])
  }

  /** Every placed job is one of `prev`, and its start time in `s.starts` is
      still the start it was placed at. */
  ghost predicate StartsKept(s: Sched, prev: seq<nat>) {
    forall k :: 0 <= k < |s.placed| ==>
      && s.placed[k].job in prev && s.placed[k].job < |s.starts|
      && s.starts[s.placed[k].job] == s.placed[k].start
  }

  lemma StartsKeptWiden(s: Sched, prev: seq<nat>, prev': seq<nat>)
    requires StartsKept(s, prev) && forall x :: x in prev ==> x in prev'
    ensures StartsKept(s, prev')
  {
  }

  /** Placing a job that is neither placed before nor a successor of itself
      or of a placed job leaves every placed job's start time alone. */
  lemma PlaceWithKeepsStarts(durations: seq<int>, succs: seq<seq<nat>>, lsts: seq<int>, s: Sched, idx: nat,
                             st: Option<int>, prev: seq<nat>)
    requires |succs| == |durations| && |s.starts| == |durations| && |lsts| == |durations|
    requires idx < |durations| && SuccsIn(succs[idx], |durations|)
    requires StartsKept(s, prev)
    requires idx !in prev && idx !in succs[idx] && forall x :: x in prev ==> x !in succs[idx]
    ensures StartsKept(PlaceWith(durations, succs, lsts, s, idx, st), prev + [idx])
  {
    var r := PlaceWith(durations, succs, lsts, s, idx, st);
    if st.Some? {
      var raised := s.starts[idx := st.value];
      var f := FirstViolation(succs[idx], lsts, raised[idx] + durations[idx]);
      assert r.starts == EstsAfter(succs[idx], raised, lsts, idx, durations[idx]);
      assert r.placed == s.placed + [Placement(idx, st.value)];
      forall k | 0 <= k < |r.placed|
        ensures r.placed[k].job in prev + [idx] && r.placed[k].job < |r.starts|
        ensures r.starts[r.placed[k].job] == r.placed[k].start
      {
        var job := r.placed[k].job;
        assert job !in succs[idx][..f];
        assert r.starts[job] == raised[job];
      }
    }
  }

  /** One step of the fold from a state whose placed jobs are among the
      first `j` of a topological order keeps their start times. */
  lemma TakeKeepsStarts(fit: Fit, nprofiles: nat, durations: seq<int>, succs: seq<seq<nat>>,
                        lsts: seq<int>, perm: seq<nat>, j: nat, s: Sched)
    requires FitInRange(fit, nprofiles)
    requires |succs| == |durations| && |s.starts| == |durations| && |lsts| == |durations|
    requires j < |perm| && forall k :: 0 <= k < |perm| ==> perm[k] < |durations|
    requires forall i :: 0 <= i < |succs| ==> SuccsIn(succs[i], |durations|)
    requires TopoOrder(perm, succs) && StartsKept(s, perm[..j])
    ensures StartsKept(TakeResult(fit, nprofiles, durations, succs, lsts, s, perm[j]), perm[..j + 1])
  {
    var idx := perm[j];
    assert perm[..j + 1] == perm[..j] + [idx];
    if durations[idx] > 0 {
      forall x | x in perm[..j] ensures x != idx && x !in succs[idx] {
        var a :| 0 <= a < j && perm[a] == x;
      }
      assert idx !in succs[perm[j]];
      PlaceWithKeepsStarts(durations, succs, lsts, s, idx,
                           Accepted(fit, nprofiles, s.placed, idx, s.starts[idx], lsts[idx]), perm[..j]);
    } else {
      StartsKeptWiden(s, perm[..j], perm[..j + 1]);
    }
  }

  /** Along a topological order, the fold never moves a placed job: each
      placed job's start time in the final state is the start it was placed
      at. */
  lemma {:induction false} ScheduleKeepsStarts(fit: Fit, nprofiles: nat, durations: seq<int>, succs: seq<seq<nat>>,
                                               lsts: seq<int>, perm: seq<nat>, j: nat, s: Sched)
    requires FitInRange(fit, nprofiles)
    requires |succs| == |durations| && |s.starts| == |durations| && |lsts| == |durations|
    requires j <= |perm| && forall k :: 0 <= k < |perm| ==> perm[k] < |durations|
    requires forall i :: 0 <= i < |succs| ==> SuccsIn(succs[i], |durations|)
    requires TopoOrder(perm, succs) && StartsKept(s, perm[..j])
    ensures StartsKept(ScheduleFrom(fit, nprofiles, durations, succs, lsts, perm, j, s), perm)
    decreases |perm| - j
  {
    if j == |perm| || s.infeasible {
      StartsKeptWiden(s, perm[..j], perm);
    } else {
      TakeKeepsStarts(fit, nprofiles, durations, succs, lsts, perm, j, s);
      ScheduleFromStep(fit, nprofiles, durations, succs, lsts, perm, j, s);
      ScheduleKeepsStarts(fit, nprofiles, durations, succs, lsts, perm, j + 1,
                          TakeResult(fit, nprofiles, durations, succs, lsts, s, perm[j]));
    }
  }

  /** The loop body: the `j`-th job of `perm` is placed when its duration is
      positive and skipped otherwise, leaving everything unchanged. */
  method TakeJob(fit: Fit, nprofiles: nat, durations: seq<int>, succs: seq<seq<nat>>,
                 starts: seq<int>, lsts: seq<int>, perm: seq<nat>, j: nat, placed: seq<Placement>, makespan: int)
    returns (starts': seq<int>, placed': seq<Placement>, makespan': int, infeasible: bool)
    requires FitInRange(fit, nprofiles)
    requires |succs| == |durations| && |starts| == |durations| && |lsts| == |durations|
    requires j < |perm| && forall k :: 0 <= k < |perm| ==> perm[k] < |durations|
    requires forall i :: 0 <= i < |succs| ==> SuccsIn(succs[i], |durations|)
    requires JobsOf(placed) == Positive(perm[..j], durations)
    requires IsMakespan(placed, durations, makespan)
    ensures |starts'| == |durations| && IsMakespan(placed', durations, makespan')
    ensures infeasible ==> durations[perm[j]] > 0
    ensures durations[perm[j]] <= 0 ==>
      starts' == starts && placed' == placed && makespan' == makespan && !infeasible
    ensures durations[perm[j]] > 0 ==>
      PlacedBy(fit, nprofiles, durations, succs, lsts, starts, placed, perm[j], starts', placed', infeasible)
    ensures Taken(placed', perm, durations, j + 1, infeasible)
    ensures Sched(starts', placed', makespan', infeasible)
         == TakeResult(fit, nprofiles, durations, succs, lsts, Sched(starts, placed, makespan, false), perm[j])
    ensures forall f ::
              Leads(fit, nprofiles, durations, succs, lsts, perm, j + 1, Sched(starts', placed', makespan', infeasible), f) ==>
              Leads(fit, nprofiles, durations, succs, lsts, perm, j, Sched(starts, placed, makespan, false), f)
  {
    var idx := perm[j];
    if durations[idx] > 0 {
      starts', placed', makespan', infeasible := PlaceJob(fit, nprofiles, durations, succs, starts, lsts, placed, makespan, idx);
    } else {
      starts', placed', makespan', infeasible := starts, placed, makespan, false;
    }
    TakenStep(placed, placed', perm, durations, j, infeasible);
    ScheduleFromStep(fit, nprofiles, durations, succs, lsts, perm, j, Sched(starts, placed, makespan, false));
  }

  /** One job of positive duration: start it at the earliest time every
      profile accepts (writing -1 when there is none), insert it, raise the
      makespan to its completion, and propagate that completion. */
  method PlaceJob(fit: Fit, nprofiles: nat, durations: seq<int>, succs: seq<seq<nat>>,
                  starts: seq<int>, lsts: seq<int>, placed: seq<Placement>, makespan: int, idx: nat)
    returns (starts': seq<int>, placed': seq<Placement>, makespan': int, infeasible: bool)
    requires FitInRange(fit, nprofiles)
    requires |succs| == |durations| && |starts| == |durations| && |lsts| == |durations|
    requires idx < |durations| && durations[idx] > 0 && SuccsIn(succs[idx], |durations|)
    requires IsMakespan(placed, durations, makespan)
    ensures |starts'| == |durations| && IsMakespan(placed', durations, makespan')
    ensures JobsOf(placed') == JobsOf(placed) + [idx] || (infeasible && placed' == placed)
    ensures PlacedBy(fit, nprofiles, durations, succs, lsts, starts, placed, idx, starts', placed', infeasible)
    ensures Sched(starts', placed', makespan', infeasible)
         == PlaceResult(fit, nprofiles, durations, succs, lsts, Sched(starts, placed, makespan, false), idx)
  {
    var st := Accepted(fit, nprofiles, placed, idx, starts[idx], lsts[idx]);
    starts', placed', makespan', infeasible := PlaceAt(durations, succs, starts, lsts, placed, makespan, idx, st);
  }

  /** The placement once the profiles have answered `st`. */
  method PlaceAt(durations: seq<int>, succs: seq<seq<nat>>, starts: seq<int>, lsts: seq<int>,
                 placed: seq<Placement>, makespan: int, idx: nat, st: Option<int>)
    returns (starts': seq<int>, placed': seq<Placement>, makespan': int, infeasible: bool)
    requires |succs| == |durations| && |starts| == |durations| && |lsts| == |durations|
    requires idx < |durations| && SuccsIn(succs[idx], |durations|)
    requires IsMakespan(placed, durations, makespan)
    ensures |starts'| == |durations| && IsMakespan(placed', durations, makespan')
    ensures JobsOf(placed') == JobsOf(placed) + [idx] || (infeasible && placed' == placed)
    ensures PlacedWith(durations, succs, lsts, starts, placed, idx, st, starts', placed', infeasible)
    ensures Sched(starts', placed', makespan', infeasible)
         == PlaceWith(durations, succs, lsts, Sched(starts, placed, makespan, false), idx, st)
  {
    if st.None? {
      starts' := starts[idx := -1];
      infeasible := true;
      placed' := placed;
      makespan' := makespan;
    } else {
      starts', placed', makespan', infeasible := PlaceAtStart(durations, succs, starts, lsts, placed, makespan, idx, st.value);
    }
  }

  /** The placement at the start the profiles accepted. */
  method PlaceAtStart(durations: seq<int>, succs: seq<seq<nat>>, starts: seq<int>, lsts: seq<int>,
                      placed: seq<Placement>, makespan: int, idx: nat, start: int)
    returns (starts': seq<int>, placed': seq<Placement>, makespan': int, infeasible: bool)
    requires |succs| == |durations| && |starts| == |durations| && |lsts| == |durations|
    requires idx < |durations| && SuccsIn(succs[idx], |durations|)
    requires IsMakespan(placed, durations, makespan)
    ensures IsMakespan(placed', durations, makespan')
    ensures JobsOf(placed') == JobsOf(placed) + [idx]
    ensures PlacedWith(durations, succs, lsts, starts, placed, idx, Some(start), starts', placed', infeasible)
    ensures Sched(starts', placed', makespan', infeasible)
         == PlaceWith(durations, succs, lsts, Sched(starts, placed, makespan, false), idx, Some(start))
  {
    var p := Placement(idx, start);
    MakespanStep(placed, durations, makespan, p);
    makespan' := Max(makespan, start + durations[idx]);
    placed' := placed + [p];
    starts', infeasible := PropagateEst(succs[idx], starts[idx := start], lsts, idx, durations[idx]);
    PlacedAfter(durations, succs, lsts, Sched(starts, placed, makespan, false), idx, start, starts', infeasible);
  }

  /** Start times and flag as propagation leaves them after job `idx` starts
      at `start` are those `PlaceWith` describes. */
  lemma PlacedAfter(durations: seq<int>, succs: seq<seq<nat>>, lsts: seq<int>, s: Sched, idx: nat,
                    start: int, starts': seq<int>, infeasible: bool)
    requires |succs| == |durations| && |s.starts| == |durations| && |lsts| == |durations|
    requires idx < |durations| && SuccsIn(succs[idx], |durations|) && |starts'| == |durations|
    requires var ests := s.starts[idx := start];
      var ect := ests[idx] + durations[idx];
      var f := FirstViolation(succs[idx], lsts, ect);
      && (infeasible <==> f < |succs[idx]|)
      && (forall i :: 0 <= i < |ests| ==>
            starts'[i] == if i in succs[idx][..f] then Max(ests[i], ect) else ests[i])
    ensures PlacedWith(durations, succs, lsts, s.starts, s.placed, idx, Some(start),
                       starts', s.placed + [Placement(idx, start)], infeasible)
    ensures Sched(starts', s.placed + [Placement(idx, start)], Max(s.makespan, start + durations[idx]), infeasible)
         == PlaceWith(durations, succs, lsts, s, idx, Some(start))
  {
    EstsAfterIs(succs[idx], s.starts[idx := start], lsts, idx, durations[idx], starts');
  }

  /** The effect of placing job `idx` when the profiles answered `st`. With no
      start, the job's start becomes -1, it is not inserted, and infeasibility
      is reported. Otherwise it is inserted at that start; the start times are
      those after propagating its completion from that start; and
      infeasibility is reported exactly when some successor's latest start lies
      before the completion. */
  ghost predicate PlacedWith(durations: seq<int>, succs: seq<seq<nat>>, lsts: seq<int>,
                             starts: seq<int>, placed: seq<Placement>, idx: nat, st: Option<int>,
                             starts': seq<int>, placed': seq<Placement>, infeasible: bool)
    requires |succs| == |durations| && |starts| == |durations| && |lsts| == |durations|
    requires idx < |durations| && SuccsIn(succs[idx], |durations|)
  {
    && (st.None? ==> infeasible && placed' == placed && starts' == starts[idx := -1])
    && (st.Some? ==>
          var ect := st.value + durations[idx];
          && placed' == placed + [Placement(idx, st.value)]
          && (infeasible <==> FirstViolation(succs[idx], lsts, ect) < |succs[idx]|)
          && starts' == EstsAfter(succs[idx], starts[idx := st.value], lsts, idx, durations[idx]))
  }

  /** The effect of placing job `idx` at the earliest start every profile
      accepts. */
  ghost predicate PlacedBy(fit: Fit, nprofiles: nat, durations: seq<int>, succs: seq<seq<nat>>, lsts: seq<int>,
                           starts: seq<int>, placed: seq<Placement>, idx: nat,
                           starts': seq<int>, placed': seq<Placement>, infeasible: bool)
    requires FitInRange(fit, nprofiles)
    requires |succs| == |durations| && |starts| == |durations| && |lsts| == |durations|
    requires idx < |durations| && SuccsIn(succs[idx], |durations|)
  {
    PlacedWith(durations, succs, lsts, starts, placed, idx,
               Accepted(fit, nprofiles, placed, idx, starts[idx], lsts[idx]), starts', placed', infeasible)
  }

  /** `m` is the makespan of the placed jobs: no earlier than any completion
      and not below 0, and either 0 or the completion of one of them. */
  ghost predicate IsMakespan(placed: seq<Placement>, durations: seq<int>, m: int) {
    && (forall p :: p in placed ==> p.job < |durations| && m >= p.start + durations[p.job])
    && m >= 0 && (m == 0 || exists p :: p in placed && m == p.start + durations[p.job])
  }

  lemma MakespanStep(placed: seq<Placement>, durations: seq<int>, m: int, p: Placement)
    requires IsMakespan(placed, durations, m) && p.job < |durations|
    ensures IsMakespan(placed + [p], durations, Max(m, p.start + durations[p.job]))
  {
    var m' := Max(m, p.start + durations[p.job]);
    if m' != 0 && m' == m {
      var q :| q in placed && m == q.start + durations[q.job];
      assert q in placed + [p];
    }
    assert p in placed + [p];
  }

  /** The placed jobs after taking `j` jobs of `perm`: its jobs of positive
      duration, except that the last one is missing when it did not fit. */
  ghost predicate Taken(placed: seq<Placement>, perm: seq<nat>, durations: seq<int>, j: nat, infeasible: bool)
    requires j <= |perm| && forall k :: 0 <= k < |perm| ==> perm[k] < |durations|
  {
    || JobsOf(placed) == Positive(perm[..j], durations)
    || (infeasible && j > 0 && JobsOf(placed) + [perm[j - 1]] == Positive(perm[..j], durations))
  }

  lemma TakenStep(placed: seq<Placement>, placed': seq<Placement>, perm: seq<nat>, durations: seq<int>,
                  j: nat, infeasible': bool)
    requires j < |perm| && forall k :: 0 <= k < |perm| ==> perm[k] < |durations|
    requires JobsOf(placed) == Positive(perm[..j], durations)
    requires durations[perm[j]] <= 0 ==> placed' == placed
    requires durations[perm[j]] > 0 ==> JobsOf(placed') == JobsOf(placed) + [perm[j]] || (infeasible' && placed' == placed)
    ensures Taken(placed', perm, durations, j + 1, infeasible')
  {
    PositiveSnoc(perm, durations, j);
  }

  /** Taking one more job of `perm` extends the positive jobs by it exactly
      when its duration is positive. */
  lemma PositiveSnoc(perm: seq<nat>, durations: seq<int>, j: nat)
    requires forall k :: 0 <= k < |perm| ==> perm[k] < |durations|
    requires j < |perm|
    ensures Positive(perm[..j + 1], durations)
      == Positive(perm[..j], durations) + (if durations[perm[j]] > 0 then [perm[j]] else [])
  {
    assert perm[..j + 1][..j] == perm[..j];
  }
}

=== FILE: lpcands.dfy ===
/** The LP branching candidate cache: the fractional binary and integer columns
    of the current LP solution, rebuilt once per LP and arranged so that the
    candidates of maximal branching priority come first, binaries in front. */
module LPCands {
  import opened Vars

  /** An LP column as the candidate scan sees it: its variable and its value in
      the LP solution. */
  datatype Column = Column(v: Var, primsol: real)

  /** An LP branching candidate: the variable, its LP value and the value's
      fractional part. */
  datatype LPCand = LPCand(v: Var, sol: real, frac: real)

  /** The cache: `nprio` candidates of priority `maxprio` in front, the first
      `nbins` of them binary; `validlp` is the LP count it was built for. */
  datatype LPStore = LPStore(
    cands: seq<LPCand>,
    nprio: nat,
    nbins: nat,
    maxprio: Int32,
    validlp: int)

  /** The cache as created: empty and valid for no LP (branch.c:106-131). */
  const EmptyLP: LPStore := LPStore([], 0, 0, IntMin, -1)

  /** Fractional part of an LP value; the solver's feasibility tolerance is
      taken to be zero. */
  function Frac(x: real): (f: real)
    ensures 0.0 <= f < 1.0
  {
    x - x.Floor as real
  }

  /** The candidate filter (branch.c:211-225): a binary or integer column whose
      local domain is not a single value and whose LP value is fractional. */
  predicate IsLPCand(col: Column) {
    && (col.v.vartype == Binary || col.v.vartype == Integer)
    && !(col.v.lb >= col.v.ub - 0.5)
    && Frac(col.primsol) != 0.0
  }

  function ToCand(col: Column): LPCand {
    LPCand(col.v, col.primsol, Frac(col.primsol))
  }

  /** Reference: the candidates of `cols` in column order. */
  function FracCands(cols: seq<Column>): (r: seq<LPCand>)
    ensures |r| <= |cols|
  {
    if |cols| == 0 then []
    else
      var last := cols[|cols| - 1];
      FracCands(cols[..|cols| - 1]) + (if IsLPCand(last) then [ToCand(last)] else [])
  }

  /** The tier layout the scan maintains (branch.c:286): the first `nprio`
      candidates have priority `maxprio`, the first `nbins` of them are
      binaries and the rest of them not, all later ones have lower priority,
      and every candidate is a binary or integer. */
  ghost predicate LPTiers(st: LPStore) {
    var c := st.cands;
    && st.nbins <= st.nprio <= |c|
    && (forall i :: 0 <= i < st.nprio ==> c[i].v.priority == st.maxprio)
    && (forall i :: st.nprio <= i < |c| ==> c[i].v.priority < st.maxprio)
    && (forall i :: 0 <= i < st.nbins ==> c[i].v.vartype == Binary)
    && (forall i :: st.nbins <= i < st.nprio ==> c[i].v.vartype != Binary)
    && (forall i :: 0 <= i < |c| ==> c[i].v.vartype == Binary || c[i].v.vartype == Integer)
    && (|c| == 0 ==> st.maxprio == IntMin)
    && (|c| > 0 ==> st.nprio > 0)
  }

  /** One insertion of the scan (branch.c:229-277): the candidate is appended;
      a higher priority moves it to the front as the single best one, an equal
      priority moves it to the end of the maximal-priority tier and, for a
      binary, on to the end of the binary tier, each move sending the entry it
      displaces to the freed slot. */
  function LPInsert(st: LPStore, x: LPCand): (r: LPStore)
    requires st.nbins <= st.nprio <= |st.cands|
    ensures |r.cands| == |st.cands| + 1 && r.validlp == st.validlp
    ensures r.nbins <= r.nprio <= |r.cands|
  {
    var c := st.cands + [x];
    var pos := |st.cands|;
    if x.v.priority > st.maxprio then
      st.(cands := Swap(c, pos, 0), nprio := 1,
          nbins := if x.v.vartype == Binary then 1 else 0, maxprio := x.v.priority)
    else if x.v.priority == st.maxprio then
      var c1 := Swap(c, pos, st.nprio);
      if x.v.vartype == Binary then
        st.(cands := Swap(c1, st.nprio, st.nbins), nprio := st.nprio + 1, nbins := st.nbins + 1)
      else
        st.(cands := c1, nprio := st.nprio + 1)
    else
      st.(cands := c)
  }

  /** The scan over the LP columns, from an empty cache. */
  function BuildLP(cols: seq<Column>, validlp: int): (r: LPStore)
    ensures r.nbins <= r.nprio <= |r.cands| && r.validlp == validlp
  {
    if |cols| == 0 then EmptyLP.(validlp := validlp)
    else
      var st := BuildLP(cols[..|cols| - 1], validlp);
      var last := cols[|cols| - 1];
      if IsLPCand(last) then LPInsert(st, ToCand(last)) else st
  }

  /** branchcandCalcLPCands: rebuilds the cache only if it was built for an
      older LP. The caller guarantees `validlp <= lpcount` (branch.c:160). */
  function CalcLPCands(st: LPStore, lpcount: int, cols: seq<Column>): (r: LPStore)
    requires st.validlp <= lpcount
  {
    if st.validlp < lpcount then BuildLP(cols, lpcount) else st
  }

  /** SCIPbranchcandGetLPCands: the number of maximal-priority candidates it
      reports; with the preferbinary setting and some binary among them, only
      the binaries. */
  function NPrioLPReported(st: LPStore, preferbinary: bool): int {
    if preferbinary && st.nbins > 0 then st.nbins else st.nprio
  }

  // ---------------------------------------------------------------------------
  // Soundness of the scan

  /** A higher priority starts a new maximal tier holding just the candidate. */
  lemma LPInsertHigher(st: LPStore, x: LPCand)
    requires LPTiers(st) && (x.v.vartype == Binary || x.v.vartype == Integer)
    requires x.v.priority > st.maxprio
    ensures LPTiers(LPInsert(st, x))
  {
    var c := st.cands + [x];
    var pos := |st.cands|;
    var r := LPInsert(st, x);
    assert r.cands == Swap(c, pos, 0);
    forall i | 1 <= i < |r.cands| ensures r.cands[i].v.priority < r.maxprio {
      if i == pos { assert r.cands[i] == c[0]; } else { assert r.cands[i] == st.cands[i]; }
    }
  }

  /** An equal-priority integer is moved to the end of the maximal tier. */
  lemma LPInsertEqualInt(st: LPStore, x: LPCand)
    requires LPTiers(st) && x.v.vartype == Integer && x.v.priority == st.maxprio
    ensures LPTiers(LPInsert(st, x))
  {
    var c := st.cands + [x];
    var pos, np := |st.cands|, st.nprio;
    var c1 := Swap(c, pos, np);
    assert LPInsert(st, x) == st.(cands := c1, nprio := np + 1);
    assert forall i :: 0 <= i < |c1| ==> c1[i] == (if i == np then x else if i == pos then c[np] else st.cands[i]);
  }

  /** An equal-priority binary is moved to the end of the maximal tier and on to
      the end of the binary tier. */
  lemma LPInsertEqualBin(st: LPStore, x: LPCand)
    requires LPTiers(st) && x.v.vartype == Binary && x.v.priority == st.maxprio
    ensures LPTiers(LPInsert(st, x))
  {
    var c := st.cands + [x];
    var pos, np, nb := |st.cands|, st.nprio, st.nbins;
    var c2 := Swap(Swap(c, pos, np), np, nb);
    assert LPInsert(st, x) == st.(cands := c2, nprio := np + 1, nbins := nb + 1);
    SwapTwice(st.cands, x, np, nb);
  }

  /** Where the two moves of a binary insertion leave every entry. */
  lemma SwapTwice<T>(a: seq<T>, x: T, np: nat, nb: nat)
    requires nb <= np <= |a|
    ensures var c2 := Swap(Swap(a + [x], |a|, np), np, nb);
      && |c2| == |a| + 1
      && c2[nb] == x
      && (forall i :: 0 <= i < |a| && i != nb ==> c2[i] == a[i] || (i == np && c2[i] == a[nb]))
      && (np < |a| ==> c2[|a|] == a[np])
      && (nb < np ==> c2[np] == a[nb])
  {
  }

  /** One insertion keeps the tier layout; a higher priority makes the
      candidate the single best one at the front, an equal one grows the
      maximal tier by one, and a lower one appends it behind the tiers. */
  lemma LPInsertTiers(st: LPStore, x: LPCand)
    requires LPTiers(st) && (x.v.vartype == Binary || x.v.vartype == Integer)
    ensures LPTiers(LPInsert(st, x))
    ensures var r := LPInsert(st, x);
      && (x.v.priority > st.maxprio ==> r.nprio == 1 && r.maxprio == x.v.priority && r.cands[0] == x)
      && (x.v.priority == st.maxprio ==> r.nprio == st.nprio + 1 && r.maxprio == st.maxprio)
      && (x.v.priority < st.maxprio ==>
            r.cands == st.cands + [x] && r.nprio == st.nprio && r.nbins == st.nbins && r.maxprio == st.maxprio)
  {
    if x.v.priority > st.maxprio {
      LPInsertHigher(st, x);
    } else if x.v.priority == st.maxprio && x.v.vartype == Binary {
      LPInsertEqualBin(st, x);
    } else if x.v.priority == st.maxprio {
      LPInsertEqualInt(st, x);
    } else {
      var c := st.cands + [x];
      assert LPInsert(st, x).cands == c;
      assert forall i :: 0 <= i < |st.cands| ==> c[i] == st.cands[i];
    }
  }

  /** One insertion adds exactly the candidate to the cache's multiset. */
  lemma LPInsertPermutes(st: LPStore, x: LPCand)
    requires st.nbins <= st.nprio <= |st.cands|
    ensures multiset(LPInsert(st, x).cands) == multiset(st.cands) + multiset{x}
  {
    var c := st.cands + [x];
    var pos := |st.cands|;
    assert multiset(c) == multiset(st.cands) + multiset{x};
    if x.v.priority > st.maxprio {
      SwapPermutes(c, pos, 0);
    } else if x.v.priority == st.maxprio {
      var c1 := Swap(c, pos, st.nprio);
      SwapPermutes(c, pos, st.nprio);
      if x.v.vartype == Binary {
        SwapPermutes(c1, st.nprio, st.nbins);
      }
    }
  }

  /** The scan arranges exactly the candidates of the columns in tiers. */
  lemma {:induction false} BuildLPSound(cols: seq<Column>, validlp: int)
    ensures LPTiers(BuildLP(cols, validlp))
    ensures multiset(BuildLP(cols, validlp).cands) == multiset(FracCands(cols))
  {
    if |cols| > 0 {
      var init := cols[..|cols| - 1];
      var last := cols[|cols| - 1];
      BuildLPSound(init, validlp);
      if IsLPCand(last) {
        LPInsertTiers(BuildLP(init, validlp), ToCand(last));
        LPInsertPermutes(BuildLP(init, validlp), ToCand(last));
      }
    }
  }

  /** A candidate is in the reference list exactly when it comes from a column
      passing the filter. */
  lemma {:induction false} FracCandsMembers(cols: seq<Column>, x: LPCand)
    ensures x in FracCands(cols) <==> exists k :: 0 <= k < |cols| && IsLPCand(cols[k]) && ToCand(cols[k]) == x
  {
    if |cols| > 0 {
      var n := |cols| - 1;
      var init := cols[..n];
      FracCandsMembers(init, x);
      assert FracCands(cols) == FracCands(init) + (if IsLPCand(cols[n]) then [ToCand(cols[n])] else []);
      if x in FracCands(cols) {
        if x in FracCands(init) {
          var k :| 0 <= k < |init| && IsLPCand(init[k]) && ToCand(init[k]) == x;
          assert cols[k] == init[k];
        } else {
          assert IsLPCand(cols[n]) && ToCand(cols[n]) == x;
        }
      } else {
        forall k | 0 <= k < |cols| && IsLPCand(cols[k]) ensures ToCand(cols[k]) != x {
          if k < n { assert cols[k] == init[k]; }
        }
      }
    }
  }

  /** The cache is rebuilt exactly when it is stale, and is then current,
      in tiers, and holds exactly the candidates of the columns. */
  lemma CalcLPCandsSound(st: LPStore, lpcount: int, cols: seq<Column>)
    requires st.validlp <= lpcount
    ensures var r := CalcLPCands(st, lpcount, cols);
      && r.validlp == lpcount
      && (st.validlp == lpcount ==> r == st)
      && (st.validlp < lpcount ==>
            LPTiers(r) && multiset(r.cands) == multiset(FracCands(cols)))
  {
    if st.validlp < lpcount {
      BuildLPSound(cols, lpcount);
    }
  }

  /** Asking twice within the same LP does not rebuild again. */
  lemma CalcLPCandsIdempotent(st: LPStore, lpcount: int, cols: seq<Column>, cols': seq<Column>)
    requires st.validlp <= lpcount
    ensures var r := CalcLPCands(st, lpcount, cols);
      r.validlp <= lpcount && CalcLPCands(r, lpcount, cols') == r
  {
  }

  /** The reported prefix is exactly the set of candidates of maximal priority
      (binary ones, under preferbinary with binaries present). */
  lemma NPrioLPReportedMeaning(st: LPStore, preferbinary: bool)
    requires LPTiers(st)
    ensures var n := NPrioLPReported(st, preferbinary);
      && 0 <= n <= |st.cands| && (|st.cands| > 0 ==> n > 0)
      && (forall i :: 0 <= i < |st.cands| ==> st.cands[i].v.priority <= st.maxprio)
      && (forall i :: 0 <= i < |st.cands| ==>
            (i < n <==> st.cands[i].v.priority == st.maxprio
                        && (preferbinary && st.nbins > 0 ==> st.cands[i].v.vartype == Binary)))
  {
  }
}

=== FILE: pseudocands.dfy ===
/** The pseudo branching candidate store: every unfixed discrete variable, kept in
    an array whose front holds the candidates of maximal branching priority,
    ordered binaries, integers, implicit integers. Each member has a back-pointer
    (its array position) so that it can be removed in constant time.

    The C code moves entries into a "free slot" and writes the inserted (or
    removed) variable last. Here the free slot always holds that variable itself,
    so every move is a swap of two slots; the final array is the same. */
module PseudoCands {
  import opened Vars

  /** Candidate store: `nbins`, `nints` and `nprio` are the sizes of the binary,
      integer and whole maximal-priority tiers; `index` maps a variable id to its
      position (a variable not in `index` has back-pointer -1). */
  datatype PseudoStore = PseudoStore(
    cands: seq<Var>,
    nbins: nat,
    nints: nat,
    nprio: nat,
    maxprio: Int32,
    index: map<nat, nat>)

  /** The store as created: empty, maximal priority INT_MIN. */
  const Empty: PseudoStore := PseudoStore([], 0, 0, 0, IntMin, map[])

  /** The variable's back-pointer, -1 for a non-member. */
  function CandIndex(s: PseudoStore, id: nat): int {
    if id in s.index then s.index[id] else -1
  }

  /** The tier layout of `c[..upto]`; position `h` (the slot being moved, or -1)
      is exempt. `c[..nb]` binaries, `c[nb..nb+ni]` integers, `c[nb+ni..np]`
      implicit integers, all of priority `mp`; `c[np..upto]` of lower priority. */
  ghost predicate TiersBut(c: seq<Var>, nb: nat, ni: nat, np: nat, mp: int, upto: nat, h: int) {
    && nb + ni <= np <= upto <= |c|
    && (forall i :: 0 <= i < np && i != h ==> c[i].priority == mp)
    && (forall i :: np <= i < upto && i != h ==> c[i].priority < mp)
    && (forall i :: 0 <= i < nb && i != h ==> c[i].vartype == Binary)
    && (forall i :: nb <= i < nb + ni && i != h ==> c[i].vartype == Integer)
    && (forall i :: nb + ni <= i < np && i != h ==> c[i].vartype == ImplInt)
  }

  /** Every back-pointer is correct. */
  ghost predicate Pointers(c: seq<Var>, idx: map<nat, nat>) {
    && (forall i :: 0 <= i < |c| ==> c[i].id in idx && idx[c[i].id] == i)
    && (forall id :: id in idx ==> idx[id] < |c| && c[idx[id]].id == id)
  }

  /** Every back-pointer is correct, except those of the variable in slot `h`,
      whose id occurs nowhere else. */
  ghost predicate PointersBut(c: seq<Var>, idx: map<nat, nat>, h: nat) {
    && h < |c|
    && (forall i :: 0 <= i < |c| && i != h ==> c[i].id in idx && idx[c[i].id] == i)
    && (forall id :: id in idx && id != c[h].id ==> idx[id] < |c| && c[idx[id]].id == id)
    && (forall i :: 0 <= i < |c| && i != h ==> c[i].id != c[h].id)
  }

  /** The abstract content of the store: which variable each member id denotes. */
  function Stored(c: seq<Var>, idx: map<nat, nat>): map<nat, Var> {
    map id | id in idx && idx[id] < |c| :: c[idx[id]]
  }

  /** `Stored` ignoring the (possibly stale) entry of `vid`. */
  function StoredBut(c: seq<Var>, idx: map<nat, nat>, vid: nat): map<nat, Var> {
    map id | id in idx && id != vid && idx[id] < |c| :: c[idx[id]]
  }

  function Contents(s: PseudoStore): map<nat, Var> {
    Stored(s.cands, s.index)
  }

  /** Only binary, integer and implicit integer variables. */
  ghost predicate AllDiscrete(c: seq<Var>) {
    forall k :: 0 <= k < |c| ==> Discrete(c[k])
  }

  /** The invariant the C code asserts after every change (branch.c:522-524,
      556-558, 639-641), plus correct back-pointers and the empty-store case. */
  ghost predicate ValidPseudo(s: PseudoStore) {
    && TiersBut(s.cands, s.nbins, s.nints, s.nprio, s.maxprio, |s.cands|, -1)
    && Pointers(s.cands, s.index)
    && AllDiscrete(s.cands)
    && (|s.cands| == 0 ==> s.maxprio == IntMin)
    && (|s.cands| > 0 ==> s.nprio > 0)
  }

  /** Moves the entry at `t` into the free slot `h`, updating its back-pointer;
      the free slot is now `t`. */
  function MoveHole(s: PseudoStore, h: nat, t: nat): (r: PseudoStore)
    requires h < |s.cands| && t < |s.cands|
    ensures |r.cands| == |s.cands| && r.cands == Swap(s.cands, h, t)
    ensures r.nbins == s.nbins && r.nints == s.nints && r.nprio == s.nprio && r.maxprio == s.maxprio
  {
    if h == t then
      assert Swap(s.cands, h, t) == s.cands;
      s
    else s.(cands := Swap(s.cands, h, t), index := s.index[s.cands[t].id := h])
  }

  lemma MoveHoleKeeps(s: PseudoStore, h: nat, t: nat)
    requires PointersBut(s.cands, s.index, h) && t < |s.cands|
    ensures var r := MoveHole(s, h, t);
      && PointersBut(r.cands, r.index, t)
      && r.cands[t] == s.cands[h] && r.cands[h] == s.cands[t]
      && (forall k :: 0 <= k < |s.cands| && k != h && k != t ==> r.cands[k] == s.cands[k])
      && StoredBut(r.cands, r.index, s.cands[h].id) == StoredBut(s.cands, s.index, s.cands[h].id)
  {
    if h != t {
      MoveHolePointers(s, h, t);
      MoveHoleStored(s, h, t);
    }
  }

  /** Moving the free slot keeps every other back-pointer correct. */
  lemma MoveHolePointers(s: PseudoStore, h: nat, t: nat)
    requires PointersBut(s.cands, s.index, h) && t < |s.cands| && h != t
    ensures PointersBut(MoveHole(s, h, t).cands, MoveHole(s, h, t).index, t)
  {
    var c, idx := s.cands, s.index;
    var c' := Swap(c, h, t);
    var idx' := idx[c[t].id := h];
    assert MoveHole(s, h, t).cands == c' && MoveHole(s, h, t).index == idx';
    assert c[t].id != c[h].id;
    forall id | id in idx' && id != c'[t].id
      ensures idx'[id] < |c'| && c'[idx'[id]].id == id
    {
      if id != c[t].id {
        var k := idx[id];
        assert k != h && k != t;
      }
    }
  }

  /** Moving the free slot keeps the content apart from the moved variable. */
  lemma MoveHoleStored(s: PseudoStore, h: nat, t: nat)
    requires PointersBut(s.cands, s.index, h) && t < |s.cands| && h != t
    ensures StoredBut(MoveHole(s, h, t).cands, MoveHole(s, h, t).index, s.cands[h].id)
         == StoredBut(s.cands, s.index, s.cands[h].id)
  {
    var c, idx := s.cands, s.index;
    var c' := Swap(c, h, t);
    var idx' := idx[c[t].id := h];
    assert MoveHole(s, h, t).cands == c' && MoveHole(s, h, t).index == idx';
    var vid := c[h].id;
    assert c[t].id != vid;
    var m1 := StoredBut(c', idx', vid);
    var m2 := StoredBut(c, idx, vid);
    assert m1.Keys == m2.Keys;
    forall id | id in m1 ensures m1[id] == m2[id] {
      if id != c[t].id {
        var k := idx[id];
        assert k != h && k != t;
      }
    }
  }

  /** Writing the back-pointer of the variable in the free slot `h` completes the
      back-pointers and adds that variable to the content. */
  lemma PlaceCompletes(c: seq<Var>, idx: map<nat, nat>, h: nat)
    requires PointersBut(c, idx, h)
    ensures Pointers(c, idx[c[h].id := h])
    ensures Stored(c, idx[c[h].id := h]) == StoredBut(c, idx, c[h].id)[c[h].id := c[h]]
  {
    PlacePointers(c, idx, h);
    PlaceStored(c, idx, h);
  }

  lemma PlacePointers(c: seq<Var>, idx: map<nat, nat>, h: nat)
    requires PointersBut(c, idx, h)
    ensures Pointers(c, idx[c[h].id := h])
  {
  }

  lemma PlaceStored(c: seq<Var>, idx: map<nat, nat>, h: nat)
    requires PointersBut(c, idx, h)
    ensures Stored(c, idx[c[h].id := h]) == StoredBut(c, idx, c[h].id)[c[h].id := c[h]]
  {
    var idx' := idx[c[h].id := h];
    var m1 := Stored(c, idx');
    var m2 := StoredBut(c, idx, c[h].id)[c[h].id := c[h]];
    assert m1.Keys == m2.Keys;
  }

  /** With all back-pointers correct, the content has exactly the indexed ids. */
  lemma StoredOfPointers(c: seq<Var>, idx: map<nat, nat>, vid: nat)
    requires Pointers(c, idx)
    ensures Stored(c, idx).Keys == idx.Keys
    ensures vid in idx ==> Stored(c, idx) == StoredBut(c, idx, vid)[vid := c[idx[vid]]]
    ensures vid !in idx ==> Stored(c, idx) == StoredBut(c, idx, vid)
  {
    if vid in idx {
      var m1 := Stored(c, idx);
      var m2 := StoredBut(c, idx, vid)[vid := c[idx[vid]]];
      assert m1.Keys == m2.Keys;
    } else {
      assert Stored(c, idx).Keys == StoredBut(c, idx, vid).Keys;
    }
  }

  /** Precondition of the insertion (branch.c:452): `v` sits in the free slot
      `pos`, which lies outside the maximal-priority tier, the slots before it are
      laid out in tiers, and the array holds discrete variables only. */
  ghost predicate InsertReady(s: PseudoStore, v: Var, pos: nat) {
    && pos < |s.cands| && s.cands[pos] == v && AllDiscrete(s.cands)
    && TiersBut(s.cands, s.nbins, s.nints, s.nprio, s.maxprio, pos, -1)
    && PointersBut(s.cands, s.index, pos)
  }

  /** branchcandInsertPseudoCand: places `v` (held in the free slot `pos`) at the
      front of the maximal-priority tiers when its priority is at least the
      maximum, cascading the displaced boundary entries into the free slot. */
  function InsertPseudoCand(s: PseudoStore, v: Var, pos: nat): (r: PseudoStore)
    requires pos < |s.cands| && s.nbins + s.nints <= s.nprio <= pos
    ensures |r.cands| == |s.cands|
    ensures r.nbins + r.nints <= r.nprio <= pos + 1
  {
    if v.priority > s.maxprio then
      // higher priority than the current maximum: v becomes the single best candidate
      var s1 := MoveHole(s, pos, 0);
      s1.(nprio := 1,
          nbins := if v.vartype == Binary then 1 else 0,
          nints := if v.vartype == Integer then 1 else 0,
          maxprio := v.priority,
          index := s1.index[v.id := 0])
    else if v.priority == s.maxprio then
      // equal priority: take the first slot behind the tier and grow the tier
      InsertIntoTier(MoveHole(s, pos, s.nprio).(nprio := s.nprio + 1), v, s.nprio)
    else
      s.(index := s.index[v.id := pos])
  }

  /** Equal-priority insertion, once the free slot `h1` is the last slot of the
      grown tier: binaries and integers move on to the end of the integer tier. */
  function InsertIntoTier(s1: PseudoStore, v: Var, h1: nat): (r: PseudoStore)
    requires h1 < |s1.cands| && s1.nbins + s1.nints <= h1
    ensures |r.cands| == |s1.cands|
    ensures r.nprio == s1.nprio && r.maxprio == s1.maxprio && r.nbins + r.nints <= h1 + 1
  {
    if v.vartype == Binary || v.vartype == Integer then
      var h2 := s1.nbins + s1.nints;
      InsertIntoIntTier(MoveHole(s1, h1, h2).(nints := s1.nints + 1), v, h2)
    else
      s1.(index := s1.index[v.id := h1])
  }

  /** Binary or integer insertion, once the free slot `h2` is the last slot of the
      grown integer tier: binaries move on to the end of the binary tier. */
  function InsertIntoIntTier(s2: PseudoStore, v: Var, h2: nat): (r: PseudoStore)
    requires h2 < |s2.cands| && s2.nbins <= h2 && s2.nints > 0
    ensures |r.cands| == |s2.cands|
    ensures r.nprio == s2.nprio && r.maxprio == s2.maxprio && r.nbins + r.nints == s2.nbins + s2.nints
  {
    if v.vartype == Binary then
      var h3 := s2.nbins;
      var s3 := MoveHole(s2, h2, h3).(nbins := s2.nbins + 1, nints := s2.nints - 1);
      s3.(index := s3.index[v.id := h3])
    else
      s2.(index := s2.index[v.id := h2])
  }

  /** What an insertion at free slot `pos` guarantees: the prefix up to and
      including `pos` is in tiers, the array stays discrete and later slots stay
      alone, the back-pointers are all correct and the content gains `v`. */
  ghost predicate Inserted(s: PseudoStore, v: Var, pos: nat, r: PseudoStore)
    requires pos < |s.cands|
  {
    && |r.cands| == |s.cands|
    && TiersBut(r.cands, r.nbins, r.nints, r.nprio, r.maxprio, pos + 1, -1)
    && AllDiscrete(r.cands)
    && (forall k :: pos < k < |s.cands| ==> r.cands[k] == s.cands[k])
    && Pointers(r.cands, r.index)
    && Stored(r.cands, r.index) == StoredBut(s.cands, s.index, v.id)[v.id := v]
  }

  /** A swap keeps an array of discrete variables discrete. */
  lemma SwapDiscrete(c: seq<Var>, h: nat, t: nat)
    requires AllDiscrete(c) && h < |c| && t < |c|
    ensures AllDiscrete(Swap(c, h, t))
  {
    var c' := Swap(c, h, t);
    forall k | 0 <= k < |c'| ensures Discrete(c'[k]) {
      if k == h { assert c'[k] == c[t]; }
      else if k == t { assert c'[k] == c[h]; }
      else { assert c'[k] == c[k]; }
    }
  }

  /** Opening a slot for `v` at the end of the maximal-priority tier: the entry
      that was there moves to the old free slot `pos`, behind the tier. */
  lemma TierOpen(c: seq<Var>, nb: nat, ni: nat, np: nat, mp: int, pos: nat)
    requires TiersBut(c, nb, ni, np, mp, pos, -1) && pos < |c| && c[pos].priority == mp
    ensures TiersBut(Swap(c, pos, np), nb, ni, np + 1, mp, pos + 1, np)
  {
    var c' := Swap(c, pos, np);
    forall i | np + 1 <= i < pos + 1 ensures c'[i].priority < mp {
      if i == pos { assert c'[i] == c[np]; } else { assert c'[i] == c[i]; }
    }
  }

  /** Moving the free slot from the end of the tier to the end of the grown
      integer tier: the first implicit integer takes the old free slot. */
  lemma TierToInts(c: seq<Var>, nb: nat, ni: nat, np: nat, mp: int, upto: nat, h: nat)
    requires TiersBut(c, nb, ni, np, mp, upto, h) && h + 1 == np && nb + ni <= h
    ensures TiersBut(Swap(c, h, nb + ni), nb, ni + 1, np, mp, upto, nb + ni)
  {
    var c' := Swap(c, h, nb + ni);
    forall i | nb + ni + 1 <= i < np ensures c'[i].vartype == ImplInt {
      if i == h { assert c'[i] == c[nb + ni]; } else { assert c'[i] == c[i]; }
    }
  }

  /** Moving the free slot from the end of the integer tier to the end of the
      grown binary tier: the first integer takes the old free slot. */
  lemma TierToBins(c: seq<Var>, nb: nat, ni: nat, np: nat, mp: int, upto: nat, h: nat)
    requires TiersBut(c, nb, ni, np, mp, upto, h) && h + 1 == nb + ni && ni > 0
    ensures TiersBut(Swap(c, h, nb), nb + 1, ni - 1, np, mp, upto, nb)
  {
    var c' := Swap(c, h, nb);
    forall i | nb + 1 <= i < nb + ni ensures c'[i].vartype == Integer {
      if i == h { assert c'[i] == c[nb]; } else { assert c'[i] == c[i]; }
    }
  }

  /** An entry of the right priority and type in the free slot closes the layout. */
  lemma TierClose(c: seq<Var>, nb: nat, ni: nat, np: nat, mp: int, upto: nat, h: nat)
    requires TiersBut(c, nb, ni, np, mp, upto, h) && h < np && c[h].priority == mp
    requires h < nb ==> c[h].vartype == Binary
    requires nb <= h < nb + ni ==> c[h].vartype == Integer
    requires nb + ni <= h ==> c[h].vartype == ImplInt
    ensures TiersBut(c, nb, ni, np, mp, upto, -1)
  {
  }

  /** The array side of the last insertion stage: `v`, a binary or integer in
      the free slot at the end of the integer tier, closes the layout. */
  lemma IntTierLayout(s2: PseudoStore, v: Var, h2: nat, upto: nat)
    requires h2 < upto <= |s2.cands| && s2.nbins <= h2 && s2.nints > 0
    requires h2 + 1 == s2.nbins + s2.nints && h2 < s2.nprio
    requires s2.cands[h2] == v && (v.vartype == Binary || v.vartype == Integer)
    requires v.priority == s2.maxprio && AllDiscrete(s2.cands)
    requires TiersBut(s2.cands, s2.nbins, s2.nints, s2.nprio, s2.maxprio, upto, h2)
    ensures var r := InsertIntoIntTier(s2, v, h2);
      && TiersBut(r.cands, r.nbins, r.nints, r.nprio, r.maxprio, upto, -1)
      && AllDiscrete(r.cands)
      && (forall k :: upto <= k < |s2.cands| ==> r.cands[k] == s2.cands[k])
  {
    var c := s2.cands;
    if v.vartype == Binary {
      var c' := Swap(c, h2, s2.nbins);
      assert InsertIntoIntTier(s2, v, h2).cands == c';
      TierToBins(c, s2.nbins, s2.nints, s2.nprio, s2.maxprio, upto, h2);
      TierClose(c', s2.nbins + 1, s2.nints - 1, s2.nprio, s2.maxprio, upto, s2.nbins);
      SwapDiscrete(c, h2, s2.nbins);
    } else {
      TierClose(c, s2.nbins, s2.nints, s2.nprio, s2.maxprio, upto, h2);
    }
  }

  /** The array side of the equal-priority stage: `v` in the free slot at the
      end of the grown tier ends in the tier of its type. */
  lemma TierLayout(s1: PseudoStore, v: Var, h1: nat, upto: nat)
    requires h1 < upto <= |s1.cands| && s1.nbins + s1.nints <= h1 && h1 + 1 == s1.nprio
    requires s1.cands[h1] == v && v.priority == s1.maxprio && AllDiscrete(s1.cands)
    requires TiersBut(s1.cands, s1.nbins, s1.nints, s1.nprio, s1.maxprio, upto, h1)
    ensures var r := InsertIntoTier(s1, v, h1);
      && TiersBut(r.cands, r.nbins, r.nints, r.nprio, r.maxprio, upto, -1)
      && AllDiscrete(r.cands)
      && (forall k :: upto <= k < |s1.cands| ==> r.cands[k] == s1.cands[k])
  {
    if v.vartype == Binary || v.vartype == Integer {
      DiscreteTierLayout(s1, v, h1, upto);
    } else {
      TierClose(s1.cands, s1.nbins, s1.nints, s1.nprio, s1.maxprio, upto, h1);
    }
  }

  lemma DiscreteTierLayout(s1: PseudoStore, v: Var, h1: nat, upto: nat)
    requires h1 < upto <= |s1.cands| && s1.nbins + s1.nints <= h1 && h1 + 1 == s1.nprio
    requires s1.cands[h1] == v && v.priority == s1.maxprio && AllDiscrete(s1.cands)
    requires TiersBut(s1.cands, s1.nbins, s1.nints, s1.nprio, s1.maxprio, upto, h1)
    requires v.vartype == Binary || v.vartype == Integer
    ensures var r := InsertIntoTier(s1, v, h1);
      && TiersBut(r.cands, r.nbins, r.nints, r.nprio, r.maxprio, upto, -1)
      && AllDiscrete(r.cands)
      && (forall k :: upto <= k < |s1.cands| ==> r.cands[k] == s1.cands[k])
  {
    var c := s1.cands;
    var t := s1.nbins + s1.nints;
    var m := MoveHole(s1, h1, t);
    var s2 := m.(nints := s1.nints + 1);
    assert s2.cands == Swap(c, h1, t) && s2.nbins == s1.nbins && s2.nprio == s1.nprio && s2.maxprio == s1.maxprio;
    TierToInts(c, s1.nbins, s1.nints, s1.nprio, s1.maxprio, upto, h1);
    SwapDiscrete(c, h1, t);
    assert s2.cands[t] == v;
    IntTierLayout(s2, v, t, upto);
    InsertIntoTierUnfold(s1, v, h1);
  }

  /** The array side of a strictly higher-priority insertion: `v` moves to the
      front and everything else ranks below it. */
  lemma HigherLayout(s: PseudoStore, v: Var, pos: nat)
    requires pos < |s.cands| && s.cands[pos] == v && AllDiscrete(s.cands)
    requires TiersBut(s.cands, s.nbins, s.nints, s.nprio, s.maxprio, pos, -1)
    requires v.priority > s.maxprio
    ensures var r := InsertPseudoCand(s, v, pos);
      && TiersBut(r.cands, r.nbins, r.nints, r.nprio, r.maxprio, pos + 1, -1)
      && AllDiscrete(r.cands)
      && (forall k :: pos < k < |s.cands| ==> r.cands[k] == s.cands[k])
  {
    var c := s.cands;
    var c' := Swap(c, pos, 0);
    assert InsertPseudoCand(s, v, pos).cands == c';
    forall i | 1 <= i < pos + 1 ensures c'[i].priority < v.priority {
      if i == pos { assert c'[i] == c[0]; } else { assert c'[i] == c[i]; }
    }
    SwapDiscrete(c, pos, 0);
  }

  /** The array side of an equal-priority insertion. */
  lemma EqualLayout(s: PseudoStore, v: Var, pos: nat)
    requires pos < |s.cands| && s.cands[pos] == v && AllDiscrete(s.cands)
    requires TiersBut(s.cands, s.nbins, s.nints, s.nprio, s.maxprio, pos, -1)
    requires v.priority == s.maxprio
    ensures var r := InsertPseudoCand(s, v, pos);
      && TiersBut(r.cands, r.nbins, r.nints, r.nprio, r.maxprio, pos + 1, -1)
      && AllDiscrete(r.cands)
      && (forall k :: pos < k < |s.cands| ==> r.cands[k] == s.cands[k])
  {
    var np := s.nprio;
    var m := MoveHole(s, pos, np);
    var s1 := m.(nprio := np + 1);
    assert s1.cands == Swap(s.cands, pos, np) && s1.nbins == s.nbins && s1.nints == s.nints && s1.maxprio == s.maxprio;
    TierOpen(s.cands, s.nbins, s.nints, np, s.maxprio, pos);
    SwapDiscrete(s.cands, pos, np);
    assert s1.cands[np] == v;
    TierLayout(s1, v, np, pos + 1);
    InsertEqualUnfold(s, v, pos);
  }

  lemma InsertEqualUnfold(s: PseudoStore, v: Var, pos: nat)
    requires pos < |s.cands| && s.nbins + s.nints <= s.nprio <= pos && v.priority == s.maxprio
    ensures InsertPseudoCand(s, v, pos) == InsertIntoTier(MoveHole(s, pos, s.nprio).(nprio := s.nprio + 1), v, s.nprio)
  {
  }

  /** The array side of the insertion: the prefix up to `pos` ends in tiers. */
  lemma InsertLayout(s: PseudoStore, v: Var, pos: nat)
    requires pos < |s.cands| && s.cands[pos] == v && AllDiscrete(s.cands)
    requires TiersBut(s.cands, s.nbins, s.nints, s.nprio, s.maxprio, pos, -1)
    ensures var r := InsertPseudoCand(s, v, pos);
      && TiersBut(r.cands, r.nbins, r.nints, r.nprio, r.maxprio, pos + 1, -1)
      && AllDiscrete(r.cands)
      && (forall k :: pos < k < |s.cands| ==> r.cands[k] == s.cands[k])
  {
    if v.priority > s.maxprio {
      HigherLayout(s, v, pos);
    } else if v.priority == s.maxprio {
      EqualLayout(s, v, pos);
    }
  }

  /** The back-pointer side of the last insertion stage. */
  lemma IntTierPointers(s2: PseudoStore, v: Var, h2: nat)
    requires h2 < |s2.cands| && s2.nbins <= h2 && s2.nints > 0
    requires PointersBut(s2.cands, s2.index, h2) && s2.cands[h2] == v
    ensures var r := InsertIntoIntTier(s2, v, h2);
      && Pointers(r.cands, r.index)
      && Stored(r.cands, r.index) == StoredBut(s2.cands, s2.index, v.id)[v.id := v]
  {
    if v.vartype == Binary {
      var s3 := MoveHole(s2, h2, s2.nbins);
      MoveHoleKeeps(s2, h2, s2.nbins);
      PlaceCompletes(s3.cands, s3.index, s2.nbins);
    } else {
      PlaceCompletes(s2.cands, s2.index, h2);
    }
  }

  /** The back-pointer side of the equal-priority stage. */
  lemma TierPointers(s1: PseudoStore, v: Var, h1: nat)
    requires h1 < |s1.cands| && s1.nbins + s1.nints <= h1
    requires PointersBut(s1.cands, s1.index, h1) && s1.cands[h1] == v
    ensures var r := InsertIntoTier(s1, v, h1);
      && Pointers(r.cands, r.index)
      && Stored(r.cands, r.index) == StoredBut(s1.cands, s1.index, v.id)[v.id := v]
  {
    if v.vartype == Binary || v.vartype == Integer {
      DiscreteTierPointers(s1, v, h1);
    } else {
      PlaceCompletes(s1.cands, s1.index, h1);
    }
  }

  lemma DiscreteTierPointers(s1: PseudoStore, v: Var, h1: nat)
    requires h1 < |s1.cands| && s1.nbins + s1.nints <= h1
    requires PointersBut(s1.cands, s1.index, h1) && s1.cands[h1] == v
    requires v.vartype == Binary || v.vartype == Integer
    ensures var r := InsertIntoTier(s1, v, h1);
      && Pointers(r.cands, r.index)
      && Stored(r.cands, r.index) == StoredBut(s1.cands, s1.index, v.id)[v.id := v]
  {
    var t := s1.nbins + s1.nints;
    var m := MoveHole(s1, h1, t);
    MoveHoleKeeps(s1, h1, t);
    var s2 := m.(nints := s1.nints + 1);
    assert PointersBut(s2.cands, s2.index, t) && s2.cands[t] == v;
    var r := InsertIntoIntTier(s2, v, t);
    IntTierPointers(s2, v, t);
    assert StoredBut(s2.cands, s2.index, v.id) == StoredBut(s1.cands, s1.index, v.id);
    InsertIntoTierUnfold(s1, v, h1);
  }

  lemma InsertIntoTierUnfold(s1: PseudoStore, v: Var, h1: nat)
    requires h1 < |s1.cands| && s1.nbins + s1.nints <= h1
    requires v.vartype == Binary || v.vartype == Integer
    ensures var t := s1.nbins + s1.nints;
      InsertIntoTier(s1, v, h1) == InsertIntoIntTier(MoveHole(s1, h1, t).(nints := s1.nints + 1), v, t)
  {
  }

  /** The back-pointer side of the insertion: every back-pointer ends correct
      and the content gains exactly `v`. */
  lemma InsertPointers(s: PseudoStore, v: Var, pos: nat)
    requires pos < |s.cands| && s.nbins + s.nints <= s.nprio <= pos
    requires PointersBut(s.cands, s.index, pos) && s.cands[pos] == v
    ensures var r := InsertPseudoCand(s, v, pos);
      && Pointers(r.cands, r.index)
      && Stored(r.cands, r.index) == StoredBut(s.cands, s.index, v.id)[v.id := v]
  {
    if v.priority > s.maxprio {
      var s1 := MoveHole(s, pos, 0);
      MoveHoleKeeps(s, pos, 0);
      PlaceCompletes(s1.cands, s1.index, 0);
    } else if v.priority == s.maxprio {
      var np := s.nprio;
      var s1 := MoveHole(s, pos, np).(nprio := np + 1);
      assert InsertPseudoCand(s, v, pos) == InsertIntoTier(s1, v, np);
      MoveHoleKeeps(s, pos, np);
      TierPointers(s1, v, np);
    } else {
      PlaceCompletes(s.cands, s.index, pos);
    }
  }

  /** The insertion keeps the tier layout up to the free slot, completes the
      back-pointers and adds exactly `v` to the content; a strictly higher
      priority resets the tier to `v` alone, an equal one grows the tier by one,
      and a lower one leaves the array and the tiers untouched. */
  lemma InsertPseudoCandSound(s: PseudoStore, v: Var, pos: nat)
    requires InsertReady(s, v, pos)
    ensures Inserted(s, v, pos, InsertPseudoCand(s, v, pos))
    ensures var r := InsertPseudoCand(s, v, pos);
      && (v.priority > s.maxprio ==> r.nprio == 1 && r.maxprio == v.priority && r.cands[0] == v)
      && (v.priority == s.maxprio ==> r.nprio == s.nprio + 1 && r.maxprio == s.maxprio)
      && (v.priority < s.maxprio ==>
            r.cands == s.cands && r.nprio == s.nprio && r.nbins == s.nbins
            && r.nints == s.nints && r.maxprio == s.maxprio)
  {
    InsertLayout(s, v, pos);
    InsertPointers(s, v, pos);
    if v.priority > s.maxprio {
      assert InsertPseudoCand(s, v, pos).cands == Swap(s.cands, pos, 0);
    }
  }

  /** Precondition of one resort step at position `i`: the prefix is in tiers,
      all back-pointers are correct. */
  ghost predicate SortReady(s: PseudoStore, i: nat) {
    && i <= |s.cands|
    && TiersBut(s.cands, s.nbins, s.nints, s.nprio, s.maxprio, i, -1)
    && Pointers(s.cands, s.index)
    && AllDiscrete(s.cands)
    && (i == 0 ==> s.maxprio == IntMin)
    && (i > 0 ==> s.nprio > 0)
  }

  /** With all back-pointers correct, every id occurs once, so each slot satisfies
      the weaker invariant with itself as the free slot. */
  lemma PointersAllBut(c: seq<Var>, idx: map<nat, nat>, h: nat)
    requires Pointers(c, idx) && h < |c|
    ensures PointersBut(c, idx, h)
  {
  }

  /** One step of the resort loop: re-inserting slot `i` extends the sorted prefix
      and leaves the content alone. */
  lemma SortStep(s: PseudoStore, i: nat)
    requires SortReady(s, i) && i < |s.cands| && s.cands[i].priority >= s.maxprio
    ensures var s' := InsertPseudoCand(s, s.cands[i], i);
      SortReady(s', i + 1) && Contents(s') == Contents(s)
  {
    var v := s.cands[i];
    PointersAllBut(s.cands, s.index, i);
    InsertPseudoCandSound(s, v, i);
    StoredOfPointers(s.cands, s.index, v.id);
  }

  /** One step of the loop of branchcandSortPseudoCands: the entry at slot `i` is
      re-inserted at its own slot if its priority is at least the running
      maximum, and left behind the tiers otherwise. */
  function SortAt(s: PseudoStore, i: nat): (r: PseudoStore)
    requires i < |s.cands| && s.nbins + s.nints <= s.nprio <= i
    ensures |r.cands| == |s.cands| && r.nbins + r.nints <= r.nprio <= i + 1
  {
    if s.cands[i].priority >= s.maxprio then InsertPseudoCand(s, s.cands[i], i) else s
  }

  /** The loop of branchcandSortPseudoCands from position `i` on. */
  function SortFrom(s: PseudoStore, i: nat): (r: PseudoStore)
    requires i <= |s.cands| && s.nbins + s.nints <= s.nprio <= i
    ensures |r.cands| == |s.cands| && r.nbins + r.nints <= r.nprio <= |r.cands|
    decreases |s.cands| - i
  {
    if i == |s.cands| then s else SortFrom(SortAt(s, i), i + 1)
  }

  /** A step of the resort loop extends the sorted prefix by one slot and keeps
      the content. */
  lemma SortAtSound(s: PseudoStore, i: nat)
    requires SortReady(s, i) && i < |s.cands|
    ensures SortReady(SortAt(s, i), i + 1) && Contents(SortAt(s, i)) == Contents(s)
  {
    if s.cands[i].priority >= s.maxprio {
      SortStep(s, i);
    } else {
      SortSkip(s, i);
    }
  }

  /** An entry below the running maximum stays behind the tiers. */
  lemma SortSkip(s: PseudoStore, i: nat)
    requires SortReady(s, i) && i < |s.cands| && s.cands[i].priority < s.maxprio
    ensures SortReady(s, i + 1)
  {
  }

  /** The resort loop, run from a sorted prefix, sorts the whole store without
      changing its content. */
  lemma {:induction false} SortFromSound(s: PseudoStore, i: nat)
    requires SortReady(s, i)
    ensures ValidPseudo(SortFrom(s, i))
    ensures Contents(SortFrom(s, i)) == Contents(s)
    decreases |s.cands| - i
  {
    if i < |s.cands| {
      var s' := SortAt(s, i);
      SortAtSound(s, i);
      SortFromSound(s', i + 1);
      SortFromUnfold(s, i);
    } else {
      SortReadyValid(s);
    }
  }

  /** One unrolling of the resort loop. */
  lemma SortFromUnfold(s: PseudoStore, i: nat)
    requires i < |s.cands| && s.nbins + s.nints <= s.nprio <= i
    ensures SortFrom(s, i) == SortFrom(SortAt(s, i), i + 1)
  {
  }

  /** A store sorted to its end is valid. */
  lemma SortReadyValid(s: PseudoStore)
    requires SortReady(s, |s.cands|)
    ensures ValidPseudo(s)
  {
  }

  /** branchcandSortPseudoCands: called once the maximal-priority tier is empty;
      recomputes the maximal priority and rebuilds the tiers. */
  function SortPseudoCands(s: PseudoStore): (r: PseudoStore)
    requires s.nprio == 0 && s.nbins == 0 && s.nints == 0
    ensures |r.cands| == |s.cands| && r.nbins + r.nints <= r.nprio <= |r.cands|
  {
    SortFrom(s.(maxprio := IntMin), 0)
  }

  /** Resorting an emptied tier restores the invariant and keeps the content. */
  lemma SortPseudoCandsSound(s: PseudoStore)
    requires s.nprio == 0 && s.nbins == 0 && s.nints == 0
    requires Pointers(s.cands, s.index)
    requires AllDiscrete(s.cands)
    ensures ValidPseudo(SortPseudoCands(s))
    ensures Contents(SortPseudoCands(s)) == Contents(s)
  {
    SortFromSound(s.(maxprio := IntMin), 0);
  }

  // ---------------------------------------------------------------------------
  // Queries

  /** SCIPbranchcandGetPseudoCands: the number of maximal-priority candidates it
      reports; with the preferbinary setting and some binary among them, only
      the binaries. */
  function NPrioReported(s: PseudoStore, preferbinary: bool): int {
    if preferbinary && s.nbins > 0 then s.nbins else s.nprio
  }

  /** SCIPbranchcandGetNPrioPseudoImpls. */
  function NPrioPseudoImpls(s: PseudoStore): int {
    s.nprio - s.nbins - s.nints
  }

  /** The reported prefix is exactly the set of slots holding a candidate of
      maximal priority (a binary one, under preferbinary with binaries present),
      and no candidate has a higher priority. */
  lemma NPrioReportedMeaning(s: PseudoStore, preferbinary: bool)
    requires ValidPseudo(s)
    ensures var n := NPrioReported(s, preferbinary);
      && 0 <= n <= |s.cands| && (|s.cands| > 0 ==> n > 0)
      && (forall i :: 0 <= i < |s.cands| ==> s.cands[i].priority <= s.maxprio)
      && (forall i :: 0 <= i < |s.cands| ==>
            (i < n <==> s.cands[i].priority == s.maxprio
                        && (preferbinary && s.nbins > 0 ==> s.cands[i].vartype == Binary)))
  {
  }

  /** The implicit-integer count is the number of maximal-priority implicit
      integers, and they sit right behind the binaries and integers. */
  lemma NPrioPseudoImplsMeaning(s: PseudoStore)
    requires ValidPseudo(s)
    ensures NPrioPseudoImpls(s) >= 0
    ensures forall i :: 0 <= i < |s.cands| ==>
      ((s.nbins + s.nints <= i < s.nbins + s.nints + NPrioPseudoImpls(s))
       <==> (s.cands[i].vartype == ImplInt && s.cands[i].priority == s.maxprio))
  {
  }
}

=== FILE: pseudoupdate.dfy ===
/** Removal of pseudo candidates and the bound-change hook that keeps the store
    equal to the set of unfixed discrete variables. */
module PseudoUpdate {
  import opened Vars
  import opened PseudoCands

  /** The shape the C code asserts on entry to a removal: the tier counts are
      consistent and every back-pointer lies inside the array (branch.c:575). */
  ghost predicate Shaped(s: PseudoStore) {
    && s.nbins + s.nints <= s.nprio <= |s.cands|
    && (forall id :: id in s.index ==> s.index[id] < |s.cands|)
  }

  lemma ValidShaped(s: PseudoStore)
    requires ValidPseudo(s)
    ensures Shaped(s)
  {
  }

  /** branchcandRemovePseudoCand: the removed variable's slot becomes the free
      slot; the last binary, the last integer and the last maximal-priority
      candidate successively fill it, as far as the slot lies in their tier, the
      last array entry fills the final free slot, and an emptied
      maximal-priority tier is rebuilt by a full sort. */
  function RemovePseudoCand(s: PseudoStore, vid: nat): (r: PseudoStore)
    requires Shaped(s) && vid in s.index
    ensures |r.cands| == |s.cands| - 1
    ensures r.nbins + r.nints <= r.nprio <= |r.cands|
  {
    ResortIfEmpty(Shift(s, vid, s.index[vid], 3))
  }

  /** The end of branchcandRemovePseudoCand: an emptied maximal-priority tier is
      rebuilt by a full sort. */
  function ResortIfEmpty(t: PseudoStore): (r: PseudoStore)
    requires t.nbins + t.nints <= t.nprio <= |t.cands|
    ensures |r.cands| == |t.cands| && r.nbins + r.nints <= r.nprio <= |r.cands|
  {
    if t.nprio == 0 then SortPseudoCands(t) else t
  }

  /** The tiers the free slot `f` still has to pass, from the front: 3 means
      binaries, integers and the maximal-priority tier; 2 integers and that
      tier; 1 that tier alone; 0 none, only the array's end is left. */
  ghost predicate ShiftReady(s: PseudoStore, f: nat, tiers: nat) {
    && f < |s.cands| && s.nbins + s.nints <= s.nprio <= |s.cands| && tiers <= 3
    && (tiers <= 2 ==> s.nbins <= f)
    && (tiers <= 1 ==> s.nbins + s.nints <= f)
    && (tiers == 0 ==> s.nprio <= f)
  }

  /** The slot the free slot `f` moves to in the pass over the front tier of
      `tiers`: the tier's last slot if `f` lies in the tier, else `f` itself. */
  function PassEnd(s: PseudoStore, f: nat, tiers: nat): (t: nat)
    requires ShiftReady(s, f, tiers) && tiers > 0
    ensures f <= t && ShiftReady(Pass(s, f, tiers), t, tiers - 1)
  {
    if tiers == 3 && f < s.nbins then s.nbins - 1
    else if tiers == 2 && f < s.nbins + s.nints then s.nbins + s.nints - 1
    else if tiers == 1 && f < s.nprio then s.nprio - 1
    else f
  }

  /** One pass of the removal loop: if the free slot `f` lies in the front tier
      of `tiers`, the tier's last member fills it and the tier shrinks by one
      (a binary tier hands its last slot to the integer tier). */
  function Pass(s: PseudoStore, f: nat, tiers: nat): (r: PseudoStore)
    requires ShiftReady(s, f, tiers) && tiers > 0
    ensures |r.cands| == |s.cands| && r.maxprio == s.maxprio
  {
    var m := MoveHole(s, f, if tiers == 3 && f < s.nbins then s.nbins - 1
      else if tiers == 2 && f < s.nbins + s.nints then s.nbins + s.nints - 1
      else if tiers == 1 && f < s.nprio then s.nprio - 1
      else f);
    if tiers == 3 && f < s.nbins then m.(nbins := s.nbins - 1, nints := s.nints + 1)
    else if tiers == 2 && f < s.nbins + s.nints then m.(nints := s.nints - 1)
    else if tiers == 1 && f < s.nprio then m.(nprio := s.nprio - 1)
    else m
  }

  /** The removal loop: a pass for each remaining tier, then the last entry
      fills the free slot and the array and the back-pointers drop the removed
      variable. */
  function Shift(s: PseudoStore, vid: nat, f: nat, tiers: nat): (r: PseudoStore)
    requires ShiftReady(s, f, tiers)
    ensures |r.cands| == |s.cands| - 1 && r.maxprio == s.maxprio
    ensures r.nbins + r.nints <= r.nprio <= |r.cands|
    decreases tiers
  {
    if tiers > 0 then
      Shift(Pass(s, f, tiers), vid, PassEnd(s, f, tiers), tiers - 1)
    else
      var last := |s.cands| - 1;
      var m := MoveHole(s, f, last);
      m.(cands := m.cands[..last], index := m.index - {vid})
  }

  /** SCIPbranchcandRemoveVar: removes the variable if it is a candidate. */
  function RemoveVar(s: PseudoStore, vid: nat): (r: PseudoStore)
    requires Shaped(s)
    ensures r.nbins + r.nints <= r.nprio <= |r.cands|
  {
    if CandIndex(s, vid) >= 0 then RemovePseudoCand(s, vid) else s
  }

  /** SCIPbranchcandUpdateVar: after a bound or status change of `v`, makes it a
      candidate exactly when it is an unfixed discrete loose or column variable;
      a new candidate is appended and inserted at the end of the array. */
  function UpdateVar(s: PseudoStore, v: Var): (r: PseudoStore)
    requires Shaped(s)
    ensures r.nbins + r.nints <= r.nprio <= |r.cands|
  {
    if ShouldBePseudoCand(v) then
      if CandIndex(s, v.id) == -1 then
        InsertPseudoCand(s.(cands := s.cands + [v]), v, |s.cands|)
      else s
    else
      RemoveVar(s, v.id)
  }

  // ---------------------------------------------------------------------------
  // Soundness of removal

  /** The C code's tier steps for removal, on the array alone. */
  lemma RemTierBins(c: seq<Var>, nb: nat, ni: nat, np: nat, mp: int, upto: nat, h: nat)
    requires TiersBut(c, nb, ni, np, mp, upto, h) && h < nb
    ensures TiersBut(Swap(c, h, nb - 1), nb - 1, ni + 1, np, mp, upto, nb - 1)
  {
    var c' := Swap(c, h, nb - 1);
    forall i | 0 <= i < nb - 1 ensures c'[i].vartype == Binary {
      if i == h { assert c'[i] == c[nb - 1]; } else { assert c'[i] == c[i]; }
    }
    forall i | 0 <= i < np && i != nb - 1 ensures c'[i].priority == mp {
      if i == h { assert c'[i] == c[nb - 1]; } else { assert c'[i] == c[i]; }
    }
  }

  lemma RemTierInts(c: seq<Var>, nb: nat, ni: nat, np: nat, mp: int, upto: nat, h: nat)
    requires TiersBut(c, nb, ni, np, mp, upto, h) && nb <= h < nb + ni
    ensures TiersBut(Swap(c, h, nb + ni - 1), nb, ni - 1, np, mp, upto, nb + ni - 1)
  {
    var c' := Swap(c, h, nb + ni - 1);
    forall i | nb <= i < nb + ni - 1 ensures c'[i].vartype == Integer {
      if i == h { assert c'[i] == c[nb + ni - 1]; } else { assert c'[i] == c[i]; }
    }
    forall i | 0 <= i < np && i != nb + ni - 1 ensures c'[i].priority == mp {
      if i == h { assert c'[i] == c[nb + ni - 1]; } else { assert c'[i] == c[i]; }
    }
  }

  lemma RemTierPrio(c: seq<Var>, nb: nat, ni: nat, np: nat, mp: int, upto: nat, h: nat)
    requires TiersBut(c, nb, ni, np, mp, upto, h) && nb + ni <= h < np
    ensures TiersBut(Swap(c, h, np - 1), nb, ni, np - 1, mp, upto, np - 1)
  {
    var c' := Swap(c, h, np - 1);
    forall i | nb + ni <= i < np - 1 ensures c'[i].vartype == ImplInt && c'[i].priority == mp {
      if i == h { assert c'[i] == c[np - 1]; } else { assert c'[i] == c[i]; }
    }
  }

  lemma RemTierLast(c: seq<Var>, nb: nat, ni: nat, np: nat, mp: int, h: nat)
    requires TiersBut(c, nb, ni, np, mp, |c|, h) && np <= h < |c|
    ensures TiersBut(Swap(c, h, |c| - 1)[..|c| - 1], nb, ni, np, mp, |c| - 1, -1)
  {
    var c' := Swap(c, h, |c| - 1);
    forall i | np <= i < |c| - 1 ensures c'[i].priority < mp {
      if i == h { assert c'[i] == c[|c| - 1]; } else { assert c'[i] == c[i]; }
    }
  }

  /** Dropping the free last slot, which holds `vid`, and its back-pointer leaves
      correct back-pointers and the content without `vid`. */
  lemma TruncateHole(c: seq<Var>, idx: map<nat, nat>, vid: nat)
    requires |c| > 0 && PointersBut(c, idx, |c| - 1) && c[|c| - 1].id == vid
    ensures Pointers(c[..|c| - 1], idx - {vid})
    ensures Stored(c[..|c| - 1], idx - {vid}) == StoredBut(c, idx, vid)
  {
    TruncatePointers(c, idx, vid);
    var c', idx' := c[..|c| - 1], idx - {vid};
    assert Stored(c', idx').Keys == StoredBut(c, idx, vid).Keys;
  }

  lemma TruncatePointers(c: seq<Var>, idx: map<nat, nat>, vid: nat)
    requires |c| > 0 && PointersBut(c, idx, |c| - 1) && c[|c| - 1].id == vid
    ensures Pointers(c[..|c| - 1], idx - {vid})
  {
  }

  lemma StoredMinus(c: seq<Var>, idx: map<nat, nat>, vid: nat)
    ensures Stored(c, idx) - {vid} == StoredBut(c, idx, vid)
  {
    assert (Stored(c, idx) - {vid}).Keys == StoredBut(c, idx, vid).Keys;
  }

  /** A pass keeps the tier layout, with the free slot at its new place, and
      the array discrete. */
  lemma PassTiers(s: PseudoStore, f: nat, tiers: nat)
    requires ShiftReady(s, f, tiers) && tiers > 0 && AllDiscrete(s.cands)
    requires TiersBut(s.cands, s.nbins, s.nints, s.nprio, s.maxprio, |s.cands|, f)
    ensures var r := Pass(s, f, tiers);
      && TiersBut(r.cands, r.nbins, r.nints, r.nprio, r.maxprio, |r.cands|, PassEnd(s, f, tiers))
      && AllDiscrete(r.cands)
  {
    PassUnfold(s, f, tiers);
    SwapDiscrete(s.cands, f, PassEnd(s, f, tiers));
    if tiers == 3 && f < s.nbins {
      PassTiersBins(s, f);
    } else if tiers == 2 && f < s.nbins + s.nints {
      PassTiersInts(s, f);
    } else if tiers == 1 && f < s.nprio {
      PassTiersPrio(s, f);
    } else {
      assert Swap(s.cands, f, f) == s.cands;
    }
  }

  lemma PassTiersBins(s: PseudoStore, f: nat)
    requires ShiftReady(s, f, 3) && f < s.nbins
    requires TiersBut(s.cands, s.nbins, s.nints, s.nprio, s.maxprio, |s.cands|, f)
    ensures var r := Pass(s, f, 3);
      TiersBut(r.cands, r.nbins, r.nints, r.nprio, r.maxprio, |r.cands|, s.nbins - 1)
  {
    PassUnfold(s, f, 3);
    RemTierBins(s.cands, s.nbins, s.nints, s.nprio, s.maxprio, |s.cands|, f);
  }

  lemma PassTiersInts(s: PseudoStore, f: nat)
    requires ShiftReady(s, f, 2) && s.nbins <= f < s.nbins + s.nints
    requires TiersBut(s.cands, s.nbins, s.nints, s.nprio, s.maxprio, |s.cands|, f)
    ensures var r := Pass(s, f, 2);
      TiersBut(r.cands, r.nbins, r.nints, r.nprio, r.maxprio, |r.cands|, s.nbins + s.nints - 1)
  {
    PassUnfold(s, f, 2);
    RemTierInts(s.cands, s.nbins, s.nints, s.nprio, s.maxprio, |s.cands|, f);
  }

  lemma PassTiersPrio(s: PseudoStore, f: nat)
    requires ShiftReady(s, f, 1) && s.nbins + s.nints <= f < s.nprio
    requires TiersBut(s.cands, s.nbins, s.nints, s.nprio, s.maxprio, |s.cands|, f)
    ensures var r := Pass(s, f, 1);
      TiersBut(r.cands, r.nbins, r.nints, r.nprio, r.maxprio, |r.cands|, s.nprio - 1)
  {
    PassUnfold(s, f, 1);
    RemTierPrio(s.cands, s.nbins, s.nints, s.nprio, s.maxprio, |s.cands|, f);
  }

  /** What a pass does to the array and the counts, case by case. */
  lemma PassUnfold(s: PseudoStore, f: nat, tiers: nat)
    requires ShiftReady(s, f, tiers) && tiers > 0
    ensures var r, t := Pass(s, f, tiers), PassEnd(s, f, tiers);
      && r.cands == Swap(s.cands, f, t) && r.maxprio == s.maxprio
      && (if tiers == 3 && f < s.nbins then r.nbins == s.nbins - 1 && r.nints == s.nints + 1 && r.nprio == s.nprio
          else if tiers == 2 && f < s.nbins + s.nints then r.nbins == s.nbins && r.nints == s.nints - 1 && r.nprio == s.nprio
          else if tiers == 1 && f < s.nprio then r.nbins == s.nbins && r.nints == s.nints && r.nprio == s.nprio - 1
          else r.nbins == s.nbins && r.nints == s.nints && r.nprio == s.nprio)
  {
  }

  /** A pass keeps every back-pointer correct and the content unchanged; the
      removed variable moves along with the free slot. */
  lemma PassPointers(s: PseudoStore, f: nat, tiers: nat)
    requires ShiftReady(s, f, tiers) && tiers > 0 && PointersBut(s.cands, s.index, f)
    ensures var r, t := Pass(s, f, tiers), PassEnd(s, f, tiers);
      && PointersBut(r.cands, r.index, t) && r.cands[t] == s.cands[f]
      && StoredBut(r.cands, r.index, s.cands[f].id) == StoredBut(s.cands, s.index, s.cands[f].id)
  {
    var t := PassEnd(s, f, tiers);
    var m := MoveHole(s, f, t);
    assert Pass(s, f, tiers).cands == m.cands && Pass(s, f, tiers).index == m.index;
    MoveHoleKeeps(s, f, t);
  }

  /** The removal loop leaves the tier layout intact and the array discrete. */
  lemma {:induction false} ShiftTiers(m: PseudoStore, vid: nat, h: nat, tiers: nat)
    requires ShiftReady(m, h, tiers) && AllDiscrete(m.cands)
    requires TiersBut(m.cands, m.nbins, m.nints, m.nprio, m.maxprio, |m.cands|, h)
    ensures var t := Shift(m, vid, h, tiers);
      TiersBut(t.cands, t.nbins, t.nints, t.nprio, t.maxprio, |t.cands|, -1) && AllDiscrete(t.cands)
    decreases tiers
  {
    if tiers > 0 {
      var p, t := Pass(m, h, tiers), PassEnd(m, h, tiers);
      PassTiers(m, h, tiers);
      ShiftTiers(p, vid, t, tiers - 1);
      assert Shift(m, vid, h, tiers) == Shift(p, vid, t, tiers - 1);
    } else {
      ShiftLastTiers(m, vid, h);
    }
  }

  /** The end of the removal loop: moving the free slot to the back and
      dropping it leaves the tiers intact. */
  lemma ShiftLastTiers(m: PseudoStore, vid: nat, h: nat)
    requires ShiftReady(m, h, 0) && AllDiscrete(m.cands)
    requires TiersBut(m.cands, m.nbins, m.nints, m.nprio, m.maxprio, |m.cands|, h)
    ensures var t := Shift(m, vid, h, 0);
      TiersBut(t.cands, t.nbins, t.nints, t.nprio, t.maxprio, |t.cands|, -1) && AllDiscrete(t.cands)
  {
    var c := m.cands;
    var c' := Swap(c, h, |c| - 1);
    assert Shift(m, vid, h, 0).cands == c'[..|c| - 1];
    RemTierLast(c, m.nbins, m.nints, m.nprio, m.maxprio, h);
    SwapDiscrete(c, h, |c| - 1);
  }

  /** The removal loop keeps every back-pointer correct and the content
      unchanged, apart from the removed variable, which rides in the free slot
      and is dropped at the end. */
  lemma {:induction false} ShiftPointers(m: PseudoStore, vid: nat, h: nat, tiers: nat)
    requires ShiftReady(m, h, tiers) && PointersBut(m.cands, m.index, h) && m.cands[h].id == vid
    ensures var t := Shift(m, vid, h, tiers);
      Pointers(t.cands, t.index) && Stored(t.cands, t.index) == StoredBut(m.cands, m.index, vid)
    decreases tiers
  {
    if tiers > 0 {
      var p, t := Pass(m, h, tiers), PassEnd(m, h, tiers);
      PassPointers(m, h, tiers);
      ShiftPointers(p, vid, t, tiers - 1);
      assert Shift(m, vid, h, tiers) == Shift(p, vid, t, tiers - 1);
    } else {
      ShiftLastPointers(m, vid, h);
    }
  }

  /** The end of the removal loop: the last entry fills the free slot, which
      then leaves the array with the removed variable. */
  lemma ShiftLastPointers(m: PseudoStore, vid: nat, h: nat)
    requires ShiftReady(m, h, 0) && PointersBut(m.cands, m.index, h) && m.cands[h].id == vid
    ensures var t := Shift(m, vid, h, 0);
      Pointers(t.cands, t.index) && Stored(t.cands, t.index) == StoredBut(m.cands, m.index, vid)
  {
    var last := |m.cands| - 1;
    var m1 := MoveHole(m, h, last);
    MoveHoleKeeps(m, h, last);
    TruncateHole(m1.cands, m1.index, vid);
    ShiftLastUnfold(m, vid, h);
  }

  lemma ShiftLastUnfold(m: PseudoStore, vid: nat, h: nat)
    requires ShiftReady(m, h, 0)
    ensures var m1 := MoveHole(m, h, |m.cands| - 1);
      && Shift(m, vid, h, 0).cands == m1.cands[..|m.cands| - 1]
      && Shift(m, vid, h, 0).index == m1.index - {vid}
  {
  }

  /** The removal loop, started at the removed variable's own slot, leaves a
      store that is valid up to the emptied-tier case and lacks just `vid`. */
  lemma ShiftSound(s: PseudoStore, vid: nat)
    requires ValidPseudo(s) && vid in s.index
    ensures var t := Shift(s, vid, s.index[vid], 3);
      && TiersBut(t.cands, t.nbins, t.nints, t.nprio, t.maxprio, |t.cands|, -1)
      && AllDiscrete(t.cands) && Pointers(t.cands, t.index)
      && Stored(t.cands, t.index) == Contents(s) - {vid}
  {
    var f := s.index[vid];
    PointersAllBut(s.cands, s.index, f);
    ShiftTiers(s, vid, f, 3);
    ShiftPointers(s, vid, f, 3);
    StoredMinus(s.cands, s.index, vid);
  }

  /** A store in tiers with correct back-pointers is valid once an emptied
      tier has been rebuilt, with the same content. */
  lemma ResortSound(t: PseudoStore)
    requires TiersBut(t.cands, t.nbins, t.nints, t.nprio, t.maxprio, |t.cands|, -1)
    requires AllDiscrete(t.cands) && Pointers(t.cands, t.index)
    ensures ValidPseudo(ResortIfEmpty(t)) && Contents(ResortIfEmpty(t)) == Contents(t)
  {
    if t.nprio == 0 {
      SortPseudoCandsSound(t);
    }
  }

  /** Removal keeps the store valid and removes exactly the variable `vid`. */
  lemma RemovePseudoCandSound(s: PseudoStore, vid: nat)
    requires ValidPseudo(s) && vid in s.index
    ensures ValidPseudo(RemovePseudoCand(s, vid))
    ensures Contents(RemovePseudoCand(s, vid)) == Contents(s) - {vid}
  {
    ShiftSound(s, vid);
    ResortSound(Shift(s, vid, s.index[vid], 3));
  }

  // ---------------------------------------------------------------------------
  // The bound-change hook

  /** Appending a non-member to a valid store puts it in the free slot at the
      end, ready for insertion, without changing the content. */
  lemma AppendReady(s: PseudoStore, v: Var)
    requires ValidPseudo(s) && v.id !in s.index && Discrete(v)
    ensures InsertReady(s.(cands := s.cands + [v]), v, |s.cands|)
    ensures StoredBut(s.cands + [v], s.index, v.id) == Contents(s)
  {
    AppendTiers(s, v);
    AppendPointers(s, v);
    AppendStored(s.cands, s.index, v);
  }

  lemma AppendStored(c: seq<Var>, idx: map<nat, nat>, v: Var)
    requires v.id !in idx && forall id :: id in idx ==> idx[id] < |c|
    ensures StoredBut(c + [v], idx, v.id) == Stored(c, idx)
  {
    assert forall i :: 0 <= i < |c| ==> (c + [v])[i] == c[i];
    assert StoredBut(c + [v], idx, v.id).Keys == Stored(c, idx).Keys;
  }

  lemma AppendTiers(s: PseudoStore, v: Var)
    requires ValidPseudo(s) && Discrete(v)
    ensures TiersBut(s.cands + [v], s.nbins, s.nints, s.nprio, s.maxprio, |s.cands|, -1)
    ensures AllDiscrete(s.cands + [v])
  {
    var c, c' := s.cands, s.cands + [v];
    assert forall i :: 0 <= i < |c| ==> c'[i] == c[i];
  }

  lemma AppendPointers(s: PseudoStore, v: Var)
    requires ValidPseudo(s) && v.id !in s.index
    ensures PointersBut(s.cands + [v], s.index, |s.cands|)
  {
    var c, c' := s.cands, s.cands + [v];
    assert forall i :: 0 <= i < |c| ==> c'[i] == c[i];
  }

  /** A new candidate is inserted: the store stays valid and gains `v`. */
  lemma UpdateInsertSound(s: PseudoStore, v: Var)
    requires ValidPseudo(s) && ShouldBePseudoCand(v) && v.id !in s.index
    ensures ValidPseudo(UpdateVar(s, v))
    ensures Contents(UpdateVar(s, v)) == Contents(s)[v.id := v]
  {
    var s' := s.(cands := s.cands + [v]);
    AppendReady(s, v);
    InsertPseudoCandSound(s', v, |s.cands|);
  }

  /** SCIPbranchcandRemoveVar keeps the store valid and drops `vid`, which is a
      no-op for a non-member. */
  lemma RemoveVarSound(s: PseudoStore, vid: nat)
    requires ValidPseudo(s)
    ensures ValidPseudo(RemoveVar(s, vid))
    ensures Contents(RemoveVar(s, vid)) == Contents(s) - {vid}
    ensures vid !in s.index ==> RemoveVar(s, vid) == s
  {
    if vid in s.index {
      RemovePseudoCandSound(s, vid);
    } else {
      StoredOfPointers(s.cands, s.index, vid);
      assert Contents(s) - {vid} == Contents(s);
    }
  }

  /** After the hook, `v` is a member exactly when it should be a pseudo
      candidate, the store is valid, and no other member has changed: a new
      member is added as given, an existing one is left as it was. */
  lemma UpdateVarSound(s: PseudoStore, v: Var)
    requires ValidPseudo(s)
    ensures ValidPseudo(UpdateVar(s, v))
    ensures v.id in Contents(UpdateVar(s, v)) <==> ShouldBePseudoCand(v)
    ensures ShouldBePseudoCand(v) && v.id !in Contents(s) ==>
      Contents(UpdateVar(s, v)) == Contents(s)[v.id := v]
    ensures ShouldBePseudoCand(v) && v.id in Contents(s) ==> UpdateVar(s, v) == s
    ensures !ShouldBePseudoCand(v) ==> Contents(UpdateVar(s, v)) == Contents(s) - {v.id}
  {
    StoredOfPointers(s.cands, s.index, v.id);
    if ShouldBePseudoCand(v) {
      if v.id !in s.index {
        UpdateInsertSound(s, v);
      }
    } else {
      RemoveVarSound(s, v.id);
    }
  }

  /** Running the hook twice for the same variable changes nothing more. */
  lemma UpdateVarIdempotent(s: PseudoStore, v: Var)
    requires ValidPseudo(s)
    ensures var r := UpdateVar(s, v); Shaped(r) && UpdateVar(r, v) == r
  {
    var r := UpdateVar(s, v);
    UpdateVarSound(s, v);
    StoredOfPointers(r.cands, r.index, v.id);
    ValidShaped(r);
  }

  /** The hook changes the membership of `v` alone. */
  lemma UpdateVarMembers(s: PseudoStore, v: Var)
    requires ValidPseudo(s)
    ensures var r := UpdateVar(s, v);
      forall id :: id in r.index <==> (if id == v.id then ShouldBePseudoCand(v) else id in s.index)
  {
    var r := UpdateVar(s, v);
    UpdateVarSound(s, v);
    StoredOfPointers(s.cands, s.index, v.id);
    StoredOfPointers(r.cands, r.index, v.id);
  }

  /** The debug check of SCIPbranchcandGetPseudoCands (branch.c:337-373) on the
      member ids: a problem variable is a member exactly when it should be a
      pseudo candidate, and every member is a problem variable. */
  ghost predicate Tracks(members: set<nat>, vars: seq<Var>) {
    && (forall k :: 0 <= k < |vars| ==> (vars[k].id in members <==> ShouldBePseudoCand(vars[k])))
    && (forall id :: id in members ==> exists k :: 0 <= k < |vars| && vars[k].id == id)
  }

  /** Distinct problem variables have distinct ids. */
  ghost predicate DistinctIds(vars: seq<Var>) {
    forall a, b :: 0 <= a < b < |vars| ==> vars[a].id != vars[b].id
  }

  /** Changing the membership of `v` alone, as it now should be, keeps the
      members in step with the changed variables. */
  lemma TracksStep(members: set<nat>, members': set<nat>, vars: seq<Var>, j: nat, v: Var)
    requires Tracks(members, vars) && DistinctIds(vars) && j < |vars| && vars[j].id == v.id
    requires forall id :: id in members' <==> (if id == v.id then ShouldBePseudoCand(v) else id in members)
    ensures Tracks(members', vars[j := v])
  {
    var vars' := vars[j := v];
    forall k | 0 <= k < |vars'|
      ensures vars'[k].id in members' <==> ShouldBePseudoCand(vars'[k])
    {
      if k != j {
        assert vars'[k] == vars[k] && vars[k].id != v.id;
      }
    }
    forall id | id in members'
      ensures exists k :: 0 <= k < |vars'| && vars'[k].id == id
    {
      if id == v.id {
        assert vars'[j].id == id;
      } else {
        var k :| 0 <= k < |vars| && vars[k].id == id;
        assert vars'[k].id == id;
      }
    }
  }

  /** Calling the hook after every change of a problem variable keeps the store
      in step with the variables. */
  lemma UpdateVarTracks(s: PseudoStore, vars: seq<Var>, j: nat, v: Var)
    requires ValidPseudo(s) && Tracks(s.index.Keys, vars) && DistinctIds(vars)
    requires j < |vars| && vars[j].id == v.id
    ensures Tracks(UpdateVar(s, v).index.Keys, vars[j := v])
  {
    UpdateVarMembers(s, v);
    TracksStep(s.index.Keys, UpdateVar(s, v).index.Keys, vars, j, v);
  }
}

=== FILE: rules.dfy ===
/** Branching rules: their activation filter, the validation of the result a
    rule's callback returns, the statistics a call updates, initialisation, and
    the priority order in which the dispatcher tries them. */
module Rules {
  import opened Wrappers
  import opened Vars

  /** The result codes a branching callback can report; every other code of the
      solver is `OtherResult`. */
  datatype ResultCode =
    | DidNotRun
    | Cutoff
    | ConsAdded
    | ReducedDom
    | Separated
    | Branched
    | OtherResult(code: int)

  /** The error return codes: the two this part of the solver raises itself,
      and any other code a rule's callback returns. */
  datatype RetCode = InvalidResult | InvalidCall | CallbackError(code: int)

  /** Which solution the rule is asked to branch on. */
  datatype Mode = LPMode | PseudoMode

  /** What a callback does when it is called at the focus node: the result it
      reports, and the changes the solver observes across the call (domain
      changes, cuts stored, active constraints, children created). */
  datatype Response = Response(
    result: ResultCode,
    ndomchgs: int,
    ncuts: int,
    nconss: int,
    nchildren: nat)

  /** The statistics a branching rule keeps. */
  datatype Stats = Stats(
    nlpcalls: nat,
    npseudocalls: nat,
    ncutoffs: nat,
    ncutsfound: int,
    nconssfound: int,
    ndomredsfound: int,
    nchildren: nat)

  const ZeroStats: Stats := Stats(0, 0, 0, 0, 0, 0, 0)

  /** A branching rule. A callback is `None` when the rule does not implement
      it, and otherwise what it does at the current focus node: a response, or
      an error code that the solver passes on. */
  datatype Rule = Rule(
    name: string,
    priority: Int32,
    maxdepth: int,
    maxbounddist: real,
    execlp: Option<Result<Response, RetCode>>,
    execps: Option<Result<Response, RetCode>>,
    stats: Stats,
    initialized: bool)

  /** The focus node as the activation filter sees it. */
  datatype Node = Node(depth: nat, loclb: real, glblb: real, cutoff: real)

  /** SCIPbranchruleCreate: all counters zero, not initialised. */
  function CreateRule(name: string, priority: Int32, maxdepth: int, maxbounddist: real,
                      execlp: Option<Result<Response, RetCode>>,
                      execps: Option<Result<Response, RetCode>>): (r: Rule)
    ensures r.stats == ZeroStats && !r.initialized
    ensures r.priority == priority && r.maxdepth == maxdepth && r.maxbounddist == maxbounddist
    ensures r.execlp == execlp && r.execps == execps
  {
    Rule(name, priority, maxdepth, maxbounddist, execlp, execps, ZeroStats, false)
  }

  function Callback(r: Rule, mode: Mode): Option<Result<Response, RetCode>> {
    match mode
    case LPMode => r.execlp
    case PseudoMode => r.execps
  }

  /** The activation filter: the rule has a callback for the mode, the depth
      limit (-1 for none) admits the node, and the node's lower bound is close
      enough to the global one relative to the cutoff bound. */
  predicate Active(r: Rule, mode: Mode, nd: Node) {
    && Callback(r, mode).Some?
    && (r.maxdepth == -1 || r.maxdepth >= nd.depth)
    && nd.loclb - nd.glblb <= r.maxbounddist * (nd.cutoff - nd.glblb)
  }

  /** The result codes a branching call may report in the mode. */
  predicate ValidResult(mode: Mode, res: ResultCode) {
    || res == Cutoff || res == ConsAdded || res == ReducedDom
    || res == Branched || res == DidNotRun
    || (mode == LPMode && res == Separated)
  }

  /** The statistics after a validated call with response `resp`. */
  function Record(st: Stats, mode: Mode, resp: Response): Stats {
    var called := if resp.result != DidNotRun then 1 else 0;
    var st1 := st.(
      nlpcalls := st.nlpcalls + (if mode == LPMode then called else 0),
      npseudocalls := st.npseudocalls + (if mode == PseudoMode then called else 0),
      ncutoffs := st.ncutoffs + (if resp.result == Cutoff then 1 else 0));
    if resp.result == Branched then
      st1.(nchildren := st1.nchildren + resp.nchildren)
    else
      st1.(ndomredsfound := st1.ndomredsfound + resp.ndomchgs,
           ncutsfound := st1.ncutsfound + (if mode == LPMode then resp.ncuts else 0),
           nconssfound := st1.nconssfound + resp.nconss)
  }

  /** SCIPbranchruleExecLPSol and SCIPbranchruleExecPseudoSol: call the rule if
      it is active, pass on the callback's own error, reject a result code the
      mode does not allow and a constraint added without permission, and
      record the call. */
  function ExecSol(r: Rule, mode: Mode, nd: Node, allowaddcons: bool): (out: Result<(Rule, ResultCode), RetCode>)
  {
    if !Active(r, mode, nd) then Success((r, DidNotRun))
    else
      var resp :- Callback(r, mode).value;
      if !ValidResult(mode, resp.result) then Failure(InvalidResult)
      else if resp.result == ConsAdded && !allowaddcons then Failure(InvalidResult)
      else Success((r.(stats := Record(r.stats, mode, resp)), resp.result))
  }

  /** SCIPbranchruleInit: fails on an initialised rule, otherwise zeroes all
      counters and marks the rule initialised (the rule's own initialisation
      callback is not part of this model). */
  function Init(r: Rule): (out: Result<Rule, RetCode>) {
    if r.initialized then Failure(InvalidCall)
    else Success(r.(stats := ZeroStats, initialized := true))
  }

  /** SCIPbranchruleExit: fails on a rule that is not initialised. */
  function Exit(r: Rule): (out: Result<Rule, RetCode>) {
    if !r.initialized then Failure(InvalidCall)
    else Success(r.(initialized := false))
  }

  /** The rules of a solver together with the flag that says whether they are
      known to be sorted by priority. */
  datatype RuleSet = RuleSet(rules: seq<Rule>, sorted: bool)

  /** SCIPbranchruleSetPriority: changes the priority of rule `i` and marks the
      rules unsorted. */
  function SetPriority(rs: RuleSet, i: nat, priority: Int32): (out: RuleSet)
    requires i < |rs.rules|
  {
    RuleSet(rs.rules[i := rs.rules[i].(priority := priority)], false)
  }

  // ---------------------------------------------------------------------------
  // Properties of a single call

  /** An inactive rule reports DIDNOTRUN and is left untouched; that happens
      exactly when the callback is missing, the depth limit excludes the node,
      or the node's bound is too far from the global one. */
  lemma ExecSolInactive(r: Rule, mode: Mode, nd: Node, allowaddcons: bool)
    ensures !Active(r, mode, nd) <==>
      || Callback(r, mode).None?
      || (r.maxdepth != -1 && r.maxdepth < nd.depth)
      || nd.loclb - nd.glblb > r.maxbounddist * (nd.cutoff - nd.glblb)
    ensures !Active(r, mode, nd) ==> ExecSol(r, mode, nd, allowaddcons) == Success((r, DidNotRun))
  {
  }

  /** An active call whose callback fails returns the callback's error code
      and leaves the rule's statistics alone. */
  lemma ExecSolCallbackError(r: Rule, mode: Mode, nd: Node, allowaddcons: bool)
    requires Active(r, mode, nd) && Callback(r, mode).value.Failure?
    ensures ExecSol(r, mode, nd, allowaddcons) == Failure(Callback(r, mode).value.error)
  {
  }

  /** An active call whose callback answers fails exactly on a result code the
      mode does not allow (SEPARATED only in LP mode) or on a constraint added
      without permission; otherwise the reported result is the callback's. */
  lemma ExecSolValidation(r: Rule, mode: Mode, nd: Node, allowaddcons: bool)
    requires Active(r, mode, nd) && Callback(r, mode).value.Success?
    ensures var res := Callback(r, mode).value.value.result;
      && (ExecSol(r, mode, nd, allowaddcons).Failure? <==>
            || (res == Separated && mode == PseudoMode)
            || res.OtherResult?
            || (res == ConsAdded && !allowaddcons))
      && (ExecSol(r, mode, nd, allowaddcons).Failure? ==>
            ExecSol(r, mode, nd, allowaddcons).error == InvalidResult)
      && (ExecSol(r, mode, nd, allowaddcons).Success? ==>
            ExecSol(r, mode, nd, allowaddcons).value.1 == res)
  {
  }

  /** The statistics of a successful call: the mode's call counter grows by one
      exactly when the result is not DIDNOTRUN, the other mode's never; the
      cutoff counter grows exactly on CUTOFF; a branching adds the children
      created and nothing else, any other result adds the domain changes, the
      cuts (in LP mode only) and the constraints observed, and no child. The
      rule itself changes in nothing but its statistics. */
  lemma ExecSolStats(r: Rule, mode: Mode, nd: Node, allowaddcons: bool)
    requires ExecSol(r, mode, nd, allowaddcons).Success?
    ensures var (r', res) := ExecSol(r, mode, nd, allowaddcons).value;
      var s, s' := r.stats, r'.stats;
      && r'.(stats := s) == r
      && (Active(r, mode, nd) ==> Callback(r, mode).value.Success?)
      && (mode == LPMode ==> s'.npseudocalls == s.npseudocalls
                              && (s'.nlpcalls == s.nlpcalls + 1 <==> res != DidNotRun)
                              && (s'.nlpcalls == s.nlpcalls <==> res == DidNotRun))
      && (mode == PseudoMode ==> s'.nlpcalls == s.nlpcalls && s'.ncutsfound == s.ncutsfound
                                  && (s'.npseudocalls == s.npseudocalls + 1 <==> res != DidNotRun)
                                  && (s'.npseudocalls == s.npseudocalls <==> res == DidNotRun))
      && (s'.ncutoffs == s.ncutoffs + 1 <==> res == Cutoff)
      && (s'.ncutoffs == s.ncutoffs <==> res != Cutoff)
      && (res == Branched ==>
            && s'.nchildren == s.nchildren + Callback(r, mode).value.value.nchildren
            && s'.ndomredsfound == s.ndomredsfound && s'.ncutsfound == s.ncutsfound
            && s'.nconssfound == s.nconssfound)
      && (res != Branched && Active(r, mode, nd) ==>
            && s'.nchildren == s.nchildren
            && s'.ndomredsfound == s.ndomredsfound + Callback(r, mode).value.value.ndomchgs
            && s'.nconssfound == s.nconssfound + Callback(r, mode).value.value.nconss
            && (mode == LPMode ==> s'.ncutsfound == s.ncutsfound + Callback(r, mode).value.value.ncuts))
  {
  }

  /** Initialisation fails exactly on an initialised rule; otherwise all
      counters are zero afterwards and only the counters and the flag change. */
  lemma InitSound(r: Rule)
    ensures Init(r).Failure? <==> r.initialized
    ensures Init(r).Failure? ==> Init(r).error == InvalidCall
    ensures Init(r).Success? ==>
      && Init(r).value.stats == ZeroStats
      && Init(r).value.initialized
      && Init(r).value.(stats := r.stats, initialized := false) == r
  {
  }

  /** Exit undoes initialisation except for the counters, and a rule cannot be
      initialised twice without an exit in between. */
  lemma InitExit(r: Rule)
    requires !r.initialized
    ensures Init(r).Success? && Exit(Init(r).value).Success?
    ensures Exit(Init(r).value).value == r.(stats := ZeroStats)
    ensures Init(Init(r).value).Failure?
  {
  }

  /** The life cycle of a freshly created rule: it can be initialised, after
      which its counters are zero; exiting it then gives back the created rule;
      it cannot be exited before initialisation; and in a mode it has no
      callback for, a call leaves it untouched and reports DIDNOTRUN. */
  lemma CreateLifecycle(name: string, priority: Int32, maxdepth: int, maxbounddist: real,
                        execlp: Option<Result<Response, RetCode>>,
                        execps: Option<Result<Response, RetCode>>,
                        mode: Mode, nd: Node, allowaddcons: bool)
    ensures var r := CreateRule(name, priority, maxdepth, maxbounddist, execlp, execps);
      && Init(r).Success? && Init(r).value.initialized && Init(r).value.stats == ZeroStats
      && Exit(Init(r).value) == Success(r)
      && Exit(r) == Failure(InvalidCall)
      && (Callback(r, mode).None? ==> ExecSol(r, mode, nd, allowaddcons) == Success((r, DidNotRun)))
  {
  }

  /** A priority change reaches exactly the named rule and clears the sorted
      flag. */
  lemma SetPrioritySound(rs: RuleSet, i: nat, priority: Int32)
    requires i < |rs.rules|
    ensures var rs' := SetPriority(rs, i, priority);
      && !rs'.sorted && |rs'.rules| == |rs.rules|
      && rs'.rules[i].priority == priority
      && rs'.rules[i].(priority := rs.rules[i].priority) == rs.rules[i]
      && (forall j :: 0 <= j < |rs.rules| && j != i ==> rs'.rules[j] == rs.rules[j])
  {
  }

  // ---------------------------------------------------------------------------
  // Priority order

  /** The solver's comparator as written: the difference of the two priorities
      in C `int` arithmetic, which wraps around outside the 32-bit range. A
      negative value puts `a` before `b`. */
  function CompAsWritten(a: Rule, b: Rule): Int32 {
    Wrap32(b.priority - a.priority)
  }

  /** The comparator as intended: the exact difference of the priorities. */
  function Comp(a: Rule, b: Rule): int {
    b.priority - a.priority
  }

  /** The as-written comparator puts a rule of priority INT_MIN before one of
      priority 1. */
  lemma CompAsWrittenReverses()
    ensures var a := CreateRule("a", 1, -1, 1.0, None, None);
      var b := CreateRule("b", IntMin, -1, 1.0, None, None);
      && a.priority > b.priority
      && CompAsWritten(a, b) > 0 && CompAsWritten(b, a) < 0
  {
    var a := CreateRule("a", 1, -1, 1.0, None, None);
    var b := CreateRule("b", IntMin, -1, 1.0, None, None);
    assert CompAsWritten(a, b) == IntMax;
    assert CompAsWritten(b, a) == IntMin + 1;
  }

  /** The intended comparator orders by descending priority: it is negative
      exactly when `a` has the higher priority, zero on equal priorities, and
      antisymmetric. */
  lemma CompOrdersByPriority(a: Rule, b: Rule)
    ensures Comp(a, b) < 0 <==> a.priority > b.priority
    ensures Comp(a, b) == 0 <==> a.priority == b.priority
    ensures Comp(a, b) == -Comp(b, a)
  {
  }

  /** Insertion of one rule into a list, before the first entry the comparator
      does not put before it, so that among equal priorities earlier rules
      stay first. */
  function InsertBy(cmp: (Rule, Rule) -> int, x: Rule, s: seq<Rule>): (r: seq<Rule>)
    ensures |r| == |s| + 1
  {
    if |s| == 0 then [x]
    else if cmp(x, s[0]) <= 0 then [x] + s
    else [s[0]] + InsertBy(cmp, x, s[1..])
  }

  /** Insertion sort of the rules with a comparator. */
  function SortBy(cmp: (Rule, Rule) -> int, s: seq<Rule>): (r: seq<Rule>)
    ensures |r| == |s|
  {
    if |s| == 0 then [] else InsertBy(cmp, s[0], SortBy(cmp, s[1..]))
  }

  /** SCIPsetSortBranchrules with the intended comparator. */
  function SortRules(s: seq<Rule>): (r: seq<Rule>)
    ensures |r| == |s|
  {
    SortBy(Comp, s)
  }

  ghost predicate SortedDesc(s: seq<Rule>) {
    forall i, j :: 0 <= i < j < |s| ==> s[i].priority >= s[j].priority
  }

  /** Insertion adds exactly the one rule. */
  lemma {:induction false} InsertPermutes(cmp: (Rule, Rule) -> int, x: Rule, s: seq<Rule>)
    ensures multiset(InsertBy(cmp, x, s)) == multiset(s) + multiset{x}
  {
    if |s| > 0 && cmp(x, s[0]) > 0 {
      var t := InsertBy(cmp, x, s[1..]);
      InsertPermutes(cmp, x, s[1..]);
      assert InsertBy(cmp, x, s) == [s[0]] + t;
      assert s == [s[0]] + s[1..];
      assert multiset([s[0]] + t) == multiset{s[0]} + multiset(t);
      assert multiset(s) == multiset{s[0]} + multiset(s[1..]);
    }
  }

  /** Insertion with the intended comparator keeps the order. */
  lemma {:induction false} InsertSorted(x: Rule, s: seq<Rule>)
    requires SortedDesc(s)
    ensures SortedDesc(InsertBy(Comp, x, s))
  {
    if |s| > 0 && Comp(x, s[0]) > 0 {
      var t := InsertBy(Comp, x, s[1..]);
      InsertSorted(x, s[1..]);
      InsertMembers(Comp, x, s[1..]);
      forall k | 0 <= k < |t| ensures s[0].priority >= t[k].priority {
        if t[k] != x {
          var j :| 0 <= j < |s[1..]| && s[1..][j] == t[k];
          assert s[j + 1] == t[k];
        }
      }
      ConsSorted(s[0], t);
      assert InsertBy(Comp, x, s) == [s[0]] + t;
    }
  }

  /** Every entry after an insertion is the inserted rule or an old one. */
  lemma {:induction false} InsertMembers(cmp: (Rule, Rule) -> int, x: Rule, s: seq<Rule>)
    ensures forall k :: 0 <= k < |s| + 1 ==> InsertBy(cmp, x, s)[k] == x || InsertBy(cmp, x, s)[k] in s
  {
    if |s| > 0 && cmp(x, s[0]) > 0 {
      InsertMembers(cmp, x, s[1..]);
      var t := InsertBy(cmp, x, s[1..]);
      var r := [s[0]] + t;
      assert InsertBy(cmp, x, s) == r;
      forall k | 1 <= k < |r| && r[k] != x ensures r[k] in s {
        assert r[k] == t[k - 1] && t[k - 1] in s[1..];
      }
      assert r[0] == s[0];
    }
  }

  /** A rule of priority at least every entry's heads a sorted sequence. */
  lemma ConsSorted(a: Rule, t: seq<Rule>)
    requires SortedDesc(t) && forall k :: 0 <= k < |t| ==> a.priority >= t[k].priority
    ensures SortedDesc([a] + t)
  {
    var r := [a] + t;
    forall i, j | 0 <= i < j < |r| ensures r[i].priority >= r[j].priority {
      assert r[j] == t[j - 1];
      if i > 0 { assert r[i] == t[i - 1]; }
    }
  }

  /** Sorting yields a permutation ordered by descending priority. */
  lemma {:induction false} SortRulesSound(s: seq<Rule>)
    ensures SortedDesc(SortRules(s))
    ensures multiset(SortRules(s)) == multiset(s)
  {
    if |s| > 0 {
      SortRulesSound(s[1..]);
      InsertSorted(s[0], SortRules(s[1..]));
      InsertPermutes(Comp, s[0], SortRules(s[1..]));
      assert s == [s[0]] + s[1..];
    }
  }

  /** The as-written comparator as a value of the sort's comparator type. */
  function CompAsWrittenInt(a: Rule, b: Rule): int {
    CompAsWritten(a, b)
  }

  /** SCIPsetSortBranchrules with the comparator as written. */
  function SortRulesAsWritten(s: seq<Rule>): (r: seq<Rule>)
    ensures |r| == |s|
  {
    SortBy(CompAsWrittenInt, s)
  }

  /** Sorting with the as-written comparator puts the rule of priority INT_MIN
      before the rule of priority 1. */
  lemma SortAsWrittenMisorders()
    ensures var a := CreateRule("a", 1, -1, 1.0, None, None);
      var b := CreateRule("b", IntMin, -1, 1.0, None, None);
      var r := SortRulesAsWritten([a, b]);
      r == [b, a] && !SortedDesc(r)
  {
    var a := CreateRule("a", 1, -1, 1.0, None, None);
    var b := CreateRule("b", IntMin, -1, 1.0, None, None);
    assert CompAsWrittenInt(a, b) == IntMax;
    assert SortBy(CompAsWrittenInt, [b]) == [b];
    assert [a, b][1..] == [b];
    assert InsertBy(CompAsWrittenInt, a, [b]) == [b] + InsertBy(CompAsWrittenInt, a, []);
    var r := SortRulesAsWritten([a, b]);
    assert r == [b, a];
    assert r[0].priority < r[1].priority;
  }

  /** Within the 32-bit range the wrap-around changes nothing. */
  lemma Wrap32InRange(x: int)
    requires IntMin <= x <= IntMax
    ensures Wrap32(x) == x
  {
  }

  /** When the priority of `x` lies within INT_MAX of every entry's, inserting
      it with the as-written comparator is inserting it with the intended one. */
  lemma {:induction false} InsertAsWrittenAgrees(x: Rule, s: seq<Rule>)
    requires forall k :: 0 <= k < |s| ==> IntMin <= s[k].priority - x.priority <= IntMax
    ensures InsertBy(CompAsWrittenInt, x, s) == InsertBy(Comp, x, s)
  {
    if |s| > 0 {
      Wrap32InRange(s[0].priority - x.priority);
      InsertAsWrittenAgrees(x, s[1..]);
    }
  }

  /** While no two priorities lie more than INT_MAX apart, the subtraction
      does not wrap and the as-written sort is the intended one. */
  lemma {:induction false} SortAsWrittenAgrees(s: seq<Rule>)
    requires forall i, j :: 0 <= i < |s| && 0 <= j < |s| ==> s[i].priority - s[j].priority <= IntMax
    ensures SortRulesAsWritten(s) == SortRules(s)
  {
    if |s| > 0 {
      SortAsWrittenAgrees(s[1..]);
      var t := SortRules(s[1..]);
      SortRulesSound(s[1..]);
      forall k | 0 <= k < |t| ensures IntMin <= t[k].priority - s[0].priority <= IntMax {
        assert t[k] in multiset(s[1..]);
        var j :| 0 <= j < |s[1..]| && s[1..][j] == t[k];
        assert s[j + 1] == t[k];
      }
      InsertAsWrittenAgrees(s[0], t);
    }
  }

  /** Rules registered with priorities 5, 10 and 1 are tried in the order 10,
      5, 1; two rules of equal priority keep their order of registration. */
  lemma SortRulesExample()
    ensures var a := CreateRule("a", 5, -1, 1.0, None, None);
            var b := CreateRule("b", 10, -1, 1.0, None, None);
            var c := CreateRule("c", 1, -1, 1.0, None, None);
            SortRules([a, b, c]) == [b, a, c]
    ensures var x := CreateRule("x", 2, -1, 1.0, None, None);
            var y := CreateRule("y", 2, -1, 1.0, None, None);
            SortRules([x, y]) == [x, y]
  {
    var a := CreateRule("a", 5, -1, 1.0, None, None);
    var b := CreateRule("b", 10, -1, 1.0, None, None);
    var c := CreateRule("c", 1, -1, 1.0, None, None);
    assert [a, b, c][1..] == [b, c] && [b, c][1..] == [c];
    assert SortBy(Comp, [c]) == [c];
    assert SortBy(Comp, [b, c]) == [b, c];
    assert InsertBy(Comp, a, [c]) == [a, c];
    assert InsertBy(Comp, a, [b, c]) == [b] + InsertBy(Comp, a, [c]);
    var x := CreateRule("x", 2, -1, 1.0, None, None);
    var y := CreateRule("y", 2, -1, 1.0, None, None);
    assert [x, y][1..] == [y];
    assert SortBy(Comp, [y]) == [y];
  }
}

=== FILE: score.dfy ===
/** Branching scores: the score of a branching computed from the predicted
    objective gains of its children. */
module Score {
  import opened Wrappers

  /** The score settings: the score function ('s' for a weighted sum, 'p' for a
      product), the weight of the larger gain in the sum, and the epsilon every
      gain is raised to. */
  datatype ScoreSettings = ScoreSettings(scorefunc: char, scorefac: real, sumepsilon: real)

  function Max(a: real, b: real): real {
    if a >= b then a else b
  }

  function Min(a: real, b: real): real {
    if a <= b then a else b
  }

  /** The sum with weight `w` on `a` and `1 - w` on `b`. */
  function WSum(w: real, a: real, b: real): real {
    w * a + (1.0 - w) * b
  }

  /** The score of two gains already raised to epsilon: the sum function weighs
      the larger gain with `scorefac` and the smaller with `1 - scorefac`, the
      product function multiplies them; any other score function aborts the
      solver (`None`). */
  function Combine(cfg: ScoreSettings, d: real, u: real): (r: Option<real>)
    ensures r.Some? <==> cfg.scorefunc == 's' || cfg.scorefunc == 'p'
  {
    if cfg.scorefunc == 's' then
      Some(if d > u then WSum(cfg.scorefac, d, u) else WSum(cfg.scorefac, u, d))
    else if cfg.scorefunc == 'p' then Some(d * u)
    else None
  }

  /** Applies a variable's branching factor, if a variable is given. */
  function Scale(sc: Option<real>, factor: Option<real>): (r: Option<real>)
    ensures r.Some? <==> sc.Some?
  {
    if sc.None? then None
    else if factor.Some? then Some(sc.value * factor.value)
    else sc
  }

  /** SCIPbranchGetScore: both gains are first raised to epsilon, then combined
      and scaled by the variable's branching factor. */
  function GetScore(cfg: ScoreSettings, factor: Option<real>, downgain: real, upgain: real): (r: Option<real>)
    ensures r.Some? <==> cfg.scorefunc == 's' || cfg.scorefunc == 'p'
  {
    Scale(Combine(cfg, Max(downgain, cfg.sumepsilon), Max(upgain, cfg.sumepsilon)), factor)
  }

  lemma MulMonotone(a: real, x: real, y: real)
    requires a >= 0.0 && x <= y
    ensures a * x <= a * y
  {
    assert a * y - a * x == a * (y - x);
  }

  /** The combination does not depend on the order of the gains. */
  lemma CombineSymmetric(cfg: ScoreSettings, d: real, u: real)
    ensures Combine(cfg, d, u) == Combine(cfg, u, d)
  {
    if cfg.scorefunc == 'p' {
      assert d * u == u * d;
    }
  }

  /** The score does not depend on which child is the down child. */
  lemma ScoreSymmetric(cfg: ScoreSettings, factor: Option<real>, downgain: real, upgain: real)
    ensures GetScore(cfg, factor, downgain, upgain) == GetScore(cfg, factor, upgain, downgain)
  {
    CombineSymmetric(cfg, Max(downgain, cfg.sumepsilon), Max(upgain, cfg.sumepsilon));
  }

  /** Gains below epsilon count as epsilon, so zero gains still let the
      branching factor decide. */
  lemma ScoreFloorsGains(cfg: ScoreSettings, factor: Option<real>, downgain: real, upgain: real)
    ensures GetScore(cfg, factor, downgain, upgain)
         == GetScore(cfg, factor, Max(downgain, cfg.sumepsilon), Max(upgain, cfg.sumepsilon))
  {
    assert Max(Max(downgain, cfg.sumepsilon), cfg.sumepsilon) == Max(downgain, cfg.sumepsilon);
    assert Max(Max(upgain, cfg.sumepsilon), cfg.sumepsilon) == Max(upgain, cfg.sumepsilon);
  }

  /** A weighted sum with a proper weight lies between its two terms. */
  lemma WSumBetween(w: real, hi: real, lo: real)
    requires 0.0 <= w <= 1.0 && lo <= hi
    ensures lo <= WSum(w, hi, lo) <= hi
  {
    var x := hi - lo;
    assert w * x >= 0.0;
    assert (1.0 - w) * x >= 0.0;
    assert WSum(w, hi, lo) == lo + w * x;
    assert lo + w * x == hi - (1.0 - w) * x;
  }

  /** A weighted sum with a proper weight grows with each term. */
  lemma WSumMonotone(w: real, a: real, a': real, b: real, b': real)
    requires 0.0 <= w <= 1.0 && a <= a' && b <= b'
    ensures WSum(w, a, b) <= WSum(w, a', b')
  {
    assert w * (a' - a) >= 0.0;
    assert (1.0 - w) * (b' - b) >= 0.0;
    assert WSum(w, a', b') == WSum(w, a, b) + w * (a' - a) + (1.0 - w) * (b' - b);
  }

  /** A weighted sum with a proper weight lies between its two gains. */
  lemma CombineRange(cfg: ScoreSettings, d: real, u: real)
    requires cfg.scorefunc == 's' && 0.0 <= cfg.scorefac <= 1.0
    ensures Min(d, u) <= Combine(cfg, d, u).value <= Max(d, u)
  {
    if d > u {
      WSumBetween(cfg.scorefac, d, u);
    } else {
      WSumBetween(cfg.scorefac, u, d);
    }
  }

  /** Without a variable, the sum score lies between the two raised gains when
      the weight is a proper weight. */
  lemma ScoreRange(cfg: ScoreSettings, downgain: real, upgain: real)
    requires cfg.scorefunc == 's' && 0.0 <= cfg.scorefac <= 1.0
    ensures var d, u := Max(downgain, cfg.sumepsilon), Max(upgain, cfg.sumepsilon);
      Min(d, u) <= GetScore(cfg, None, downgain, upgain).value <= Max(d, u)
  {
    CombineRange(cfg, Max(downgain, cfg.sumepsilon), Max(upgain, cfg.sumepsilon));
  }

  /** A larger gain never lowers a combination with a nonnegative other gain. */
  lemma CombineMonotone(cfg: ScoreSettings, d: real, d': real, u: real)
    requires cfg.scorefunc == 's' || cfg.scorefunc == 'p'
    requires 0.0 <= cfg.scorefac <= 1.0 && u >= 0.0 && d <= d'
    ensures Combine(cfg, d, u).value <= Combine(cfg, d', u).value
  {
    var w := cfg.scorefac;
    if cfg.scorefunc == 'p' {
      MulMonotone(u, d, d');
      assert d * u == u * d && d' * u == u * d';
    } else if d > u {
      WSumMonotone(w, d, d', u, u);
    } else if d' > u {
      WSumBetween(w, u, d);
      WSumBetween(w, d', u);
    } else {
      WSumMonotone(w, u, u, d, d');
    }
  }

  /** A nonnegative factor keeps the order of two scores. */
  lemma ScaleMonotone(sc: Option<real>, sc': Option<real>, factor: Option<real>)
    requires sc.Some? && sc'.Some? && sc.value <= sc'.value
    requires factor.Some? ==> factor.value >= 0.0
    ensures Scale(sc, factor).value <= Scale(sc', factor).value
  {
    if factor.Some? {
      MulMonotone(factor.value, sc.value, sc'.value);
      assert sc.value * factor.value == factor.value * sc.value;
      assert sc'.value * factor.value == factor.value * sc'.value;
    }
  }

  /** With a nonnegative epsilon, a proper weight and a nonnegative factor, a
      larger gain never lowers the score. */
  lemma ScoreMonotone(cfg: ScoreSettings, factor: Option<real>, downgain: real, downgain': real, upgain: real)
    requires cfg.scorefunc == 's' || cfg.scorefunc == 'p'
    requires cfg.sumepsilon >= 0.0 && 0.0 <= cfg.scorefac <= 1.0
    requires factor.Some? ==> factor.value >= 0.0
    requires downgain <= downgain'
    ensures GetScore(cfg, factor, downgain, upgain).value <= GetScore(cfg, factor, downgain', upgain).value
  {
    var d, d', u := Max(downgain, cfg.sumepsilon), Max(downgain', cfg.sumepsilon), Max(upgain, cfg.sumepsilon);
    CombineMonotone(cfg, d, d', u);
    ScaleMonotone(Combine(cfg, d, u), Combine(cfg, d', u), factor);
  }

  /** `min1` and `min2` are the smallest and second smallest of the gains,
      each capped at `infinity`. */
  ghost predicate TwoSmallest(gains: seq<real>, infinity: real, min1: real, min2: real) {
    && min1 <= min2 <= infinity
    && (forall i :: 0 <= i < |gains| ==> min1 <= gains[i])
    && (forall i, j :: 0 <= i < j < |gains| ==> min2 <= Max(gains[i], gains[j]))
    && (min1 < infinity ==> exists i :: 0 <= i < |gains| && gains[i] == min1)
    && (min2 < infinity ==>
          exists i, j :: 0 <= i < |gains| && 0 <= j < |gains| && i != j && gains[i] == min1 && gains[j] == min2)
  }

  /** A gain below the smallest becomes the smallest, the old smallest the
      second smallest. */
  lemma TwoSmallestNewFirst(g: seq<real>, x: real, infinity: real, m1: real, m2: real)
    requires TwoSmallest(g, infinity, m1, m2) && x < m1
    ensures TwoSmallest(g + [x], infinity, x, m1)
  {
    var g' := g + [x];
    if m1 < infinity {
      var i :| 0 <= i < |g| && g[i] == m1;
      assert g'[|g|] == x && g'[i] == m1;
    }
    assert g'[|g|] == x;
  }

  /** A gain between the two becomes the second smallest. */
  lemma TwoSmallestNewSecond(g: seq<real>, x: real, infinity: real, m1: real, m2: real)
    requires TwoSmallest(g, infinity, m1, m2) && m1 <= x < m2
    ensures TwoSmallest(g + [x], infinity, m1, x)
  {
    var g' := g + [x];
    var i :| 0 <= i < |g| && g[i] == m1;
    assert g'[|g|] == x && g'[i] == m1;
  }

  /** A gain no smaller than the second smallest changes neither. */
  lemma TwoSmallestKeep(g: seq<real>, x: real, infinity: real, m1: real, m2: real)
    requires TwoSmallest(g, infinity, m1, m2) && m2 <= x
    ensures TwoSmallest(g + [x], infinity, m1, m2)
  {
    var g' := g + [x];
    forall i | 0 <= i < |g'| ensures m1 <= g'[i] {
      if i < |g| { assert g'[i] == g[i]; }
    }
    forall i, j | 0 <= i < j < |g'| ensures m2 <= Max(g'[i], g'[j]) {
      if j < |g| { assert g'[i] == g[i] && g'[j] == g[j]; }
    }
    if m2 < infinity {
      var i, j :| 0 <= i < |g| && 0 <= j < |g| && i != j && g[i] == m1 && g[j] == m2;
      assert g'[i] == m1 && g'[j] == m2;
    } else if m1 < infinity {
      var i :| 0 <= i < |g| && g[i] == m1;
      assert g'[i] == m1;
    }
  }

  /** The loop of SCIPbranchGetScoreMultiple: the two smallest gains. */
  method SmallestGains(gains: seq<real>, infinity: real) returns (min1: real, min2: real)
    ensures TwoSmallest(gains, infinity, min1, min2)
    ensures |gains| == 0 ==> min1 == infinity && min2 == infinity
  {
    min1 := infinity;
    min2 := infinity;
    for c := 0 to |gains|
      invariant TwoSmallest(gains[..c], infinity, min1, min2)
      invariant c == 0 ==> min1 == infinity && min2 == infinity
    {
      assert gains[..c + 1] == gains[..c] + [gains[c]];
      if gains[c] < min1 {
        TwoSmallestNewFirst(gains[..c], gains[c], infinity, min1, min2);
        min2 := min1;
        min1 := gains[c];
      } else if gains[c] < min2 {
        TwoSmallestNewSecond(gains[..c], gains[c], infinity, min1, min2);
        min2 := gains[c];
      } else {
        TwoSmallestKeep(gains[..c], gains[c], infinity, min1, min2);
      }
    }
    assert gains[..|gains|] == gains;
  }

  /** SCIPbranchGetScoreMultiple: the score of the two smallest gains. */
  method GetScoreMultiple(cfg: ScoreSettings, factor: Option<real>, gains: seq<real>, infinity: real)
    returns (score: Option<real>)
    ensures exists min1, min2 :: TwoSmallest(gains, infinity, min1, min2)
                                 && score == GetScore(cfg, factor, min1, min2)
    ensures |gains| == 0 ==> score == GetScore(cfg, factor, infinity, infinity)
  {
    var min1, min2 := SmallestGains(gains, infinity);
    score := GetScore(cfg, factor, min1, min2);
  }

  /** Any candidate for the smallest gain is at most any other. */
  lemma FirstLeq(gains: seq<real>, infinity: real, a1: real, a2: real, b1: real, b2: real)
    requires TwoSmallest(gains, infinity, a1, a2) && TwoSmallest(gains, infinity, b1, b2)
    ensures a1 <= b1
  {
    if b1 < infinity {
      var i :| 0 <= i < |gains| && gains[i] == b1;
    }
  }

  /** Any candidate for the second smallest gain is at most any other. */
  lemma SecondLeq(gains: seq<real>, infinity: real, a1: real, a2: real, b1: real, b2: real)
    requires TwoSmallest(gains, infinity, a1, a2) && TwoSmallest(gains, infinity, b1, b2)
    ensures a2 <= b2
  {
    if b2 < infinity {
      var i, j :| 0 <= i < |gains| && 0 <= j < |gains| && i != j && gains[i] == b1 && gains[j] == b2;
      MaxPair(gains, infinity, a1, a2, i, j);
    }
  }

  /** The two smallest gains are determined by the gains. */
  lemma TwoSmallestUnique(gains: seq<real>, infinity: real, a1: real, a2: real, b1: real, b2: real)
    requires TwoSmallest(gains, infinity, a1, a2) && TwoSmallest(gains, infinity, b1, b2)
    ensures a1 == b1 && a2 == b2
  {
    FirstLeq(gains, infinity, a1, a2, b1, b2);
    FirstLeq(gains, infinity, b1, b2, a1, a2);
    SecondLeq(gains, infinity, a1, a2, b1, b2);
    SecondLeq(gains, infinity, b1, b2, a1, a2);
  }

  lemma MaxPair(gains: seq<real>, infinity: real, m1: real, m2: real, i: nat, j: nat)
    requires TwoSmallest(gains, infinity, m1, m2)
    requires i < |gains| && j < |gains| && i != j
    ensures m2 <= Max(gains[i], gains[j])
  {
    if j < i {
      assert m2 <= Max(gains[j], gains[i]);
    }
  }
}

=== FILE: vars.dfy ===
/** Problem variables as the branching core sees them, the 32-bit integer range of
    the solver's priorities, and the swap of two array slots that every candidate
    array move is built from. */
module Vars {

  const IntMin: int := -0x8000_0000
  const IntMax: int := 0x7fff_ffff

  /** A value of the C type `int`. */
  type Int32 = x: int | IntMin <= x <= IntMax

  /** Wrap-around of an unbounded integer into the 32-bit two's complement range. */
  function Wrap32(x: int): (r: Int32)
    ensures (r - x) % 0x1_0000_0000 == 0
  {
    (x - IntMin) % 0x1_0000_0000 + IntMin
  }

  /** The most negative finite double (-DBL_MAX), the "no factor yet" sentinel. */
  const RealMin: real := -179769313486231570814527423731704356798070567525844996598917476803157260780028538760589558632766878171540458953514382464234321326889464182768467546703537516986049910576551282076245490090389328944075868508455133942304583236903222948165808559332123348274797826204144723168738177180919299881250404026184124858368.0

  datatype VarType = Binary | Integer | ImplInt | Continuous

  datatype VarStatus = Original | Loose | Column | Fixed | Aggregated | MultAggr | Negated

  /** A problem variable: its identity, type, status, local bounds, branching
      priority and branching factor. The back-pointer into the pseudo candidate
      array is kept by the candidate store (see PseudoCands). */
  datatype Var = Var(
    id: nat,
    vartype: VarType,
    status: VarStatus,
    lb: real,
    ub: real,
    priority: Int32,
    factor: real)

  predicate Discrete(v: Var) {
    v.vartype != Continuous
  }

  /** A variable must be a pseudo branching candidate iff it is active (loose or
      a column), not continuous, and its local domain is not a single value. */
  predicate ShouldBePseudoCand(v: Var) {
    && (v.status == Loose || v.status == Column)
    && v.vartype != Continuous
    && v.lb < v.ub
  }

  /** Exchanges the entries at positions i and j. */
  function Swap<T>(s: seq<T>, i: nat, j: nat): (r: seq<T>)
    requires i < |s| && j < |s|
    ensures |r| == |s| && r[i] == s[j] && r[j] == s[i]
    ensures forall k :: 0 <= k < |s| && k != i && k != j ==> r[k] == s[k]
  {
    s[i := s[j]][j := s[i]]
  }

  /** A swap only permutes the sequence. */
  lemma SwapPermutes<T>(s: seq<T>, i: nat, j: nat)
    requires i < |s| && j < |s|
    ensures multiset(Swap(s, i, j)) == multiset(s)
  {
    if i != j {
      calc {
        multiset(Swap(s, i, j));
        multiset(s[i := s[j]]) - multiset{s[i := s[j]][j]} + multiset{s[i]};
        multiset(s) - multiset{s[i]} + multiset{s[j]} - multiset{s[j]} + multiset{s[i]};
      }
    }
  }
}

=== FILE: wrappers.dfy ===
/** Failure-compatible wrappers used across the model. */
module Wrappers {

  /** An optional value: `None` plays the role of a NULL pointer in the solver. */
  datatype Option<+T> = None | Some(value: T)

  /** Either a value or one of the solver's error return codes. */
  datatype Result<+R, +E> = Success(value: R) | Failure(error: E) {
    predicate IsFailure() { Failure? }

    function PropagateFailure<U>(): Result<U, E>
      requires Failure?
    {
      Failure(error)
    }

    function Extract(): R
      requires Success?
    {
      value
    }
  }
}
